=== FILE: README.md ===
# CSharpToES in Dafny

A model of the converter that turns the C# model classes of a source
directory into ES modules: for every `.cs` file one `.js` file with a
documented `export const` object per enum and an `export class` per class,
struct, record or interface, with private fields, typed and clamped
accessors, `toJSON`/`fromJSON`/`fromObject` and the `import` lines the file
needs from its siblings.

The model follows the program's structure, one module per file:

- `Text` (text.dfy): the .NET string operations the converter is built
  from (`Split`, `Join`, `Trim`, `IndexOf`, `LastIndexOf`, `Replace`,
  `Int64.ToString`, `int.Parse`), with their round trips.
- `PropertyTypes` (property_types.dfy): `StructureProperty._SetTypeInformation`,
  the classifier that turns a declared type text into flags, an ES type,
  bounds and a default, recursing into list, dictionary and array element
  types. `PropertyTypeFacts` (property_type_facts.dfy) states the table row
  by row against an independent definition of the integer widths, and the
  composite shapes by their parts.
- `Syntax` and `Models` (syntax.dfy, models.dfy): the declarations the
  parser reads (what Roslyn would hand it) and the records it fills
  (`EnumModel`, `StructureModel`, `StructureProperty`, `Parent`, `Import`,
  `StructureFileModel`).
- `Extract` (extract.dfy): `ModelsParser.Parse` and its helpers: enum
  numbering, documentation lines, base lists, `[Range]` attributes, initial
  values, and the three passes over a file's members. `ExtractFacts`
  (extract_facts.dfy) and `PassFacts` (pass_facts.dfy) state what each
  produces, as round trips from the text a C# author writes and member by
  member for the passes.
- `Linker` (linker.dfy): the cross-file pass of `StructureFilesParser.Parse`
  that binds property types and base classes to models and collects the
  imports.
- `EsFileWriter` (writer.dfy): the line buffer with its indentation level.
  Emitters are written as trees of blocks; `Calls` flattens them into
  writer calls and `Render` gives their lines, and the two are proved to
  agree.
- `EnumEmitter` and `ClassEmitter` (emit_enum.dfy, emit_class.dfy):
  `EnumModel.GenerateEs6FileLines` and `StructureModel.GenerateEs6FileLines`.
- `StructureFiles` (structure_files.dfy): `StructureFilesParser.Parse` as a
  whole: change detection against the saved write times, the destination
  paths, parsing, linking, writing each file and saving the times.

## Model

| member | source | states |
|---|---|---|
| Text.IndexOf | TottiWatti.CSharpToES/ModelsParser.cs:321-322 | `String.IndexOf(char)`: -1 exactly when the character is absent, otherwise a position holding it with none before |
| Text.LastIndexOf | TottiWatti.CSharpToES/ModelsParser.cs:344-345 | `String.LastIndexOf(char)`: -1 exactly when the character is absent, otherwise a position holding it with none after |
| Text.IndexOfText | TottiWatti.CSharpToES/ModelsParser.cs:297-298 | `String.IndexOf(string)`: the first position where the text occurs, with no occurrence before it, or -1 when it occurs nowhere |
| Text.Split | TottiWatti.CSharpToES/ModelsParser.cs:95-104 | `String.Split(char[])`: at least one piece, no piece holds a separator, and a text without separators is its own single piece |
| Text.SplitJoin | TottiWatti.CSharpToES/ModelsParser.cs:95-104 | splitting on a character undoes joining with it when no part holds that character |
| Text.JoinSplit | TottiWatti.CSharpToES/ModelsParser.cs:95-104 | joining the pieces of a split with its single separator gives the text back |
| Text.SplitTextJoin | TottiWatti.CSharpToES/ModelsParser.cs:238-245 | splitting on a text undoes joining with it when no part holds the separator's first character |
| Text.Trim | TottiWatti.CSharpToES/ModelsParser.cs:100-102 | `String.Trim()`: the result is a slice of the text with only white space cut from either side, and neither of its ends is white space |
| Text.TrimIdempotent | TottiWatti.CSharpToES/ModelsParser.cs:100-102 | trimming twice is trimming once |
| Text.RemoveChar | TottiWatti.CSharpToES/ModelsParser.cs:348 | `Replace(c.ToString(), "")`: exactly the other characters remain, and a text without `c` is unchanged |
| Text.RemoveCharConcat | TottiWatti.CSharpToES/ModelsParser.cs:348 | removing a character from two joined texts is joining the two removals |
| Text.RemoveCharLength | TottiWatti.CSharpToES/ModelsParser.cs:348 | removing a character shortens the text by exactly its number of occurrences |
| Text.ReplaceChar | TottiWatti.CSharpToES/ModelsParser.cs:348 | `Replace(a, b)`: position by position, `a` becomes `b` and nothing else changes |
| Text.DecimalTextRoundTrip | TottiWatti.CSharpToES/StructureProperty.cs:235-312 | the decimal text the table records for a bound parses back to that very integer |
| Text.ParseInt32 | TottiWatti.CSharpToES/ModelsParser.cs:321-329 | `int.Parse`: a value exactly when the text is decimal and in the 32-bit range |
| PropertyTypes.Classify | TottiWatti.CSharpToES/StructureProperty.cs:154-359 | the classifier keeps the declared text as `Type`, flags an array exactly when the text ends in `]`, and never records an array element type |
| PropertyTypeFacts.TableRow | TottiWatti.CSharpToES/StructureProperty.cs:228-357 | a name of the `switch` table is native, not composite, and gets its row's ES type, flags, bounds and default |
| PropertyTypeFacts.IntegerBounds | TottiWatti.CSharpToES/StructureProperty.cs:235-312 | every integral keyword is a native integral number defaulting to `0`, and its bound texts parse to exactly the range of its signed or unsigned width |
| PropertyTypeFacts.FloatingTypes | TottiWatti.CSharpToES/StructureProperty.cs:313-337 | `float`, `Single`, `double` and `decimal` are native numbers that are never integral, map to `number`, default to `0` and carry both bounds |
| PropertyTypeFacts.UnboundedTypes | TottiWatti.CSharpToES/StructureProperty.cs:230-234 | `bool` and `string` are native, not numeric, have no bounds, and map to `boolean`/`string` with defaults `false`/`''` |
| PropertyTypeFacts.DateTimeBounds | TottiWatti.CSharpToES/StructureProperty.cs:345-353 | `DateTime` maps to `Date`, defaults to `new Date()` and is bounded by the earliest and latest ES dates |
| PropertyTypeFacts.ListOf | TottiWatti.CSharpToES/StructureProperty.cs:161-174 | `List<e>` is a list of the trimmed `e` with ES type `e[]`, and throws exactly when `e` does |
| PropertyTypeFacts.DictionaryOf | TottiWatti.CSharpToES/StructureProperty.cs:176-196 | `Dictionary<k,v>` records the trimmed key and value types with ES type `Map<k,v>`, and throws exactly when either does |
| PropertyTypeFacts.DictionaryWithoutComma | TottiWatti.CSharpToES/StructureProperty.cs:186-190 | a dictionary whose arguments hold no comma throws: the missing second argument is read |
| PropertyTypeFacts.ArrayOf | TottiWatti.CSharpToES/StructureProperty.cs:198-225 | `e[...]` is an array of the trimmed `e`, multi-dimensional exactly when the bracket part is longer than `[]` (jagged arrays included), with ES type `e[]` or `e[][]` |
| PropertyTypeFacts.ListArrayOf | TottiWatti.CSharpToES/StructureProperty.cs:161-225 | `List<e>[]` is both a list and an array: its list element is the trimmed `e`, it is not multi-dimensional, and its ES type is `e[][]`; it throws exactly when `e` does |
| PropertyTypeFacts.UnknownName | TottiWatti.CSharpToES/StructureProperty.cs:354-357 | a name outside the table and not composite is not native, keeps its own text as ES type, and has no bounds or default |
| PropertyTypeFacts.CompositeNotInTable | TottiWatti.CSharpToES/StructureProperty.cs:161-228 | a list, dictionary or array text is never a row of the table |
| Extract.FirstSummary | TottiWatti.CSharpToES/ModelsParser.cs:236-238 | the first element whose start tag is `summary`, or -1 when there is none |
| Extract.DocLines | TottiWatti.CSharpToES/ModelsParser.cs:226-257 | every documentation line is non-empty and already trimmed |
| ExtractFacts.DocLinesRoundTrip | TottiWatti.CSharpToES/ModelsParser.cs:226-257 | the lines written as `/// line` in the first summary come back exactly, whatever elements precede it |
| Extract.NumberMembers | TottiWatti.CSharpToES/ModelsParser.cs:42-59 | one member per declared member, in order, with its name and documentation |
| Extract.NumberingClosedForm | TottiWatti.CSharpToES/ModelsParser.cs:42-59 | a member with an explicit value keeps it; any other member gets the start value plus the number of earlier members without one |
| ExtractFacts.NullValueKeepsZero | TottiWatti.CSharpToES/ModelsParser.cs:48-52 | wherever the counter stands, an explicit value with no token value leaves the `0` a new member starts with (EnumModel.cs:97) |
| ExtractFacts.ExplicitValuesSkipped | TottiWatti.CSharpToES/ModelsParser.cs:42-59 | two members without a value that have only members with one between them are numbered consecutively: explicit values do not advance the counter |
| Extract.EnumOf | TottiWatti.CSharpToES/ModelsParser.cs:27-76 | an enum is dropped exactly when its first line mentions `private`; otherwise its members keep their names and order, and its values list is its members' values |
| Extract.BaseNames | TottiWatti.CSharpToES/ModelsParser.cs:95-104 | one trimmed entry per comma-separated piece of the base list |
| ExtractFacts.BaseNamesOfJoin | TottiWatti.CSharpToES/ModelsParser.cs:95-104 | a base list written as comma-separated names gives every name back, trimmed, in order |
| Extract.RangeAttribute | TottiWatti.CSharpToES/ModelsParser.cs:138-157 | bounds only for a `[Range(` attribute, and they hold no separator |
| ExtractFacts.RangeRoundTrip | TottiWatti.CSharpToES/ModelsParser.cs:138-157 | `[Range(a,b)]` gives `a` and `b` back untrimmed |
| ExtractFacts.ScanRangesIsLast | TottiWatti.CSharpToES/ModelsParser.cs:138-157 | the last range attribute wins; without one the bounds stay as found |
| Extract.DateArguments | TottiWatti.CSharpToES/ModelsParser.cs:297-316 | the arguments of a date call are non-empty and hold no `(` |
| ExtractFacts.DateConstructorRoundTrip | TottiWatti.CSharpToES/ModelsParser.cs:297-308 | `new DateTime(args)` keeps its arguments |
| Extract.ParseAll | TottiWatti.CSharpToES/ModelsParser.cs:321-329 | all sizes parse, one value per piece, or some piece fails `int.Parse` |
| ExtractFacts.ArrayDimensionsRoundTrip | TottiWatti.CSharpToES/ModelsParser.cs:319-329 | `new T[d1,...,dn]` states the sizes `d1..dn` |
| Extract.CollectionLiteral | TottiWatti.CSharpToES/ModelsParser.cs:342-354 | the ES literal holds no brace, double quote or space |
| ExtractFacts.CollectionLiteralRoundTrip | TottiWatti.CSharpToES/ModelsParser.cs:342-354 | `new List<T> { a, b, c }` becomes `[a,b,c]` |
| Extract.InitialValue | TottiWatti.CSharpToES/ModelsParser.cs:259-364 | array sizes are stated only for an array initializer |
| Extract.CollectionValue | TottiWatti.CSharpToES/ModelsParser.cs:319-356 | sizes only for arrays; a list or array value holds no brace, double quote or space |
| ExtractFacts.ListInitializer | TottiWatti.CSharpToES/ModelsParser.cs:342-354 | a list initialized with `new List<T> { a, b }` starts as `[a,b]` with no sizes |
| ExtractFacts.ArrayInitializer | TottiWatti.CSharpToES/ModelsParser.cs:319-329 | `new T[d1,...,dn]` starts as an empty ES array with sizes `d1..dn` |
| ExtractFacts.JaggedInitializer | TottiWatti.CSharpToES/ModelsParser.cs:330-338 | a jagged initializer with more `[` than sizes gets a trailing size 0 |
| ExtractFacts.NamedSizeInitializer | TottiWatti.CSharpToES/ModelsParser.cs:321-329 | a size written as a name makes `int.Parse` throw, leaving an empty value and no sizes |
| ExtractFacts.DateInitializer | TottiWatti.CSharpToES/ModelsParser.cs:297-308 | `new DateTime(args)` starts as `new Date(args)` |
| ExtractFacts.NowInitializer | TottiWatti.CSharpToES/ModelsParser.cs:295 | an initializer ending in `Now` starts as `new Date()` |
| ExtractFacts.ParseInitializer | TottiWatti.CSharpToES/ModelsParser.cs:309-316 | a `Parse(args)` call starts as `new Date(args)` |
| ExtractFacts.StringInitializer | TottiWatti.CSharpToES/ModelsParser.cs:288-291 | a string literal is put in single quotes |
| ExtractFacts.BoolInitializer | TottiWatti.CSharpToES/ModelsParser.cs:283-286 | a `bool` keeps its initializer's text |
| ExtractFacts.BoundValues | TottiWatti.CSharpToES/ModelsParser.cs:273-281 | `.MinValue` and `.MaxValue` become the type's bound texts |
| Extract.PropertyType | TottiWatti.CSharpToES/ModelsParser.cs:130 | the declared type without `?`, made only of characters of the declaration |
| Extract.NewProperty | TottiWatti.CSharpToES/ModelsParser.cs:124-175 | a property exists exactly when its type classifies, and then carries that classification and the documentation lines of its comment; it keeps its name, is nullable exactly for `Nullable` types, has the declared range bounds and an initial value (with its array sizes) exactly when declared, and is not yet linked |
| Extract.CaptureMember | TottiWatti.CSharpToES/ModelsParser.cs:122-217 | a public property, or a public field's first variable, is captured exactly when its type classifies and throws exactly when it does not; other members are skipped |
| Extract.FirstClassNamed | TottiWatti.CSharpToES/ModelsParser.cs:165-173 | the first class of the file with the name, or -1 when there is none |
| Extract.Attach | TottiWatti.CSharpToES/ModelsParser.cs:165-173 | the property is appended to the first class named as its owner and nothing else changes |
| Extract.CapturePass | TottiWatti.CSharpToES/ModelsParser.cs:122-223 | the property pass only appends properties to the classes |
| Extract.EnumsOf | TottiWatti.CSharpToES/ModelsParser.cs:27-32 | a member gives one enum exactly when it is an enum whose first line does not mention `private` |
| Extract.ClassesOf | TottiWatti.CSharpToES/ModelsParser.cs:80-119 | a member gives one class, without properties, exactly when it is a type declaration |
| Extract.ParseMembers | TottiWatti.CSharpToES/ModelsParser.cs:19-224 | the file's enums are those of the enum pass, and its classes those of the class pass with properties appended |
| PassFacts.ClassPassAt | TottiWatti.CSharpToES/ModelsParser.cs:80-119 | the classes of the first `k + 1` members are those of the first `k` followed by member `k`'s own |
| PassFacts.ClassPassPrefix | TottiWatti.CSharpToES/ModelsParser.cs:80-119 | the classes of a prefix of the members start the classes of the whole |
| PassFacts.EnumPassAt | TottiWatti.CSharpToES/ModelsParser.cs:27-76 | the enums of the first `k + 1` members are those of the first `k` followed by member `k`'s own |
| PassFacts.EnumPassPrefix | TottiWatti.CSharpToES/ModelsParser.cs:27-76 | the enums of a prefix of the members start the enums of the whole |
| PassFacts.CapturePassProperties | TottiWatti.CSharpToES/ModelsParser.cs:122-223 | after the property pass every class holds its properties followed by the captured properties it owns, in member order |
| PassFacts.CapturePassStops | TottiWatti.CSharpToES/ModelsParser.cs:219-223 | the first member whose type throws ends the pass: nothing after it is captured |
| PassFacts.ParseMembersClasses | TottiWatti.CSharpToES/ModelsParser.cs:19-224 | class `k` of a file is class `k` of the class pass with exactly the captured properties whose owner's first class is `k` |
| Linker.FindClass | CSharpToES/StructureFilesParser.cs:130 | the first class of the program with the name, files in order: no earlier file or earlier class of its file has that name, and none at all when missing |
| Linker.FindEnum | CSharpToES/StructureFilesParser.cs:131 | the first enum of the program with the name, in the same order |
| Linker.ImportSourceIsLinkedFile | CSharpToES/StructureFilesParser.cs:133-140 | a property is imported from the file of the class it was bound to, or failing that of the enum |
| Linker.FirstImportFor | CSharpToES/StructureFilesParser.cs:143 | the first import from a file, or -1 |
| Linker.AddImport | CSharpToES/StructureFilesParser.cs:143-157 | earlier imports keep their files and elements, and at most one new import, for the file with the element, is appended |
| Linker.AddImportMembership | CSharpToES/StructureFilesParser.cs:143-157 | after adding, exactly the earlier imported elements and the new one are imported |
| Linker.AddImportWellFormed | CSharpToES/StructureFilesParser.cs:143-157 | adding keeps at most one import per file and no element twice in one import |
| Linker.AddImportPresent | CSharpToES/StructureFilesParser.cs:146-149 | adding an element already imported from that file changes nothing |
| Linker.AddImportIdempotent | CSharpToES/StructureFilesParser.cs:143-157 | adding the same import twice is adding it once |
| Linker.ArrayRefersToItself | CSharpToES/StructureFilesParser.cs:111-128 | the name a property refers to is its list element, else its dictionary value, else its own type: the array branch never applies |
| Linker.LinkProperty | CSharpToES/StructureFilesParser.cs:107-131 | a native property is untouched; any other is bound to the first class and the first enum of the name it refers to, all else kept |
| Linker.PropertyImport | CSharpToES/StructureFilesParser.cs:133-159 | a property adds either nothing or one import from another file, never its own |
| Linker.PropertyImportFrom | CSharpToES/StructureFilesParser.cs:141-157 | a property whose class or enum is declared in another file is imported from that file |
| Linker.LinkProperties | CSharpToES/StructureFilesParser.cs:107-161 | every property of a class linked, in order |
| Linker.LinkParentIsLast | CSharpToES/StructureFilesParser.cs:164-194 | a base class is bound to the first class of its name in the last file declaring it (the class's own file included), and left as it is when no file does |
| Linker.LastFromIsLast | CSharpToES/StructureFilesParser.cs:166-171 | the file found is the last one declaring a class of the name |
| Linker.LinkParentImports | CSharpToES/StructureFilesParser.cs:166-191 | every file declaring the base class, the class's own file included, ends up imported for it |
| Linker.LinkParentKeeps | CSharpToES/StructureFilesParser.cs:176-190 | linking a base class never loses an import |
| Linker.LinkParents | CSharpToES/StructureFilesParser.cs:164 | every base-list entry linked, keeping its name and order |
| Linker.LinkClasses | CSharpToES/StructureFilesParser.cs:104-195 | the classes keep their names, namespaces, documentation and the number of properties and bases |
| Linker.LinkFile | CSharpToES/StructureFilesParser.cs:102-196 | a linked file keeps its paths, enums and class names |
| Linker.LinkProgram | CSharpToES/StructureFilesParser.cs:102-196 | every file is linked against the whole parsed program |
| Linker.LinkKeepsLocations | CSharpToES/StructureFilesParser.cs:130-131 | linking keeps every class and enum where it was and under its name, so a binding made during linking still names the same model afterwards |
| Linker.LinkProgramWellFormed | CSharpToES/StructureFilesParser.cs:143-190 | every linked file has at most one import per imported file and no element twice |
| EsFileWriter.Indent | TottiWatti.CSharpToES/EsFileWriter.cs:17-20 | the lines are untouched and the level is at least one |
| EsFileWriter.Outdent | TottiWatti.CSharpToES/EsFileWriter.cs:25-32 | the lines are untouched; above zero it undoes an `Indent`, at zero it does nothing |
| EsFileWriter.IndentedString | TottiWatti.CSharpToES/EsFileWriter.cs:80-83 | the text pushed right by exactly four spaces per level |
| EsFileWriter.AppendLine | TottiWatti.CSharpToES/EsFileWriter.cs:38-41 | one line more, the text at the current level; the level is kept |
| EsFileWriter.AppendBlank | TottiWatti.CSharpToES/EsFileWriter.cs:46-49 | one empty line more whatever the level; the level is kept |
| EsFileWriter.TriviaBlock | TottiWatti.CSharpToES/EsFileWriter.cs:55-73 | no lines for no documentation, `/** x */` for one line, otherwise `/**`, one `* ` line per line, `*/` |
| EsFileWriter.AppendStars | TottiWatti.CSharpToES/EsFileWriter.cs:65-70 | the loop appends one starred line per documentation line at the current level |
| EsFileWriter.AppendTrivia | TottiWatti.CSharpToES/EsFileWriter.cs:55-73 | the documentation block appended at the current level; the level is kept |
| EsFileWriter.TriviaSize | TottiWatti.CSharpToES/EsFileWriter.cs:55-73 | `AppendTrivia` adds 0 lines for none, 1 for one, and two more than the lines otherwise |
| EsFileWriter.Run | TottiWatti.CSharpToES/EsFileWriter.cs:38-49 | the writer only ever appends: earlier lines are never changed |
| EsFileWriter.RunLevel | TottiWatti.CSharpToES/EsFileWriter.cs:17-32 | calls whose `Outdent`s never go below zero end their net number of levels deeper |
| EsFileWriter.BalancedRestores | TottiWatti.CSharpToES/EsFileWriter.cs:17-32 | a balanced block of calls restores the level it started at |
| EsFileWriter.CallsBalanced | TottiWatti.CSharpToES/EsFileWriter.cs:17-32 | every `Outdent` an emitter makes meets one of its own `Indent`s |
| EsFileWriter.RunCalls | TottiWatti.CSharpToES/EsFileWriter.cs:17-49 | performing an emitter's calls appends exactly its rendered lines and keeps the level |
| EnumEmitter.EnumDoc | CSharpToES/EnumModel.cs:43-57 | the enum's documentation, `@readonly`, `@enum {number}`, then one `@property` entry per member in order |
| EnumEmitter.MemberBlocks | CSharpToES/EnumModel.cs:59-66 | each member's documentation then its line; only the last member's line has no comma |
| EnumEmitter.MemberRender | CSharpToES/EnumModel.cs:59-66 | the member loop writes each member's documentation block and line, in order |
| EnumEmitter.EnumLayout | CSharpToES/EnumModel.cs:39-76 | the enum writes its doc block and header at its level, the members one level deeper, then `}` and an empty line; the level is restored |
| ClassEmitter.PrivateBlocks | TottiWatti.CSharpToES/StructureModel.cs:62-67 | a `// private values` line, one private field per property in order, then an empty line |
| ClassEmitter.InitLine | TottiWatti.CSharpToES/StructureModel.cs:77-98 | a constructor line exactly for dictionaries, lists, arrays, initialized properties and those with a default; an uninitialized list or array gets `[]`, an initialized one its value |
| ClassEmitter.InitLines | TottiWatti.CSharpToES/StructureModel.cs:77-98 | the initialisation lines of the properties that have one, in property order, each assigning a private field |
| ClassEmitter.ConstructorBody | TottiWatti.CSharpToES/StructureModel.cs:70-101 | the constructor starts with `super();` exactly when the class has a base, and the rest of it is the initialisation lines in order |
| ClassEmitter.SetterOf | TottiWatti.CSharpToES/StructureModel.cs:155-162 | the setter clamps exactly under the clamping rule, between the `[Range]` bounds when there are some and the type's bounds otherwise, and rounds exactly for integral types |
| ClassEmitter.SetterText | TottiWatti.CSharpToES/StructureModel.cs:155-162 | the setter assigns the private field and ends in `;` exactly when it does not clamp |
| ClassEmitter.IntegralClamp | TottiWatti.CSharpToES/StructureModel.cs:155-162 | an integral property without range or enum is rounded and clamped to exactly the range of its width |
| ClassEmitter.FloatClamp | TottiWatti.CSharpToES/StructureModel.cs:155-162 | a `float` without range or enum is clamped to the `float` bounds without rounding |
| ClassEmitter.UnclampedTypes | TottiWatti.CSharpToES/StructureModel.cs:157 | `double`, `decimal`, `bool`, `string` and dates without a range are assigned unclamped |
| ClassEmitter.GuardOf | TottiWatti.CSharpToES/StructureModel.cs:175-201 | every property gets a type check: a date test exactly for dates, then a test against the enum's values exactly for enum-linked properties, `Array.isArray` exactly for lists and arrays, a `Map` test exactly for dictionaries, `typeof` with the ES type exactly for the remaining native types and `instanceof` with the type name for the rest |
| ClassEmitter.NullCheckFirst | TottiWatti.CSharpToES/StructureModel.cs:164-201 | a setter tests for `null` first exactly when the property is nullable, and otherwise starts with the type check |
| ClassEmitter.SetterRender | TottiWatti.CSharpToES/StructureModel.cs:152-206 | the setter's lines and their levels: the null branch, then the type check around the assignment |
| ClassEmitter.NonZeroTexts | TottiWatti.CSharpToES/StructureModel.cs:111 | the non-zero sizes are kept, and all are kept exactly when none is zero |
| ClassEmitter.ServerTypeIsDeclared | TottiWatti.CSharpToES/StructureModel.cs:108-118 | the server type shown is the declared type, since arrays never record an element type |
| ClassEmitter.JsonEntryBlocks | TottiWatti.CSharpToES/StructureModel.cs:233-244 | one `toJSON` entry per property in order; only the last has no comma |
| ClassEmitter.SerializerBody | TottiWatti.CSharpToES/StructureModel.cs:221-256 | the entries are wrapped in `Object.assign(super.toJSON(), {..})` exactly when the class has a base |
| ClassEmitter.Deserializer | TottiWatti.CSharpToES/StructureModel.cs:356-414 | a property's deserialiser opens with its `hasOwnProperty` test, and the rest is nested or closing |
| ClassEmitter.DateDeserializer | TottiWatti.CSharpToES/StructureModel.cs:358-361 | a date is read with `new Date(o.n)` on the test's line |
| ClassEmitter.DictionaryDeserializer | TottiWatti.CSharpToES/StructureModel.cs:362-394 | a dictionary opens its test, goes through `Object.entries(o.n)` behind a `null` test when nullable, and stores each value as it is for a native value type and through the value type's `fromObject` otherwise |
| ClassEmitter.ClassListDeserializer | TottiWatti.CSharpToES/StructureModel.cs:395-400 | a class-linked list with an element type is read with the element type's `fromObjectArray` |
| ClassEmitter.ClassArrayDeserializer | TottiWatti.CSharpToES/StructureModel.cs:401-404 | a class-linked array with an element type is read with the element type's `fromObjectArray`; no classified property reaches this branch, in the source as in the model, since the classifier never records an array element type (`ServerTypeIsDeclared`) |
| ClassEmitter.ClassDeserializer | TottiWatti.CSharpToES/StructureModel.cs:405-408 | any other class-linked property is read with its type's `fromObject` |
| ClassEmitter.CopiedDeserializer | TottiWatti.CSharpToES/StructureModel.cs:410-413 | every other property, an enum-linked one included, is copied as `val.n = o.n` |
| ClassEmitter.DeserializerTests | TottiWatti.CSharpToES/StructureModel.cs:356-414 | a deserialiser tests for its property exactly once |
| ClassEmitter.DeserializersTests | TottiWatti.CSharpToES/StructureModel.cs:298-301 | the deserialisers of some properties test for each once, in order |
| ClassEmitter.FromObjectTests | TottiWatti.CSharpToES/StructureModel.cs:273-308 | `fromObject` tests for every property of the linked base first, then for each of its own, in order |
| ClassEmitter.ClassLayout | TottiWatti.CSharpToES/StructureModel.cs:44-354 | the class writes its doc block, header and an empty line at its level, every member one level deeper, then `}`; the level is restored |
| StructureFiles.ScanChanges | CSharpToES/StructureFilesParser.cs:48-65 | the change loop finds a change exactly when one of the remaining files is unknown to the cache or has another write time |
| StructureFiles.NeedsConversion | CSharpToES/StructureFilesParser.cs:47-73 | a run converts exactly when a debugger is attached or some file changed; with no files only the debugger decides |
| StructureFiles.SaveTimesSpec | CSharpToES/StructureFilesParser.cs:224-230 | saving succeeds exactly when no two files share a full name, and then records every file's write time under its full name |
| StructureFiles.SavedTimesAreCurrent | CSharpToES/StructureFilesParser.cs:47-73 | the saved times make the same files look unchanged |
| StructureFiles.StemLength | CSharpToES/StructureFilesParser.cs:90-91 | `Path.ChangeExtension` cuts at the last `.` after the last separator, or nowhere |
| StructureFiles.ChangeExtension | CSharpToES/StructureFilesParser.cs:90-91 | a non-empty path ends in `.js` after its stem |
| StructureFiles.ChangeExtensionIdempotent | CSharpToES/StructureFilesParser.cs:90-91 | changing the extension twice is changing it once |
| StructureFiles.ReplaceRemoves | CSharpToES/StructureFilesParser.cs:91 | replacing `\` with `/` leaves no `\` |
| StructureFiles.ReplacePrefix | CSharpToES/StructureFilesParser.cs:90-91 | a path under the source directory loses exactly that prefix |
| StructureFiles.RelativeDestinationFile | CSharpToES/StructureFilesParser.cs:91 | the module specifier starts with `.` and holds no `\` |
| StructureFiles.PathsOfSourceFile | CSharpToES/StructureFilesParser.cs:88-91 | `dir\name.cs` goes to the destination directory as `name.js` and is imported as `./name.js` with forward slashes |
| StructureFiles.ImportLines | CSharpToES/StructureFilesParser.cs:204-207 | one `import` line per import, in import order |
| StructureFiles.FileLayout | CSharpToES/StructureFilesParser.cs:198-222 | a written file is its import lines, an empty line, its enums, then its classes, and ends at level zero |
| StructureFiles.ParsedFile | CSharpToES/StructureFilesParser.cs:80-99 | a freshly parsed file has no imports |
| StructureFiles.Program | CSharpToES/StructureFilesParser.cs:80-196 | one linked file per source file |
| StructureFiles.Convert | CSharpToES/StructureFilesParser.cs:20-241 | a run fails for an empty source directory, does nothing exactly when no conversion is needed, and otherwise writes one file per source file and saves the times |
| StructureFiles.ConvertedFiles | CSharpToES/StructureFilesParser.cs:88-222 | every written file goes to its source's destination and starts with its well-formed import lines and an empty line |
| StructureFiles.SecondRunUnchanged | CSharpToES/StructureFilesParser.cs:47-73 | running again on untouched files with the saved times converts nothing |

## Left out

- Parsing C# text: the Roslyn syntax tree is the input. The declarations
  of a file (`Syntax.MemberDecl`, with the parts of the text the parser
  reads) come in member order.
- File I/O: the directory scan is an input, in the order it reports the
  files. Reading and writing files and the JSON cache format are not
  modelled: the cache is a map from full names to write times, and write
  times are integers.
- The debugger test (`Debugger.IsAttached`) is a parameter.
- StructureFiles.Convert: fails only for an empty source directory. In
  `Parse` every step runs inside one `try`, so a directory scan that
  throws (a missing or unreadable directory), a cache file that cannot be
  read or does not deserialise, or a write that fails also makes the run
  return 0. The scan, the cache and the writes are inputs and outputs of
  the model, so those failures are not modelled.
- Console output and `ConsoleException` are left out. So is `Program.cs`
  (argument handling and the process exit code); `StructureFiles.Outcome.ExitCode`
  gives the value `Parse` returns.
- Exceptions are outcomes. A type text that makes the classifier throw is
  `None`, and the rest of that file's property pass is skipped, as the
  catch-all in `ModelsParser.Parse` does. A size that `int.Parse` rejects
  gives an empty initial value. A duplicate full name while saving the
  times gives `Converted` with no saved times. The emitters' own catch-alls
  are not modelled: no branch the model reaches can throw there.
- Culture: `StartsWith`, `EndsWith`, `IndexOf(string)` and
  `LastIndexOf(string)` compare under the current culture in .NET, and
  `int.Parse` reads numbers under it. The model compares ordinally and
  parses invariant decimal text, which is what these do for the ASCII
  texts the converter meets. Ignorable code points and culture-specific
  digits or signs are not modelled.
- `Text.ParseInteger`: models `NumberStyles.Integer` (surrounding white
  space, one leading sign, decimal digits) without thousands separators or
  culture-specific signs.
- The float and double bounds are kept as the text .NET prints for
  `MinValue`/`MaxValue`; their values as binary floating point are not
  modelled.
- Paths: `Path.ChangeExtension` is modelled on `\` and `/` separators; drive
  roots, invalid path characters and normalisation are not.
- The emitters are modelled as block trees (`EsFileWriter.Block`), not as
  statement sequences over a mutable writer. `EsFileWriter.RunCalls`
  proves that performing the calls a tree stands for writes exactly its
  rendered lines.
- `EsFileWriter.Write`: writing the joined lines to disk is left out.
  `StructureFiles.Output` carries the lines and the destination.
- `EsFileWriter.Indent`: states that the level is at least one and that
  `Outdent` undoes it, not the increment on its own.
- `Extract.InitialValue`: its contract states only where sizes come from.
  Each rule is stated by its own lemma in `ExtractFacts`.
- `Extract.CapturePass`: its contract states only that properties are
  appended. Which properties go where is `PassFacts.CapturePassProperties`.
- `PassFacts.ClassPassAt` and `PassFacts.EnumPassAt`: state each member's
  contribution on a prefix. Together with `ClassPassPrefix`/`EnumPassPrefix`
  this places it in the whole result.
- `Linker.LinkClasses` and `Linker.LinkFile`: state what linking keeps.
  What it binds is stated per property and per base by `LinkProperty` and
  `LinkParentIsLast`.

=== FILE: emit_class.dfy ===
/** `StructureModel.GenerateEs6FileLines`: a class becomes an ES class with
    private fields, a constructor that initialises them, a getter and a
    guarded setter per property, and JSON (de)serialisers. Like the enum
    emitter it is written as the blocks it produces. Links are resolved
    in the linked program `files`: a property's `Class`/`Enum` and a
    parent's `Model` are the models their locations name. */
module ClassEmitter {
  import opened Text
  import opened PropertyTypes
  import opened PropertyTypeFacts
  import opened Models
  import opened EsFileWriter

  predicate Inherits(c: ClassModel) {
    |c.inheritsFrom| > 0
  }

  /** `!String.IsNullOrEmpty` on an optional text. */
  predicate Filled(o: Option<string>) {
    o.Some? && o.value != ""
  }

  /** An optional text interpolated into a line: null renders as nothing. */
  function OptText(o: Option<string>): string {
    if o.Some? then o.value else ""
  }

  /** The property's `Enum`: the enum its location names. */
  function LinkedEnum(files: seq<FileModel>, p: Property): Option<EnumModel> {
    if p.enumRef.Some? then EnumAt(files, p.enumRef.value) else None
  }

  /** The property's `Class`: the class its location names. */
  function LinkedClass(files: seq<FileModel>, p: Property): Option<ClassModel> {
    if p.classRef.Some? then ClassAt(files, p.classRef.value) else None
  }

  // ---------------------------------------------------------------------
  // Header and private fields

  /** `export class N {`, or `export class N extends P{` for a class with a
      base: the space before the brace belongs to the name. */
  function HeaderLine(c: ClassModel): string {
    "export class " + c.name + " " + (if Inherits(c) then "extends " + c.inheritsFrom[0].name else "") + "{"
  }

  function PrivateLine(p: Property): string {
    "/** @type {" + p.info.jsType + "} */ #" + p.name + ";"
  }

  /** One private field per property, in property order, between a
      comment line and a blank line. */
  function PrivateBlocks(ps: seq<Property>): (r: seq<Block>)
    ensures |r| == |ps| + 2
    ensures r[0] == Text("// private values") && r[|r| - 1] == Gap
    ensures forall k :: 0 <= k < |ps| ==> r[k + 1] == Text(PrivateLine(ps[k]))
  {
    [Text("// private values")] + seq(|ps|, k requires 0 <= k < |ps| => Text(PrivateLine(ps[k]))) + [Gap]
  }

  // ---------------------------------------------------------------------
  // Constructor

  /** The constructor line initialising a property, if any: a new `Map`
      for a dictionary, the initial value or `[]` for a list or array, the
      initial value or else the type's default for anything else. */
  function InitLine(p: Property): (r: Option<string>)
    ensures r.None? <==>
      !p.info.isDictionary && !p.info.isList && !p.info.isArray
      && !Filled(p.initialValue) && p.info.baseTypeDefaultValue == ""
    ensures r.Some? ==> StartsWith(r.value, "this.#" + p.name + " = ") && EndsWith(r.value, ";")
    ensures !p.info.isDictionary && (p.info.isList || p.info.isArray) && !Filled(p.initialValue) ==>
      r == Some("this.#" + p.name + " = " + "[];")
    ensures !p.info.isDictionary && Filled(p.initialValue) ==>
      r == Some("this.#" + p.name + " = " + p.initialValue.value + ";")
  {
    var lhs := "this.#" + p.name + " = ";
    if p.info.isDictionary then Some(lhs + "new Map();")
    else if p.info.isList || p.info.isArray then
      Some(if Filled(p.initialValue) then lhs + p.initialValue.value + ";" else lhs + "[];")
    else if Filled(p.initialValue) then Some(lhs + p.initialValue.value + ";")
    else if p.info.baseTypeDefaultValue != "" then Some(lhs + p.info.baseTypeDefaultValue + ";")
    else None
  }

  /** The values of the options that are present, in order. */
  function Present<T>(os: seq<Option<T>>): seq<T>
    decreases |os|
  {
    if |os| == 0 then []
    else (if os[0].Some? then [os[0].value] else []) + Present(os[1..])
  }

  /** The initialisation line of each property, in property order. */
  function InitOptions(ps: seq<Property>): (r: seq<Option<string>>)
    ensures |r| == |ps| && forall k :: 0 <= k < |ps| ==> r[k] == InitLine(ps[k])
  {
    seq(|ps|, k requires 0 <= k < |ps| => InitLine(ps[k]))
  }

  /** The initialisation lines of the properties that have one, in
      property order. */
  function InitLines(ps: seq<Property>): (r: seq<string>)
    ensures |r| <= |ps|
    ensures forall k :: 0 <= k < |r| ==> StartsWith(r[k], "this.#")
    ensures (forall k :: 0 <= k < |ps| ==> InitLine(ps[k]).Some?) ==> |r| == |ps|
    ensures r == Present(InitOptions(ps))
    decreases |ps|
  {
    if |ps| == 0 then []
    else
      var rest := InitLines(ps[1..]);
      InitLinesStep(ps, rest);
      match InitLine(ps[0])
      case Some(l) =>
        assert StartsWith(l, "this.#") by { StartsWithPrefix(l, "this.#", ps[0].name + " = "); }
        [l] + rest
      case None => rest
  }

  /** The present lines of some properties are the first one's, if any,
      followed by those of the rest. */
  lemma InitLinesStep(ps: seq<Property>, rest: seq<string>)
    requires |ps| > 0 && rest == Present(InitOptions(ps[1..]))
    ensures Present(InitOptions(ps)) ==
      (if InitLine(ps[0]).Some? then [InitLine(ps[0]).value] else []) + rest
  {
    assert InitOptions(ps)[0] == InitLine(ps[0]);
    assert InitOptions(ps)[1..] == InitOptions(ps[1..]);
  }

  /** The constructor's body: `super();` for a class with a base, then the
      initialisation lines; no initialisation line can be mistaken for the
      `super();` call. */
  function ConstructorBody(c: ClassModel): (r: seq<Block>)
    ensures (|r| > 0 && r[0] == Text("super();")) <==> Inherits(c)
    ensures forall k :: 0 <= k < |r| ==> r[k].Text?
    ensures var inits, skip := InitLines(c.properties), if Inherits(c) then 1 else 0;
      |r| == skip + |inits| && forall k :: 0 <= k < |inits| ==> r[skip + k] == Text(inits[k])
  {
    var inits := InitLines(c.properties);
    assert |inits| > 0 ==> inits[0][0] == 't';
    (if Inherits(c) then [Text("super();")] else [])
      + seq(|inits|, k requires 0 <= k < |inits| => Text(inits[k]))
  }

  /** The constructor, documented with the class's own documentation. */
  function ConstructorBlocks(c: ClassModel): seq<Block> {
    [Doc(c.trivia), Text("constructor() {"), Deeper(ConstructorBody(c)), Text("}"), Gap]
  }

  lemma StartsWithPrefix(s: string, p: string, q: string)
    requires StartsWith(s, p + q)
    ensures StartsWith(s, p)
  {
    assert s[..|p|] == (p + q)[..|p|];
  }

  // ---------------------------------------------------------------------
  // Accessors

  /** The assignment a setter performs: plain, or clamped into
      `[min, max]`, rounding first when the type is integral. */
  datatype Setter = Assign | Clamp(min: string, max: string, round: bool)

  /** The clamping rule: a numeric type other than double and decimal, or
      any property with a range attribute, and never an enum property. */
  predicate Clamps(files: seq<FileModel>, p: Property) {
    ((p.info.isNumeric && p.info.typeName != "double" && p.info.typeName != "decimal") || p.hasRange)
    && LinkedEnum(files, p).None?
  }

  function SetterOf(files: seq<FileModel>, p: Property): (r: Setter)
    ensures r.Clamp? <==> Clamps(files, p)
    ensures r.Clamp? ==> (r.round <==> p.info.isInteger)
    ensures r.Clamp? ==> r.min == (if p.hasRange then p.rangeMin else OptText(p.info.typeMin))
    ensures r.Clamp? ==> r.max == (if p.hasRange then p.rangeMax else OptText(p.info.typeMax))
  {
    if Clamps(files, p) then
      Clamp(if p.hasRange then p.rangeMin else OptText(p.info.typeMin),
            if p.hasRange then p.rangeMax else OptText(p.info.typeMax),
            p.info.isInteger)
    else Assign
  }

  /** The setter statement; the clamped form carries no semicolon. */
  function SetterText(name: string, s: Setter): (r: string)
    ensures StartsWith(r, "this.#" + name + " = ")
    ensures EndsWith(r, ";") <==> s.Assign?
  {
    var lhs := "this.#" + name + " = ";
    match s
    case Assign =>
      var r := AfterGuard(lhs, "val;");
      assert r[|r| - 1..] == ";";
      r
    case Clamp(min, max, round) =>
      var r := AfterGuard(lhs, "(val < " + min + " ? " + min + " : (val > " + max + " ? " + max + " : "
        + (if round then "Math.round(val)" else "val") + "))");
      assert r[|r| - 1] == ')';
      r
  }

  /** The runtime type check guarding the assignment. */
  datatype Guard =
    | IsDate
    | InEnum(values: seq<string>)
    | IsArray
    | IsMap
    | InstanceOf(typeName: string)
    | TypeOf(jsType: string)

  /** The first check that applies, in the order date, enum, list or
      array, dictionary, class instance, `typeof`. The last branch guards
      only native or `object` types, but every property reaching it is
      native, so a guard is always written. */
  function GuardOf(files: seq<FileModel>, p: Property): (r: Option<Guard>)
    ensures r.Some?
    ensures r.value.IsDate? <==> p.info.isDateTime
    ensures r.value.InEnum? <==> !p.info.isDateTime && LinkedEnum(files, p).Some?
    ensures r.value.InEnum? ==> r.value.values == LinkedEnum(files, p).value.values
    ensures r.value.IsArray? <==>
      !p.info.isDateTime && LinkedEnum(files, p).None? && (p.info.isList || p.info.isArray)
    ensures r.value.IsMap? <==>
      !p.info.isDateTime && LinkedEnum(files, p).None? && !p.info.isList && !p.info.isArray
      && p.info.isDictionary
    ensures r.value.InstanceOf? <==>
      !p.info.isDateTime && LinkedEnum(files, p).None? && !p.info.isList && !p.info.isArray
      && !p.info.isDictionary && !p.info.isNative
    ensures r.value.TypeOf? <==>
      !p.info.isDateTime && LinkedEnum(files, p).None? && !p.info.isList && !p.info.isArray
      && !p.info.isDictionary && p.info.isNative
    ensures r.value.TypeOf? ==> r.value.jsType == p.info.jsType
    ensures r.value.InstanceOf? ==> r.value.typeName == p.info.typeName
  {
    var e := LinkedEnum(files, p);
    if p.info.isDateTime then Some(IsDate)
    else if e.Some? then Some(InEnum(e.value.values))
    else if p.info.isArray || p.info.isList then Some(IsArray)
    else if p.info.isDictionary then Some(IsMap)
    else if !p.info.isNative && e.None? then Some(InstanceOf(p.info.typeName))
    else if p.info.isNative || p.info.jsType == "object" then Some(TypeOf(p.info.jsType))
    else None
  }

  function GuardText(g: Guard): string {
    match g
    case IsDate => "if (val instanceof Date) {"
    case InEnum(values) => "if ([" + Join(",", values) + "].includes(val)) {"
    case IsArray => "if (Array.isArray(val)) {"
    case IsMap => "if (val instanceof Map) {"
    case InstanceOf(t) => "if (val instanceof " + t + ") {"
    case TypeOf(t) => "if (typeof val === '" + t + "') {"
  }

  /** The texts of the non-zero dimensions of an array type. */
  function NonZeroTexts(dims: seq<int>): (r: seq<string>)
    ensures |r| <= |dims|
    ensures (forall k :: 0 <= k < |dims| ==> dims[k] != 0) <==> |r| == |dims|
    decreases |dims|
  {
    if |dims| == 0 then []
    else if dims[0] == 0 then
      assert forall k :: 0 <= k < |dims[1..]| ==> dims[1..][k] == dims[k + 1];
      NonZeroTexts(dims[1..])
    else
      assert forall k :: 0 <= k < |dims[1..]| ==> dims[1..][k] == dims[k + 1];
      [DecimalText(dims[0])] + NonZeroTexts(dims[1..])
  }

  /** The server type shown in the accessor's documentation: the element
      type with the known sizes for an array with element information,
      `[]` appended when a dimension is open; the declared type
      otherwise. */
  function ServerType(p: Property): string {
    if p.info.isArray && |p.arrayDimensions| > 0 && p.info.arrayType.Some? then
      var texts := NonZeroTexts(p.arrayDimensions);
      p.info.arrayType.value.typeName + "[" + Join(",", texts) + "]"
        + (if |p.arrayDimensions| > |texts| then "[]" else "")
    else p.info.typeName
  }

  /** The classifier never records element information for arrays, so the
      documented server type of a classified property is its declared
      type. */
  lemma ServerTypeIsDeclared(t: string, p: Property)
    requires Classify(t) == Some(p.info)
    ensures ServerType(p) == t
  {
  }

  function TypeSpecifier(files: seq<FileModel>, p: Property): string {
    if LinkedEnum(files, p).Some? then "enum "
    else if LinkedClass(files, p).Some? then "class "
    else ""
  }

  /** The range note: the value list of an enum, overridden for numeric
      types by the custom range or else the type's range. */
  function RangeNote(files: seq<FileModel>, p: Property): string {
    if p.info.isNumeric then
      if p.hasRange then " custom range " + p.rangeMin + " ... " + p.rangeMax
      else " range " + OptText(p.info.typeMin) + " ... " + OptText(p.info.typeMax)
    else if LinkedEnum(files, p).Some? then " values [" + Join(",", LinkedEnum(files, p).value.values) + "]"
    else ""
  }

  /** The accessor documentation: the property's own lines, the server
      type line and the JSDoc type. */
  function AccessorDoc(files: seq<FileModel>, p: Property): seq<string> {
    p.trivia + [
      "Server type " + (if p.isNullable then "nullable " else "") + TypeSpecifier(files, p)
        + "'" + ServerType(p) + "'" + RangeNote(files, p),
      "@type {" + p.info.jsType + "}"]
  }

  /** The guard line, when there is one. */
  function GuardLine(files: seq<FileModel>, p: Property): seq<Block> {
    match GuardOf(files, p)
    case Some(g) => [Text(GuardText(g))]
    case None => []
  }

  /** The guard with the assignment one level deeper. */
  function GuardedBlocks(files: seq<FileModel>, p: Property): seq<Block> {
    GuardLine(files, p) + [Deeper([Text(SetterText(p.name, SetterOf(files, p)))]), Text("}")]
  }

  /** The setter body: a nullable property first stores `null` for a null
      value and runs the guarded assignment in the `else` block. */
  function SetterBody(files: seq<FileModel>, p: Property): seq<Block> {
    if p.isNullable then
      [Text("if (val == null) {"), Deeper([Text("this.#" + p.name + " = null;")]), Text("}"),
       Text("else {"), Deeper(GuardedBlocks(files, p)), Text("}")]
    else GuardedBlocks(files, p)
  }

  /** The getter and the setter of a property, under the accessor
      documentation, followed by a blank line. */
  function AccessorBlocks(files: seq<FileModel>, p: Property): seq<Block> {
    [Doc(AccessorDoc(files, p)),
     Text("get " + p.name + "() {"), Deeper([Text("return this.#" + p.name + ";")]), Text("}"),
     Text("set " + p.name + "(val) {"), Deeper(SetterBody(files, p)), Text("}"),
     Gap]
  }

  function AccessorsBlocks(files: seq<FileModel>, ps: seq<Property>): seq<Block>
    decreases |ps|
  {
    if |ps| == 0 then [] else AccessorBlocks(files, ps[0]) + AccessorsBlocks(files, ps[1..])
  }

  /** A nullable property's setter tests for `null` before any type check;
      a non-nullable one starts with the type check. */
  lemma NullCheckFirst(files: seq<FileModel>, p: Property)
    ensures var body := SetterBody(files, p);
      && |body| > 0
      && (p.isNullable <==> body[0] == Text("if (val == null) {"))
      && (!p.isNullable ==> body[0] == Text(GuardText(GuardOf(files, p).value)))
  {
  }

  /** The lines of a guarded assignment at level `d`. */
  lemma GuardedRender(d: nat, guard: string, setter: string)
    ensures Render(d, [Text(guard), Deeper([Text(setter)]), Text("}")]) ==
      [IndentedString(d, guard), IndentedString(d + 1, setter), IndentedString(d, "}")]
  {
    RenderOne(d + 1, Text(setter));
    RenderThree(d, Text(guard), Deeper([Text(setter)]), Text("}"));
  }

  /** The lines of the null test and its `else` around a guarded
      assignment at level `d`. */
  lemma NullableRender(d: nat, store: string, guard: string, setter: string)
    ensures Render(d, [Text("if (val == null) {"), Deeper([Text(store)]), Text("}"), Text("else {"),
                       Deeper([Text(guard), Deeper([Text(setter)]), Text("}")]), Text("}")]) ==
      [IndentedString(d, "if (val == null) {"), IndentedString(d + 1, store), IndentedString(d, "}"),
       IndentedString(d, "else {"), IndentedString(d + 1, guard), IndentedString(d + 2, setter),
       IndentedString(d + 1, "}"), IndentedString(d, "}")]
  {
    var inner := [Text(guard), Deeper([Text(setter)]), Text("}")];
    var head := [Text("if (val == null) {"), Deeper([Text(store)]), Text("}")];
    var tail := [Text("else {"), Deeper(inner), Text("}")];
    GuardedRender(d + 1, guard, setter);
    RenderOne(d + 1, Text(store));
    RenderThree(d, Text("if (val == null) {"), Deeper([Text(store)]), Text("}"));
    RenderThree(d, Text("else {"), Deeper(inner), Text("}"));
    RenderConcat(d, head, tail);
    assert head + tail == [Text("if (val == null) {"), Deeper([Text(store)]), Text("}"), Text("else {"), Deeper(inner), Text("}")];
  }

  /** What a setter body writes at level `d`: the type check, the
      assignment one level deeper, the closing brace; a nullable property
      wraps all three one level deeper in the `else` of the null test. */
  lemma SetterRender(files: seq<FileModel>, p: Property, d: nat)
    ensures var guard, setter := GuardText(GuardOf(files, p).value), SetterText(p.name, SetterOf(files, p));
      Render(d, SetterBody(files, p)) ==
        if p.isNullable then
          [IndentedString(d, "if (val == null) {"), IndentedString(d + 1, "this.#" + p.name + " = null;"),
           IndentedString(d, "}"), IndentedString(d, "else {"), IndentedString(d + 1, guard),
           IndentedString(d + 2, setter), IndentedString(d + 1, "}"), IndentedString(d, "}")]
        else
          [IndentedString(d, guard), IndentedString(d + 1, setter), IndentedString(d, "}")]
  {
    var guard, setter := GuardText(GuardOf(files, p).value), SetterText(p.name, SetterOf(files, p));
    assert GuardedBlocks(files, p) == [Text(guard), Deeper([Text(setter)]), Text("}")];
    if p.isNullable {
      NullableRender(d, "this.#" + p.name + " = null;", guard, setter);
    } else {
      GuardedRender(d, guard, setter);
    }
  }

  // ---------------------------------------------------------------------
  // Rules of the setter by declared type

  /** An integral property without a range attribute is clamped into its
      type's bounds and rounded; the bound texts read back as the
      two's-complement or unsigned limits of its width. */
  lemma IntegralClamp(files: seq<FileModel>, p: Property)
    requires IntegerWidth(p.info.typeName).Some? && Classify(p.info.typeName) == Some(p.info)
    requires !p.hasRange && LinkedEnum(files, p).None?
    ensures var s, w := SetterOf(files, p), IntegerWidth(p.info.typeName).value;
      && w.1 > 0
      && s.Clamp? && s.round
      && ParseInteger(s.min) == Some(IntegerMin(w.0, w.1))
      && ParseInteger(s.max) == Some(IntegerMax(w.0, w.1))
  {
    var t := p.info.typeName;
    IntegerBounds(t);
    IntegralNotFloating(t);
    assert Clamps(files, p);
  }

  lemma IntegralNotFloating(t: string)
    requires IntegerWidth(t).Some?
    ensures t != "double" && t != "decimal"
  {
  }

  /** A `float` property without a range attribute is clamped into the
      type's bounds without rounding. */
  lemma FloatClamp(files: seq<FileModel>, p: Property)
    requires (p.info.typeName == "float" || p.info.typeName == "Single") && Classify(p.info.typeName) == Some(p.info)
    requires !p.hasRange && LinkedEnum(files, p).None?
    ensures p.info.typeMin.Some? && p.info.typeMax.Some?
    ensures SetterOf(files, p) == Clamp(p.info.typeMin.value, p.info.typeMax.value, false)
  {
    FloatingTypes(p.info.typeName);
  }

  /** `double` and `decimal`, booleans, strings and dates without a range
      attribute are assigned as they are. */
  lemma UnclampedTypes(files: seq<FileModel>, p: Property)
    requires p.info.typeName in ["double", "decimal", "bool", "string", "DateTime", "System.DateTime"]
    requires Classify(p.info.typeName) == Some(p.info)
    requires !p.hasRange
    ensures SetterOf(files, p) == Assign
  {
    var t := p.info.typeName;
    if t == "double" || t == "decimal" {
      FloatingTypes(t);
    } else if t == "bool" || t == "string" {
      UnboundedTypes(t);
    } else {
      DateTimeBounds(t);
    }
  }

  // ---------------------------------------------------------------------
  // Serialiser

  /** A `toJSON` entry: dictionaries go through `Object.fromEntries`;
      every entry but the last ends with a comma. */
  function JsonEntry(p: Property, last: bool): string {
    "'" + p.name + "': " + (if p.info.isDictionary then "Object.fromEntries(this.#" + p.name + ")" else "this.#" + p.name)
      + (if last then "" else ",")
  }

  function JsonEntryBlocks(ps: seq<Property>, i: nat): (r: seq<Block>)
    requires i <= |ps|
    ensures |r| == |ps| - i
    ensures forall k :: i <= k < |ps| ==> r[k - i] == Text(JsonEntry(ps[k], k == |ps| - 1))
    decreases |ps| - i
  {
    if i == |ps| then []
    else [Text(JsonEntry(ps[i], i == |ps| - 1))] + JsonEntryBlocks(ps, i + 1)
  }

  /** The object literal `toJSON` returns, merged into the parent's
      serialisation with `Object.assign` exactly when the class has a
      base. */
  function SerializerBody(c: ClassModel): (r: seq<Block>)
    ensures |r| == 3 && r[1] == Deeper(JsonEntryBlocks(c.properties, 0))
    ensures r[0] == Text("return Object.assign(super.toJSON(), {") <==> Inherits(c)
    ensures r[2] == Text("})") <==> Inherits(c)
  {
    [Text(if Inherits(c) then "return Object.assign(super.toJSON(), {" else "return {"),
     Deeper(JsonEntryBlocks(c.properties, 0)),
     Text(if Inherits(c) then "})" else "}")]
  }

  function ToJsonBlocks(c: ClassModel): seq<Block> {
    [Doc([c.name + " JSON serializer. Called automatically by JSON.stringify()."]),
     Text("toJSON() {"), Deeper(SerializerBody(c)), Text("}"), Gap]
  }

  // ---------------------------------------------------------------------
  // Deserialisers

  function FromJsonBlocks(c: ClassModel): seq<Block> {
    [Doc(["Deserializes json to instance of " + c.name + ".",
          "@param {string} json json serialized " + c.name + " instance",
          "@returns {" + c.name + "} deserialized " + c.name + " class instance"]),
     Text("static fromJSON(json) {"),
     Deeper([Text("let o = JSON.parse(json);"), Text("return " + c.name + ".fromObject(o);")]),
     Text("}"), Gap]
  }

  /** What every property deserialiser's first line starts with. */
  const OwnTest := "if (o.hasOwnProperty('"

  /** The test every property deserialiser starts with. */
  function OwnGuard(name: string): (r: string)
    ensures StartsWith(r, OwnTest)
  {
    assert (OwnTest + (name + "')) {"))[..|OwnTest|] == OwnTest;
    assert OwnTest + name + "')) {" == OwnTest + (name + "')) {");
    OwnTest + name + "')) {"
  }

  /** The map entries copied into a dictionary: values of a native type as
      they are, others through their class's `fromObject`. */
  function EntrySet(p: Property): seq<Block> {
    match p.info.dictionaryValueType
    case Some(v) =>
      if v.isNative then [Text("val." + p.name + ".set(entry[0], entry[1]);")]
      else [Text("val." + p.name + ".set(entry[0], " + v.typeName + ".fromObject(entry[1]));")]
    case None => []
  }

  /** The entry loop of a dictionary, behind a null test when the property
      is nullable. */
  function DictionaryBody(p: Property): seq<Block> {
    var entries := [Text("for (const entry of Object.entries(o." + p.name + ")) { "), Deeper(EntrySet(p)), Text("}")];
    if p.isNullable then
      [Text("if (o." + p.name + " == null) { val." + p.name + " = null; }"), Text("else {"), Deeper(entries), Text("}")]
    else entries
  }

  /** One property's deserialiser: a date through `new Date`, a dictionary
      entry by entry, a class-typed value through the class's
      `fromObject`/`fromObjectArray`, anything else copied. Only its first
      line tests for the property. */
  function Deserializer(files: seq<FileModel>, p: Property): (r: seq<Block>)
    ensures |r| > 0 && r[0].Text? && StartsWith(r[0].line, OwnGuard(p.name))
    ensures forall k :: 0 < k < |r| ==> r[k] == Text("}") || r[k].Deeper?
  {
    var guard := OwnGuard(p.name);
    var target := " val." + p.name + " = ";
    var source := "o." + p.name;
    if p.info.isDateTime then
      [Text(AfterGuard(guard, target + "new Date(" + source + "); }"))]
    else if p.info.isDictionary then
      [Text(AfterGuard(guard, "")), Deeper(DictionaryBody(p)), Text("}")]
    else if LinkedClass(files, p).Some? then
      if p.info.isList && p.info.listType.Some? then
        [Text(AfterGuard(guard, target + p.info.listType.value.typeName + ".fromObjectArray(" + source + "); }"))]
      else if p.info.isArray && p.info.arrayType.Some? then
        [Text(AfterGuard(guard, target + p.info.arrayType.value.typeName + ".fromObjectArray(" + source + "); }"))]
      else
        [Text(AfterGuard(guard, target + p.info.typeName + ".fromObject(" + source + "); }"))]
    else
      [Text(AfterGuard(guard, target + source + "; }"))]
  }

  /** A line that starts with the guard. */
  function AfterGuard(guard: string, rest: string): (r: string)
    ensures StartsWith(r, guard)
  {
    assert (guard + rest)[..|guard|] == guard;
    guard + rest
  }

  // ---------------------------------------------------------------------
  // What `fromObject` does with each kind of property

  /** The test for property `n` followed by the rest of its line. */
  function Tested(n: string, rest: string): string {
    "if (o.hasOwnProperty('" + n + "')) {" + rest
  }

  lemma TestedLine(n: string, rest: string)
    ensures AfterGuard(OwnGuard(n), rest) == Tested(n, rest)
  {
    assert OwnTest + n + "')) {" == "if (o.hasOwnProperty('" + n + "')) {";
  }

  /** A date is rebuilt from its serialised text with `new Date`. */
  lemma DateDeserializer(files: seq<FileModel>, p: Property)
    requires p.info.isDateTime
    ensures Deserializer(files, p) ==
      [Text(Tested(p.name, " val." + p.name + " = new Date(o." + p.name + "); }"))]
  {
    var n := p.name;
    var target, source := " val." + n + " = ", "o." + n;
    TestedLine(n, target + "new Date(" + source + "); }");
    assert target + "new Date(" + source + "); }" == " val." + n + " = new Date(o." + n + "); }";
  }

  /** A dictionary is filled entry by entry inside its test, behind a test
      for `null` when it is nullable; each entry's value is stored as it is
      when the value type is native and through that type's `fromObject`
      otherwise. */
  lemma DictionaryDeserializer(files: seq<FileModel>, p: Property)
    requires !p.info.isDateTime && p.info.isDictionary
    ensures var n, v := p.name, p.info.dictionaryValueType;
      var store :=
        if v.None? then []
        else if v.value.isNative then [Text("val." + n + ".set(entry[0], entry[1]);")]
        else [Text("val." + n + ".set(entry[0], " + v.value.typeName + ".fromObject(entry[1]));")];
      var entries := [Text("for (const entry of Object.entries(o." + n + ")) { "), Deeper(store), Text("}")];
      Deserializer(files, p) ==
        [Text(Tested(n, "")),
         Deeper(if p.isNullable
                then [Text("if (o." + n + " == null) { val." + n + " = null; }"), Text("else {"), Deeper(entries), Text("}")]
                else entries),
         Text("}")]
  {
    TestedLine(p.name, "");
  }

  /** A list linked to a class maps its elements with the element class's
      `fromObjectArray`. */
  lemma ClassListDeserializer(files: seq<FileModel>, p: Property)
    requires !p.info.isDateTime && !p.info.isDictionary && LinkedClass(files, p).Some?
    requires p.info.isList && p.info.listType.Some?
    ensures var n := p.name;
      Deserializer(files, p) ==
        [Text(Tested(n, " val." + n + " = " + p.info.listType.value.typeName + ".fromObjectArray(o." + n + "); }"))]
  {
    var n := p.name;
    var target, source := " val." + n + " = ", "o." + n;
    var rest := target + p.info.listType.value.typeName + ".fromObjectArray(" + source + "); }";
    TestedLine(n, rest);
    assert rest == " val." + n + " = " + p.info.listType.value.typeName + ".fromObjectArray(o." + n + "); }";
  }

  /** An array linked to a class whose element type is recorded maps its
      elements with the element class's `fromObjectArray`. */
  lemma ClassArrayDeserializer(files: seq<FileModel>, p: Property)
    requires !p.info.isDateTime && !p.info.isDictionary && LinkedClass(files, p).Some?
    requires !(p.info.isList && p.info.listType.Some?) && p.info.isArray && p.info.arrayType.Some?
    ensures var n := p.name;
      Deserializer(files, p) ==
        [Text(Tested(n, " val." + n + " = " + p.info.arrayType.value.typeName + ".fromObjectArray(o." + n + "); }"))]
  {
    var n := p.name;
    var target, source := " val." + n + " = ", "o." + n;
    var rest := target + p.info.arrayType.value.typeName + ".fromObjectArray(" + source + "); }";
    TestedLine(n, rest);
    assert rest == " val." + n + " = " + p.info.arrayType.value.typeName + ".fromObjectArray(o." + n + "); }";
  }

  /** Any other property linked to a class goes through that class's
      `fromObject`. */
  lemma ClassDeserializer(files: seq<FileModel>, p: Property)
    requires !p.info.isDateTime && !p.info.isDictionary && LinkedClass(files, p).Some?
    requires !(p.info.isList && p.info.listType.Some?) && !(p.info.isArray && p.info.arrayType.Some?)
    ensures var n := p.name;
      Deserializer(files, p) ==
        [Text(Tested(n, " val." + n + " = " + p.info.typeName + ".fromObject(o." + n + "); }"))]
  {
    var n := p.name;
    var target, source := " val." + n + " = ", "o." + n;
    var rest := target + p.info.typeName + ".fromObject(" + source + "); }";
    TestedLine(n, rest);
    assert rest == " val." + n + " = " + p.info.typeName + ".fromObject(o." + n + "); }";
  }

  /** Every other property, an enum included, is copied as it is. */
  lemma CopiedDeserializer(files: seq<FileModel>, p: Property)
    requires !p.info.isDateTime && !p.info.isDictionary && LinkedClass(files, p).None?
    ensures Deserializer(files, p) == [Text(Tested(p.name, " val." + p.name + " = o." + p.name + "; }"))]
  {
    var n := p.name;
    var target, source := " val." + n + " = ", "o." + n;
    TestedLine(n, target + source + "; }");
    assert target + source + "; }" == " val." + n + " = o." + n + "; }";
  }

  function DeserializersBlocks(files: seq<FileModel>, ps: seq<Property>): seq<Block>
    decreases |ps|
  {
    if |ps| == 0 then [] else Deserializer(files, ps[0]) + DeserializersBlocks(files, ps[1..])
  }

  /** The model of the first base, when it was linked. */
  function ParentModel(files: seq<FileModel>, c: ClassModel): Option<ClassModel> {
    if Inherits(c) && c.inheritsFrom[0].model.Some? then ClassAt(files, c.inheritsFrom[0].model.value) else None
  }

  /** The properties `fromObject` reads from its base's part: those of the
      linked base model, none otherwise. */
  function InheritedProperties(files: seq<FileModel>, c: ClassModel): seq<Property> {
    match ParentModel(files, c)
    case Some(m) => m.properties
    case None => []
  }

  /** The parent's part of `fromObject`: the base's own properties, framed
      by two comments; nothing for a class without a base. */
  function ParentPart(files: seq<FileModel>, c: ClassModel): seq<Block> {
    if Inherits(c) then
      [Text("// values from super '" + c.inheritsFrom[0].name + "'")]
        + DeserializersBlocks(files, InheritedProperties(files, c))
        + [Text("// values from '" + c.name + "'")]
    else []
  }

  function FromObjectBody(files: seq<FileModel>, c: ClassModel): seq<Block> {
    [Text("let val = new " + c.name + "();")] + ParentPart(files, c)
      + DeserializersBlocks(files, c.properties) + [Text("return val;")]
  }

  function FromObjectBlocks(files: seq<FileModel>, c: ClassModel): seq<Block> {
    [Doc(["Maps object to instance of " + c.name + ".",
          "@param {object} o object to map instance of " + c.name + " from",
          "@returns {" + c.name + "} mapped " + c.name + " class instance"]),
     Text("static fromObject(o) {"),
     Deeper([Text("if (o != null) {"), Deeper(FromObjectBody(files, c)), Text("}"), Text("return null;")]),
     Text("}"), Gap]
  }

  function FromJsonArrayBlocks(c: ClassModel): seq<Block> {
    [Doc(["Deserializes json to array of " + c.name + ".",
          "@param {string} json json serialized " + c.name + " array",
          "@returns {" + c.name + "[]} deserialized " + c.name + " array"]),
     Text("static fromJSONArray(json) {"),
     Deeper([Text("let arr = JSON.parse(json);"), Text("return " + c.name + ".fromObjectArray(arr);")]),
     Text("}"), Gap]
  }

  function FromObjectArrayBlocks(c: ClassModel): seq<Block> {
    [Doc(["Maps array of objects to array of " + c.name + ".",
          "@param {object[]} arr object array to map WeatherForecast array from",
          "@returns {" + c.name + "[]} mapped " + c.name + " array"]),
     Text("static fromObjectArray(arr) {"),
     Deeper([Text("if (arr != null) {"),
             Deeper([Text("let /** @type {" + c.name + "[]} */ val = [];"),
                     Text("arr.forEach(function (f) { val.push(" + c.name + ".fromObject(f)); });"),
                     Text("return val;")]),
             Text("}"), Text("return null;")]),
     Text("}"), Gap]
  }

  // ---------------------------------------------------------------------
  // Which properties `fromObject` reads, and in which order

  /** The line of a block, if it tests for a property. */
  function OwnTestOf(b: Block): seq<string> {
    if b.Text? && StartsWith(b.line, OwnTest) then [b.line] else []
  }

  /** The lines among the top-level blocks that test for a property. */
  function OwnTests(bs: seq<Block>): seq<string>
    decreases |bs|
  {
    if |bs| == 0 then [] else OwnTestOf(bs[0]) + OwnTests(bs[1..])
  }

  /** `tests` are the property tests of `ps`, one each, in order. */
  predicate TestsFor(tests: seq<string>, ps: seq<Property>) {
    |tests| == |ps| && forall k :: 0 <= k < |ps| ==> StartsWith(tests[k], OwnGuard(ps[k].name))
  }

  lemma {:induction false} OwnTestsConcat(a: seq<Block>, b: seq<Block>)
    ensures OwnTests(a + b) == OwnTests(a) + OwnTests(b)
    decreases |a|
  {
    if |a| == 0 {
      assert a + b == b;
    } else {
      assert (a + b)[0] == a[0];
      assert (a + b)[1..] == a[1..] + b;
      OwnTestsConcat(a[1..], b);
      Regroup(OwnTestOf(a[0]), OwnTests(a[1..]), OwnTests(b));
    }
  }

  /** A line that does not start like a test is none. */
  lemma NotATest(line: string)
    requires |line| > 0 && line[0] != 'i'
    ensures !StartsWith(line, OwnTest)
  {
  }

  /** A deserialiser tests for its property exactly once. */
  lemma DeserializerTests(files: seq<FileModel>, p: Property)
    ensures TestsFor(OwnTests(Deserializer(files, p)), [p])
  {
    var r := Deserializer(files, p);
    StartsWithPrefix(r[0].line, OwnTest, p.name + "')) {");
    assert OwnGuard(p.name) == OwnTest + (p.name + "')) {");
    if |r| == 1 {
      assert OwnTests(r) == [r[0].line] + OwnTests(r[1..]);
    } else {
      assert |r| == 3 && r[2] == Text("}") && r[1].Deeper?;
      NotATest("}");
      assert OwnTests(r[2..]) == [] + OwnTests(r[2..][1..]);
      assert OwnTests(r[1..]) == [] + OwnTests(r[1..][1..]);
      assert OwnTests(r) == [r[0].line] + OwnTests(r[1..]);
    }
  }

  /** The deserialisers of some properties test for each of them once, in
      property order. */
  lemma {:induction false} DeserializersTests(files: seq<FileModel>, ps: seq<Property>)
    ensures TestsFor(OwnTests(DeserializersBlocks(files, ps)), ps)
    decreases |ps|
  {
    if |ps| > 0 {
      DeserializerTests(files, ps[0]);
      DeserializersTests(files, ps[1..]);
      OwnTestsConcat(Deserializer(files, ps[0]), DeserializersBlocks(files, ps[1..]));
      TestsConcat(OwnTests(Deserializer(files, ps[0])), [ps[0]], OwnTests(DeserializersBlocks(files, ps[1..])), ps[1..]);
      assert [ps[0]] + ps[1..] == ps;
    }
  }

  lemma TestsConcat(a: seq<string>, ps: seq<Property>, b: seq<string>, qs: seq<Property>)
    requires TestsFor(a, ps) && TestsFor(b, qs)
    ensures TestsFor(a + b, ps + qs)
  {
    assert forall k :: |ps| <= k < |ps| + |qs| ==> (ps + qs)[k] == qs[k - |ps|] && (a + b)[k] == b[k - |ps|];
  }

  /** `fromObject` tests first for every property of the linked base, then
      for every property of the class itself, each once and in declaration
      order; nothing else in its body looks like a test. */
  lemma FromObjectTests(files: seq<FileModel>, c: ClassModel)
    ensures TestsFor(OwnTests(FromObjectBody(files, c)), InheritedProperties(files, c) + c.properties)
  {
    var first := [Text("let val = new " + c.name + "();")];
    var last := [Text("return val;")];
    NotATest("let val = new " + c.name + "();");
    NotATest("return val;");
    assert OwnTests(first) == [] + OwnTests(first[1..]);
    assert OwnTests(last) == [] + OwnTests(last[1..]);
    var inherited := InheritedProperties(files, c);
    DeserializersTests(files, inherited);
    DeserializersTests(files, c.properties);
    if Inherits(c) {
      var open := [Text("// values from super '" + c.inheritsFrom[0].name + "'")];
      var close := [Text("// values from '" + c.name + "'")];
      NotATest("// values from super '" + c.inheritsFrom[0].name + "'");
      NotATest("// values from '" + c.name + "'");
      assert OwnTests(open) == [] + OwnTests(open[1..]);
      assert OwnTests(close) == [] + OwnTests(close[1..]);
      OwnTestsConcat(open, DeserializersBlocks(files, inherited));
      OwnTestsConcat(open + DeserializersBlocks(files, inherited), close);
    } else {
      assert inherited == [] && DeserializersBlocks(files, inherited) == [];
    }
    assert OwnTests(ParentPart(files, c)) == OwnTests(DeserializersBlocks(files, inherited));
    OwnTestsConcat(first, ParentPart(files, c));
    OwnTestsConcat(first + ParentPart(files, c), DeserializersBlocks(files, c.properties));
    OwnTestsConcat(first + ParentPart(files, c) + DeserializersBlocks(files, c.properties), last);
    TestsConcat(OwnTests(DeserializersBlocks(files, inherited)), inherited,
                OwnTests(DeserializersBlocks(files, c.properties)), c.properties);
  }

  // ---------------------------------------------------------------------
  // The class

  function MemberBlocks(files: seq<FileModel>, c: ClassModel): seq<Block> {
    PrivateBlocks(c.properties) + ConstructorBlocks(c) + AccessorsBlocks(files, c.properties)
      + ToJsonBlocks(c) + FromJsonBlocks(c) + FromObjectBlocks(files, c)
      + FromJsonArrayBlocks(c) + FromObjectArrayBlocks(c)
  }

  /** Everything the class emitter writes: documentation, header and a
      blank line, the members one level deeper, the closing brace back at
      the starting level. */
  function ClassBlocks(files: seq<FileModel>, c: ClassModel): seq<Block> {
    [Doc(c.trivia), Text(HeaderLine(c)), Gap, Deeper(MemberBlocks(files, c)), Text("}")]
  }

  /** The writer calls of the class's frame around any member blocks. */
  lemma ClassFrameLayout(w: Writer, doc: seq<string>, header: string, body: seq<Block>)
    ensures Run(w, Calls([Doc(doc), Text(header), Gap, Deeper(body), Text("}")])) ==
      Writer(w.lines + Indented(w.indentation, TriviaBlock(doc)) + [IndentedString(w.indentation, header), ""]
               + Render(w.indentation + 1, body) + [IndentedString(w.indentation, "}")], w.indentation)
    ensures Balanced(Calls([Doc(doc), Text(header), Gap, Deeper(body), Text("}")]))
  {
    var d := w.indentation;
    var bs := [Doc(doc), Text(header), Gap, Deeper(body), Text("}")];
    RunCalls(w, bs);
    CallsBalanced(bs);
    ClassFrameRender(d, doc, header, body);
    Append4(w.lines, Indented(d, TriviaBlock(doc)), [IndentedString(d, header), ""], Render(d + 1, body),
            [IndentedString(d, "}")]);
  }

  /** The rendering of the class's frame around any member blocks. */
  lemma ClassFrameRender(d: nat, doc: seq<string>, header: string, body: seq<Block>)
    ensures Render(d, [Doc(doc), Text(header), Gap, Deeper(body), Text("}")]) ==
      Indented(d, TriviaBlock(doc)) + [IndentedString(d, header), ""] + Render(d + 1, body) + [IndentedString(d, "}")]
  {
    RenderThree(d, Doc(doc), Text(header), Gap);
    RenderTwo(d, Deeper(body), Text("}"));
    RenderConcat(d, [Doc(doc), Text(header), Gap], [Deeper(body), Text("}")]);
    assert [Doc(doc), Text(header), Gap] + [Deeper(body), Text("}")] == [Doc(doc), Text(header), Gap, Deeper(body), Text("}")];
  }

  /** What the class emitter writes at level `d`: its documentation, the
      header and a blank line at `d`, the members one level deeper, the
      closing brace at `d` again; nothing written before is touched, the
      level is restored, and no `Outdent()` goes below `d`. */
  lemma ClassLayout(w: Writer, files: seq<FileModel>, c: ClassModel)
    ensures Run(w, Calls(ClassBlocks(files, c))) ==
      Writer(w.lines + Indented(w.indentation, TriviaBlock(c.trivia))
                     + [IndentedString(w.indentation, HeaderLine(c)), ""]
                     + Render(w.indentation + 1, MemberBlocks(files, c))
                     + [IndentedString(w.indentation, "}")], w.indentation)
    ensures Balanced(Calls(ClassBlocks(files, c)))
  {
    ClassFrameLayout(w, c.trivia, HeaderLine(c), MemberBlocks(files, c));
  }
}

=== FILE: emit_enum.dfy ===
/** `EnumModel.GenerateEs6FileLines`: an enum becomes a documented
    `export const` object literal whose members carry their values. The
    emitter is written as the blocks it produces; `EsFileWriter.Calls`
    gives the writer calls it makes and `EsFileWriter.Render` the lines. */
module EnumEmitter {
  import opened Text
  import opened Models
  import opened EsFileWriter

  /** The `@property` entry of a member in the enum's doc block: its
      documentation joined onto one line, after a space that is there even
      when the member is undocumented. */
  function PropertyDocLine(m: EnumMember): string {
    "@property {number} " + m.name + " " + (if |m.trivia| > 0 then Join(" ", m.trivia) else "")
  }

  /** The doc block of the enum: its own documentation, the two JSDoc
      tags, then one `@property` entry per member in member order. */
  function EnumDoc(e: EnumModel): (r: seq<string>)
    ensures |r| == |e.trivia| + 2 + |e.members|
    ensures r[..|e.trivia|] == e.trivia
    ensures r[|e.trivia|] == "@readonly" && r[|e.trivia| + 1] == "@enum {number}"
    ensures forall k :: 0 <= k < |e.members| ==> r[|e.trivia| + 2 + k] == PropertyDocLine(e.members[k])
  {
    e.trivia + ["@readonly", "@enum {number}"]
      + seq(|e.members|, k requires 0 <= k < |e.members| => PropertyDocLine(e.members[k]))
  }

  /** The member line `name: value`, with a comma unless it is the last. */
  function MemberLine(m: EnumMember, last: bool): string {
    m.name + ": " + m.value + (if last then "" else ",")
  }

  /** The member loop from index `i` on: each member's documentation, then
      its line; only the last member's line goes without a comma. */
  function MemberBlocks(ms: seq<EnumMember>, i: nat): (r: seq<Block>)
    requires i <= |ms|
    ensures |r| == 2 * (|ms| - i)
    ensures forall k :: i <= k < |ms| ==>
      r[2 * (k - i)] == Doc(ms[k].trivia) && r[2 * (k - i) + 1] == Text(MemberLine(ms[k], k == |ms| - 1))
    decreases |ms| - i
  {
    if i == |ms| then []
    else
      [Doc(ms[i].trivia), Text(MemberLine(ms[i], i == |ms| - 1))]
        + MemberBlocks(ms, i + 1)
  }

  /** The header line opening the object literal. */
  function EnumHeader(e: EnumModel): string {
    "export const " + e.name + " = {"
  }

  /** The enum: doc block and header, the members one level deeper, then
      the closing brace and an empty line. */
  function EnumBlocks(e: EnumModel): seq<Block> {
    [Doc(EnumDoc(e)), Text(EnumHeader(e)), Deeper(MemberBlocks(e.members, 0)), Text("}"), Gap]
  }

  /** The lines of the member blocks at `level`: each member's
      documentation, then its line, in member order. */
  function MemberLines(level: nat, ms: seq<EnumMember>, i: nat): seq<string>
    requires i <= |ms|
    decreases |ms| - i
  {
    if i == |ms| then []
    else
      Indented(level, TriviaBlock(ms[i].trivia)) + [IndentedString(level, MemberLine(ms[i], i == |ms| - 1))]
        + MemberLines(level, ms, i + 1)
  }

  /** The member loop writes exactly the member blocks, in order. */
  lemma {:induction false} MemberRender(level: nat, ms: seq<EnumMember>, i: nat)
    requires i <= |ms|
    ensures Render(level, MemberBlocks(ms, i)) == MemberLines(level, ms, i)
    decreases |ms| - i
  {
    if i < |ms| {
      var line := Text(MemberLine(ms[i], i == |ms| - 1));
      var rest := MemberBlocks(ms, i + 1);
      assert MemberBlocks(ms, i) == [Doc(ms[i].trivia)] + ([line] + rest);
      RenderCons(level, Doc(ms[i].trivia), [line] + rest);
      RenderCons(level, line, rest);
      MemberRender(level, ms, i + 1);
      Regroup(Indented(level, TriviaBlock(ms[i].trivia)), [IndentedString(level, MemberLine(ms[i], i == |ms| - 1))],
        MemberLines(level, ms, i + 1));
    }
  }

  /** What the enum emitter writes at level `d`: the doc block and the
      header at `d`, every member one level deeper, the closing brace and an
      empty line at `d` again; nothing written before is touched, the level
      is restored, and no `Outdent()` goes below `d`. */
  lemma EnumLayout(w: Writer, e: EnumModel)
    ensures Run(w, Calls(EnumBlocks(e))) ==
      Writer(w.lines + Indented(w.indentation, TriviaBlock(EnumDoc(e)))
                     + [IndentedString(w.indentation, EnumHeader(e))]
                     + MemberLines(w.indentation + 1, e.members, 0)
                     + [IndentedString(w.indentation, "}"), ""], w.indentation)
    ensures Balanced(Calls(EnumBlocks(e)))
  {
    EnumFrameLayout(w, EnumDoc(e), EnumHeader(e), MemberBlocks(e.members, 0));
    MemberRender(w.indentation + 1, e.members, 0);
  }

  /** The writer calls of the enum's frame around any member blocks. */
  lemma EnumFrameLayout(w: Writer, doc: seq<string>, header: string, body: seq<Block>)
    ensures Run(w, Calls([Doc(doc), Text(header), Deeper(body), Text("}"), Gap])) ==
      Writer(w.lines + Indented(w.indentation, TriviaBlock(doc)) + [IndentedString(w.indentation, header)]
               + Render(w.indentation + 1, body) + [IndentedString(w.indentation, "}"), ""], w.indentation)
    ensures Balanced(Calls([Doc(doc), Text(header), Deeper(body), Text("}"), Gap]))
  {
    var bs := [Doc(doc), Text(header), Deeper(body), Text("}"), Gap];
    RunCalls(w, bs);
    CallsBalanced(bs);
    EnumFrameRender(w.indentation, doc, header, body);
    var d := w.indentation;
    Append4(w.lines, Indented(d, TriviaBlock(doc)), [IndentedString(d, header)], Render(d + 1, body), [IndentedString(d, "}"), ""]);
  }

  /** The rendering of the enum's frame around any member blocks. */
  lemma EnumFrameRender(d: nat, doc: seq<string>, header: string, body: seq<Block>)
    ensures Render(d, [Doc(doc), Text(header), Deeper(body), Text("}"), Gap]) ==
      Indented(d, TriviaBlock(doc)) + [IndentedString(d, header)] + Render(d + 1, body)
        + [IndentedString(d, "}"), ""]
  {
    RenderCons(d, Gap, []);
    RenderCons(d, Text("}"), [Gap]);
    RenderCons(d, Deeper(body), [Text("}"), Gap]);
    RenderCons(d, Text(header), [Deeper(body), Text("}"), Gap]);
    RenderCons(d, Doc(doc), [Text(header), Deeper(body), Text("}"), Gap]);
  }
}

=== FILE: extract.dfy ===
/** The extraction rules of `ModelsParser`: from the member declarations of
    one source file to its enum and class models. Three passes over the
    members, as in the source: enums, then classes, then public properties
    and fields, which are attached to their classes. */
module Extract {
  import opened Text
  import opened PropertyTypes
  import opened Syntax
  import opened Models

  // ---------------------------------------------------------------------
  // Documentation comments (`_GetXmlCommentTriviaLines`)

  const SummaryTag := "<summary>"

  /** The position of the first `<summary>` element, or -1. */
  function FirstSummary(elements: seq<DocElement>): (r: int)
    ensures -1 <= r < |elements|
    ensures r >= 0 ==> elements[r].startTag == SummaryTag
    ensures forall k :: 0 <= k < |elements| && (r < 0 || k < r) ==> elements[k].startTag != SummaryTag
  {
    if |elements| == 0 then -1
    else if elements[0].startTag == SummaryTag then 0
    else
      var r := FirstSummary(elements[1..]);
      if r < 0 then -1 else r + 1
  }

  function TrimAll(xs: seq<string>): (r: seq<string>)
    ensures |r| == |xs|
    ensures forall k :: 0 <= k < |xs| ==> r[k] == Trim(xs[k])
  {
    seq(|xs|, k requires 0 <= k < |xs| => Trim(xs[k]))
  }

  /** The lines of a summary: its content cut at every `///`, each piece
      trimmed, empty pieces dropped. */
  function SummaryLines(content: string): (r: seq<string>)
    ensures forall k :: 0 <= k < |r| ==> r[k] != "" && Trim(r[k]) == r[k]
  {
    var pieces := TrimAll(SplitText(content, "///"));
    var r := NonEmpty(pieces);
    assert forall k :: 0 <= k < |r| ==> Trim(r[k]) == r[k] by {
      forall k | 0 <= k < |r| ensures Trim(r[k]) == r[k] {
        var j :| 0 <= j < |pieces| && pieces[j] == r[k];
        TrimIdempotent(SplitText(content, "///")[j]);
      }
    }
    r
  }

  /** The documentation lines of a declaration: those of its first
      `<summary>` element, none without one. */
  function DocLines(doc: Doc): (r: seq<string>)
    ensures forall k :: 0 <= k < |r| ==> r[k] != "" && Trim(r[k]) == r[k]
  {
    match doc
    case None => []
    case Some(elements) =>
      var i := FirstSummary(elements);
      if i < 0 then [] else SummaryLines(elements[i].content)
  }

  // ---------------------------------------------------------------------
  // Enums

  /** The value of a member written with `= value`: the value of the
      expression's first token, or the fresh member's 0 when that token
      carries no value. */
  function ExplicitValue(v: Option<string>): string {
    match v
    case Some(text) => text
    case None => FreshEnumMember.value
  }

  /** Members in order; the running counter names the members without a
      value and only those advance it. */
  function NumberMembers(ms: seq<EnumMemberDecl>, counter: int): (r: seq<EnumMember>)
    ensures |r| == |ms|
    ensures forall k :: 0 <= k < |ms| ==> r[k].name == ms[k].name && r[k].trivia == DocLines(ms[k].doc)
  {
    var cs := Counters(ms, counter);
    seq(|ms|, k requires 0 <= k < |ms| => EnumMember(ms[k].name, DocLines(ms[k].doc), MemberValue(ms[k], cs[k])))
  }

  /** The counter as the loop reaches each member. */
  function Counters(ms: seq<EnumMemberDecl>, counter: int): (r: seq<int>)
    ensures |r| == |ms|
  {
    if |ms| == 0 then [] else [counter] + Counters(ms[1..], NextCounter(ms[0], counter))
  }

  /** A member's value: its explicit value, or the counter. */
  function MemberValue(m: EnumMemberDecl, counter: int): string {
    match m.equalsValue
    case None => DecimalText(counter)
    case Some(v) => ExplicitValue(v)
  }

  /** The counter after a member: only members without a value advance it. */
  function NextCounter(m: EnumMemberDecl, counter: int): int {
    if m.equalsValue.None? then counter + 1 else counter
  }

  /** How many of `ms` carry no value. */
  function CountAuto(ms: seq<EnumMemberDecl>): nat {
    if |ms| == 0 then 0
    else (if ms[0].equalsValue.None? then 1 else 0) + CountAuto(ms[1..])
  }

  /** The value of member `k`: an explicit one as given, otherwise the
      starting counter plus the number of earlier members without a value. */
  lemma NumberingClosedForm(ms: seq<EnumMemberDecl>, counter: int, k: nat)
    requires k < |ms|
    ensures NumberMembers(ms, counter)[k].value ==
      match ms[k].equalsValue
      case None => DecimalText(counter + CountAuto(ms[..k]))
      case Some(v) => ExplicitValue(v)
  {
    CountersClosedForm(ms, counter, k);
  }

  /** The counter at member `k` is the start plus the members before `k`
      without a value. */
  lemma {:induction false} CountersClosedForm(ms: seq<EnumMemberDecl>, counter: int, k: nat)
    requires k < |ms|
    ensures Counters(ms, counter)[k] == counter + CountAuto(ms[..k])
    decreases k
  {
    if k == 0 {
      assert CountAuto(ms[..0]) == 0;
    } else {
      CountersClosedForm(ms[1..], NextCounter(ms[0], counter), k - 1);
      CountAutoTail(ms, k);
    }
  }

  lemma CountAutoTail(ms: seq<EnumMemberDecl>, k: nat)
    requires 0 < k <= |ms|
    ensures CountAuto(ms[..k]) == (if ms[0].equalsValue.None? then 1 else 0) + CountAuto(ms[1..][..k - 1])
  {
    assert ms[..k][1..] == ms[1..][..k - 1];
    assert ms[..k][0] == ms[0];
  }

  function MemberValues(members: seq<EnumMember>): (r: seq<string>)
    ensures |r| == |members|
    ensures forall k :: 0 <= k < |members| ==> r[k] == members[k].value
  {
    seq(|members|, k requires 0 <= k < |members| => members[k].value)
  }

  /** The first line of a declaration's text. */
  function FirstLine(text: string): string {
    SplitText(text, "\r\n")[0]
  }

  /** The enum model of an enum declaration; `None` when its first line
      mentions `private`. */
  function EnumOf(name: string, text: string, doc: Doc, members: seq<EnumMemberDecl>): (r: Option<EnumModel>)
    ensures r.None? <==> Contains(FirstLine(text), "private")
    ensures r.Some? ==> r.value.name == name && r.value.trivia == DocLines(doc)
    ensures r.Some? ==> |r.value.members| == |members| && r.value.values == MemberValues(r.value.members)
    ensures r.Some? ==> forall k :: 0 <= k < |members| ==>
      r.value.members[k].name == members[k].name && r.value.values[k] == r.value.members[k].value
  {
    if Contains(FirstLine(text), "private") then None
    else
      var ms := NumberMembers(members, 0);
      Some(EnumModel(name, DocLines(doc), ms, MemberValues(ms)))
  }

  // ---------------------------------------------------------------------
  // Classes

  /** The base list's entries: its text split at every comma, each entry
      trimmed, all kept. */
  function BaseNames(text: string): (r: seq<string>)
    ensures |r| == |Split(text, {','})| && |r| >= 1
    ensures forall k :: 0 <= k < |r| ==> Trim(r[k]) == r[k]
  {
    var pieces := Split(text, {','});
    var r := TrimAll(pieces);
    assert forall k :: 0 <= k < |r| ==> Trim(r[k]) == r[k] by {
      forall k | 0 <= k < |r| ensures Trim(r[k]) == r[k] {
        TrimIdempotent(pieces[k]);
      }
    }
    r
  }

  function Parents(names: seq<string>): (r: seq<Parent>)
    ensures |r| == |names|
    ensures forall k :: 0 <= k < |names| ==> r[k] == Parent(names[k], "", None)
  {
    seq(|names|, k requires 0 <= k < |names| => Parent(names[k], "", None))
  }

  /** The class model of a type declaration, before properties attach. */
  function ClassOf(name: string, baseList: Option<string>, namespace: Option<string>, doc: Doc): ClassModel {
    var parents := match baseList
      case None => []
      case Some(text) => Parents(BaseNames(text));
    ClassModel(name, parents, namespace.GetOr(""), DocLines(doc), [])
  }

  // ---------------------------------------------------------------------
  // Range attributes

  const RangeSeparators: set<char> := {'(', ',', ')'}

  /** The bounds of one attribute list when it is a `[Range(..)]` with at
      least two arguments: the raw, untrimmed texts between the separators. */
  function RangeAttribute(s: string): (r: Option<(string, string)>)
    ensures r.Some? ==> StartsWith(s, "[Range(")
    ensures r.Some? ==> NoneOf(r.value.0, RangeSeparators) && NoneOf(r.value.1, RangeSeparators)
  {
    if StartsWith(s, "[Range(") then
      var ss := Split(s, RangeSeparators);
      if |ss| > 2 then Some((ss[1], ss[2])) else None
    else None
  }

  /** The loop over a property's attribute lists: every range attribute
      overwrites the bounds found so far. */
  function ScanRanges(attributeLists: seq<string>, found: Option<(string, string)>): Option<(string, string)> {
    if |attributeLists| == 0 then found
    else
      var next := match RangeAttribute(attributeLists[0])
        case Some(bounds) => Some(bounds)
        case None => found;
      ScanRanges(attributeLists[1..], next)
  }

  // ---------------------------------------------------------------------
  // Initial values (`_GetInitialValue`)

  /** The text the rules work on: a numeric or string literal's value
      text, otherwise the expression as written. */
  function ValueText(e: Expr): string {
    if e.kind == NumericLiteral || e.kind == StringLiteral then e.firstTokenValueText else e.text
  }

  predicate IsDateTimeName(t: string) {
    t == "DateTime" || t == "System.DateTime"
  }

  /** The arguments of the call a date initializer ends with, when a
      `new` (or failing that a `Parse`) comes before the last `(`, the
      last `)` comes after it and something stands between them. */
  function DateArguments(s: string): (r: Option<string>)
    ensures r.Some? ==> |r.value| > 0 && '(' !in r.value
  {
    if CallArguments(s, LastIndexOf(s, '('), LastIndexOf(s, ')')) then
      var asi, aei := LastIndexOf(s, '('), LastIndexOf(s, ')');
      SliceAvoids(s, '(', asi + 1, aei);
      Some(s[asi + 1..aei])
    else None
  }

  /** The test `DateArguments` makes with the last `(` at `asi` and the last
      `)` at `aei`: a `new` or a `Parse` before the `(`, and something
      between the two. */
  predicate CallArguments(s: string, asi: int, aei: int) {
    var ni := IndexOfText(s, "new");
    var pi := IndexOfText(s, "Parse");
    (0 <= ni < asi || 0 <= pi < asi) && 0 <= asi && asi + 1 < aei
  }

  /** A date initializer in ES: `DateTime.Now` and the like become the
      current date, a constructor or `Parse` call keeps its arguments;
      `None` where the text falls through to the general rules. */
  function DateLiteral(s: string): Option<string> {
    if EndsWith(s, "Now") then Some("new Date()")
    else match DateArguments(s)
      case Some(args) => Some("new Date(" + args + ")")
      case None => None
  }

  /** `int.Parse` of every piece, all or nothing. */
  function ParseAll(pieces: seq<string>): (r: Option<seq<int>>)
    ensures r.Some? ==> |r.value| == |pieces|
    ensures r.Some? ==> forall k :: 0 <= k < |pieces| ==> ParseInt32(pieces[k]) == Some(r.value[k])
    ensures r.None? ==> exists k :: 0 <= k < |pieces| && ParseInt32(pieces[k]).None?
  {
    AllSome(seq(|pieces|, k requires 0 <= k < |pieces| => ParseInt32(pieces[k])))
  }

  /** The values of a sequence of outcomes when every one has a value. */
  function AllSome(opts: seq<Option<int>>): (r: Option<seq<int>>)
    ensures r.Some? ==> |r.value| == |opts|
    ensures r.Some? ==> forall k :: 0 <= k < |opts| ==> opts[k] == Some(r.value[k])
    ensures r.None? ==> exists k :: 0 <= k < |opts| && opts[k].None?
  {
    if |opts| == 0 then Some([])
    else
      match opts[0]
      case None => None
      case Some(head) =>
        match AllSome(opts[1..])
        case None =>
          AllSomeMiss(opts);
          None
        case Some(tail) =>
          AllSomeStep(opts, head, tail);
          Some([head] + tail)
  }

  lemma AllSomeMiss(opts: seq<Option<int>>)
    requires |opts| > 0
    requires exists k :: 0 <= k < |opts| - 1 && opts[1..][k].None?
    ensures exists k :: 0 <= k < |opts| && opts[k].None?
  {
    var k :| 0 <= k < |opts| - 1 && opts[1..][k].None?;
    assert opts[k + 1] == opts[1..][k];
  }

  lemma AllSomeStep(opts: seq<Option<int>>, head: int, tail: seq<int>)
    requires |opts| > 0 && opts[0] == Some(head) && |tail| == |opts| - 1
    requires forall k :: 0 <= k < |tail| ==> opts[1..][k] == Some(tail[k])
    ensures forall k :: 0 <= k < |opts| ==> opts[k] == Some(([head] + tail)[k])
  {
    forall k | 0 < k < |opts| ensures opts[k] == opts[1..][k - 1] {}
  }

  /** The dimensions an array initializer states: the comma-separated
      sizes inside its first `[..]`, plus a 0 when the text holds more `[`
      than sizes (a jagged array); `None` where a size does not parse. */
  function ArrayDimensions(s: string): Option<seq<int>> {
    var dims :- BracketSizes(s);
    Some(if |dims| > 0 && CountChar(s, '[') > |dims| then dims + [0] else dims)
  }

  /** The sizes inside the first `[..]`, none when it is missing or empty. */
  function BracketSizes(s: string): Option<seq<int>> {
    match BracketedPart(s)
    case Some(t) => ParseAll(Split(t, {','}))
    case None => Some([])
  }

  /** The text between the first `[` and the first `]`, when something
      stands between them. */
  function BracketedPart(s: string): Option<string> {
    var sbsi := IndexOf(s, '[');
    var sbse := IndexOf(s, ']');
    if sbsi != -1 && sbse != -1 && sbse - sbsi > 1 then Some(s[sbsi + 1..sbse]) else None
  }

  /** A `{..}` initializer body as an ES array literal: braces become
      brackets, double quotes single quotes, spaces vanish. */
  function BracesToBrackets(t: string): (r: string)
    ensures '{' !in r && '}' !in r && '"' !in r && ' ' !in r
  {
    var a := ReplaceChar(t, '{', '[');
    var b := ReplaceChar(a, '}', ']');
    var c := ReplaceChar(b, '"', '\'');
    assert '{' !in c && '}' !in c && '"' !in c by {
      assert forall k :: 0 <= k < |c| ==> c[k] != '{' && c[k] != '}' && c[k] != '"';
    }
    RemoveChar(c, ' ')
  }

  /** The ES literal of a list or array initializer: its outermost `{..}`
      rewritten, or an empty array when there is none. */
  function CollectionLiteral(s: string): (r: string)
    ensures '{' !in r && '}' !in r && '"' !in r && ' ' !in r
  {
    match BracedPart(s)
    case Some(t) => BracesToBrackets(t)
    case None => "[]"
  }

  /** The text from the first `{` to the last `}`, when that `}` comes
      after the `{`. */
  function BracedPart(s: string): Option<string> {
    var si := IndexOf(s, '{');
    var ei := LastIndexOf(s, '}');
    if si != -1 && ei != -1 && ei - si > 0 then Some(s[si..ei + 1]) else None
  }

  /** The initial value of a property of type `info` initialized with `e`,
      and the array sizes the initializer states: a `.MinValue` or
      `.MaxValue` initializer becomes the type's bound text, a `bool` keeps
      the text, a `string` is put in single quotes, a date becomes an ES
      `Date`, a list or array becomes an ES array literal; otherwise the
      text as it is. A size that does not parse makes the whole value
      empty. */
  function InitialValue(info: TypeInfo, e: Expr): (r: (string, seq<int>))
    ensures r.1 != [] ==> info.isArray && |r.1| >= 1
  {
    var s := ValueText(e);
    match BoundValue(info, s)
    case Some(v) => (v, [])
    case None =>
      match LiteralValue(info, s)
      case Some(v) => (v, [])
      case None => CollectionValue(info, s)
  }

  /** A `.MinValue` or `.MaxValue` initializer: the type's bound text. */
  function BoundValue(info: TypeInfo, s: string): Option<string> {
    if EndsWith(s, ".MinValue") && info.typeMin.Some? then info.typeMin
    else if EndsWith(s, ".MaxValue") && info.typeMax.Some? then info.typeMax
    else None
  }

  /** A `bool`, `string` or date initializer. */
  function LiteralValue(info: TypeInfo, s: string): Option<string> {
    if info.typeName == "bool" then Some(s)
    else if info.typeName == "string" then Some("'" + s + "'")
    else if IsDateTimeName(info.typeName) then DateLiteral(s)
    else None
  }

  /** The general rules: the sizes of an array initializer, and the ES
      array literal of a list or array initializer; the text itself
      otherwise. A size that does not parse makes the value empty. */
  function CollectionValue(info: TypeInfo, s: string): (r: (string, seq<int>))
    ensures r.1 != [] ==> info.isArray && |r.1| >= 1
    ensures (info.isList || info.isArray) ==> '{' !in r.0 && '}' !in r.0 && '"' !in r.0 && ' ' !in r.0
  {
    match if info.isArray then ArrayDimensions(s) else Some([])
    case None => ("", [])
    case Some(dims) =>
      assert dims != [] ==> info.isArray && |dims| >= 1;
      (if info.isList || info.isArray then CollectionLiteral(s) else s, dims)
  }

  // ---------------------------------------------------------------------
  // Properties and fields

  /** The type a property is declared with: its text without any `?`,
      trimmed. */
  function PropertyType(typeText: string): (r: string)
    ensures '?' !in r && Within(r, typeText)
  {
    var bare := RemoveChar(typeText, '?');
    TrimWithin(bare);
    assert forall j :: 0 <= j < |Trim(bare)| ==> Trim(bare)[j] in bare;
    Trim(bare)
  }

  /** A new `StructureProperty` filled from a declaration; `None` when
      setting its type throws. */
  function NewProperty(name: string, typeText: string, typeKind: string, doc: Doc,
                       range: Option<(string, string)>, init: Option<Expr>): (r: Option<Property>)
    ensures r.Some? <==> Classify(PropertyType(typeText)).Some?
    ensures r.Some? ==> r.value.name == name && r.value.info.typeName == PropertyType(typeText)
    ensures r.Some? ==> (r.value.isNullable <==> Contains(typeKind, "Nullable"))
    ensures r.Some? ==> (r.value.hasRange <==> range.Some?)
    ensures r.Some? ==> (r.value.initialValue.Some? <==> init.Some?)
    ensures r.Some? ==> r.value.classRef.None? && r.value.enumRef.None?
    ensures r.Some? ==> r.value.info == Classify(PropertyType(typeText)).value
    ensures r.Some? ==> r.value.trivia == DocLines(doc)
    ensures r.Some? && range.Some? ==> r.value.rangeMin == range.value.0 && r.value.rangeMax == range.value.1
    ensures r.Some? && init.Some? ==>
      (r.value.initialValue.value, r.value.arrayDimensions) == InitialValue(r.value.info, init.value)
    ensures r.Some? && init.None? ==> r.value.arrayDimensions == []
  {
    var info :- Classify(PropertyType(typeText));
    var (value, dims) := match init
      case None => (None, [])
      case Some(e) => var v := InitialValue(info, e); (Some(v.0), v.1);
    var (min, max) := match range
      case None => ("", "")
      case Some(bounds) => bounds;
    Some(Property(name, info, DocLines(doc), value, Contains(typeKind, "Nullable"),
                  range.Some?, min, max, dims, None, None))
  }

  /** What one member contributes to the third pass. */
  datatype Capture =
    | Skipped
      /** Setting the property's type threw: the rest of the file's
          members are not looked at. */
    | Threw
      /** A property for the class named `owner`, if it sits in one. */
    | Captured(p: Property, owner: Option<string>)

  /** A public property (with its range attributes and initializer) or the
      first variable of a public field (no attributes) as a property. */
  function CaptureMember(m: MemberDecl): (r: Capture)
    ensures r.Captured? ==> (m.PropertyDecl? || m.FieldDecl?) && Contains(m.modifiers, "public")
    ensures r.Captured? && m.PropertyDecl? ==> r.p.name == m.name && r.owner == m.enclosingType
    ensures r.Captured? && m.FieldDecl? ==>
      |m.declarators| > 0 && r.p.name == m.declarators[0].name && !r.p.hasRange && r.owner == m.enclosingType
    ensures r.Threw? <==> (m.PropertyDecl? || (m.FieldDecl? && |m.declarators| > 0))
                          && Contains(m.modifiers, "public") && Classify(PropertyType(m.typeText)).None?
    ensures r.Captured? <==> (m.PropertyDecl? || (m.FieldDecl? && |m.declarators| > 0))
                             && Contains(m.modifiers, "public") && Classify(PropertyType(m.typeText)).Some?
  {
    match m
    case PropertyDecl(modifiers, name, typeText, typeKind, doc, attributeLists, init, owner) =>
      if !Contains(modifiers, "public") then Skipped
      else
        (match NewProperty(name, typeText, typeKind, doc, ScanRanges(attributeLists, None), init)
         case None => Threw
         case Some(p) => Captured(p, owner))
    case FieldDecl(modifiers, typeText, typeKind, doc, declarators, owner) =>
      if !Contains(modifiers, "public") || |declarators| == 0 then Skipped
      else
        (match NewProperty(declarators[0].name, typeText, typeKind, doc, None, declarators[0].initializer)
         case None => Threw
         case Some(p) => Captured(p, owner))
    case _ => Skipped
  }

  /** The position of the first class named `name`, or -1. */
  function FirstClassNamed(classes: seq<ClassModel>, name: string): (r: int)
    ensures -1 <= r < |classes|
    ensures r >= 0 ==> classes[r].name == name
    ensures forall k :: 0 <= k < |classes| && (r < 0 || k < r) ==> classes[k].name != name
  {
    if |classes| == 0 then -1
    else if classes[0].name == name then 0
    else
      var r := FirstClassNamed(classes[1..], name);
      if r < 0 then -1 else r + 1
  }

  /** The property added to the first class of the file named `owner`;
      nothing happens without such a class. */
  function Attach(classes: seq<ClassModel>, owner: Option<string>, p: Property): (r: seq<ClassModel>)
    ensures |r| == |classes|
    ensures forall k :: 0 <= k < |classes| ==>
      r[k].name == classes[k].name && r[k].inheritsFrom == classes[k].inheritsFrom
      && r[k].namespace == classes[k].namespace && r[k].trivia == classes[k].trivia
    ensures forall k :: 0 <= k < |classes| ==>
      r[k].properties == classes[k].properties +
        (if owner.Some? && k == FirstClassNamed(classes, owner.value) then [p] else [])
  {
    match owner
    case None => classes
    case Some(name) =>
      var i := FirstClassNamed(classes, name);
      if i < 0 then classes
      else classes[i := classes[i].(properties := classes[i].properties + [p])]
  }

  /** `after` is `before` with properties appended to its classes and
      nothing else changed. */
  predicate Extends(before: seq<ClassModel>, after: seq<ClassModel>) {
    |after| == |before| &&
    forall k :: 0 <= k < |before| ==>
      after[k].name == before[k].name && after[k].inheritsFrom == before[k].inheritsFrom
      && after[k].namespace == before[k].namespace && after[k].trivia == before[k].trivia
      && before[k].properties <= after[k].properties
  }

  lemma ExtendsTransitive(a: seq<ClassModel>, b: seq<ClassModel>, c: seq<ClassModel>)
    requires Extends(a, b) && Extends(b, c)
    ensures Extends(a, c)
  {
    forall k | 0 <= k < |a| ensures a[k].properties <= c[k].properties {
      var pa, pb, pc := a[k].properties, b[k].properties, c[k].properties;
      assert pb[..|pa|] == pa;
      assert pc[..|pb|] == pb;
      assert pc[..|pa|] == pc[..|pb|][..|pa|];
    }
  }

  /** What each member contributes to the third pass, in member order. */
  function CaptureAll(ms: seq<MemberDecl>): seq<Capture> {
    seq(|ms|, k requires 0 <= k < |ms| => CaptureMember(ms[k]))
  }

  /** The third pass over the members' contributions: in order until one
      throws. */
  function CapturePass(classes: seq<ClassModel>, cs: seq<Capture>): (r: seq<ClassModel>)
    ensures Extends(classes, r)
    decreases |cs|
  {
    if |cs| == 0 then classes
    else match cs[0]
      case Skipped => CapturePass(classes, cs[1..])
      case Threw => classes
      case Captured(p, owner) =>
        var next := Attach(classes, owner, p);
        var r := CapturePass(next, cs[1..]);
        ExtendsTransitive(classes, next, r);
        r
  }

  /** The enum a member contributes to the first pass: none unless it is
      an enum whose first line does not mention `private`. */
  function EnumsOf(m: MemberDecl): (r: seq<EnumModel>)
    ensures |r| <= 1
    ensures |r| == 1 <==> m.EnumDecl? && !Contains(FirstLine(m.text), "private")
    ensures |r| == 1 ==> r[0].name == m.name && |r[0].members| == |m.members|
  {
    match m
    case EnumDecl(name, text, doc, members) =>
      (match EnumOf(name, text, doc, members) case Some(e) => [e] case None => [])
    case _ => []
  }

  /** The first pass: the enums whose first line does not mention
      `private`, in order. */
  function EnumPass(ms: seq<MemberDecl>): (r: seq<EnumModel>)
    ensures |r| <= |ms|
  {
    if |ms| == 0 then [] else EnumsOf(ms[0]) + EnumPass(ms[1..])
  }

  /** The class a member contributes to the second pass: none unless it is
      a class, struct, record or interface. */
  function ClassesOf(m: MemberDecl): (r: seq<ClassModel>)
    ensures |r| == (if m.TypeDecl? then 1 else 0)
    ensures m.TypeDecl? ==> r[0].name == m.name && r[0].properties == []
  {
    match m
    case TypeDecl(name, baseList, namespace, doc) => [ClassOf(name, baseList, namespace, doc)]
    case _ => []
  }

  /** The second pass: every class, struct, record or interface, in order. */
  function ClassPass(ms: seq<MemberDecl>): (r: seq<ClassModel>)
    ensures |r| <= |ms|
    ensures forall k :: 0 <= k < |r| ==> r[k].properties == []
  {
    if |ms| == 0 then [] else ClassesOf(ms[0]) + ClassPass(ms[1..])
  }

  /** `ModelsParser.Parse`: the classes and enums of one file. */
  function ParseMembers(ms: seq<MemberDecl>): (r: (seq<ClassModel>, seq<EnumModel>))
    ensures r.1 == EnumPass(ms)
    ensures Extends(ClassPass(ms), r.0)
  {
    (CapturePass(ClassPass(ms), CaptureAll(ms)), EnumPass(ms))
  }
}

=== FILE: extract_facts.dfy ===
/** What the extraction rules promise: written documentation, base
    lists, range attributes, date constructors, array sizes and collection
    initializers are read back as written, enum numbering has a closed
    form, and the last range attribute wins. */
module ExtractFacts {
  import opened Text
  import opened Syntax
  import opened Models
  import opened PropertyTypes
  import opened PropertyTypeFacts
  import opened Extract

  // ---------------------------------------------------------------------
  // Inputs written the way a C# author writes them

  /** A summary as a C# author writes it: a line break after the start tag,
      then `/// line` followed by a line break for every line. */
  function SummaryContent(lines: seq<string>): string {
    Join("///", ["\n"] + seq(|lines|, k requires 0 <= k < |lines| => " " + lines[k] + "\n"))
  }

  /** A documentation line that survives extraction unchanged: not empty,
      no white space at either end, no slash. */
  predicate PlainDocLine(l: string) {
    |l| > 0 && l[0] !in WhiteSpace && l[|l| - 1] !in WhiteSpace && '/' !in l
  }

  /** The bounds of the last range attribute, looking from the end. */
  function LastRange(attributeLists: seq<string>): Option<(string, string)> {
    if |attributeLists| == 0 then None
    else
      var last := RangeAttribute(attributeLists[|attributeLists| - 1]);
      if last.Some? then last else LastRange(attributeLists[..|attributeLists| - 1])
  }

  /** Array sizes as an author writes them: decimal numbers. */
  function DimensionTexts(dims: seq<nat>): (r: seq<string>)
    ensures |r| == |dims|
    ensures forall k :: 0 <= k < |dims| ==> r[k] == DecimalText(dims[k])
  {
    seq(|dims|, k requires 0 <= k < |dims| => DecimalText(dims[k]))
  }

  /** Elements an ES array literal keeps as written. */
  predicate PlainElement(x: string) {
    '{' !in x && '}' !in x && '"' !in x && ' ' !in x
  }

  // ---------------------------------------------------------------------
  // Documentation

  /** The lines of a written summary are recovered, whatever elements
      precede or follow it, as long as no earlier element is a summary. */
  lemma DocLinesRoundTrip(lines: seq<string>, before: seq<DocElement>, after: seq<DocElement>)
    requires forall k :: 0 <= k < |lines| ==> PlainDocLine(lines[k])
    requires forall k :: 0 <= k < |before| ==> before[k].startTag != SummaryTag
    ensures DocLines(Some(before + [DocElement(SummaryTag, SummaryContent(lines))] + after)) == lines
  {
    var elements := before + [DocElement(SummaryTag, SummaryContent(lines))] + after;
    assert elements[|before|].startTag == SummaryTag;
    assert FirstSummary(elements) == |before|;
    SummaryLinesOfContent(lines);
  }

  lemma SummaryLinesOfContent(lines: seq<string>)
    requires forall k :: 0 <= k < |lines| ==> PlainDocLine(lines[k])
    ensures SummaryLines(SummaryContent(lines)) == lines
  {
    var padded := seq(|lines|, k requires 0 <= k < |lines| => " " + lines[k] + "\n");
    var parts := ["\n"] + padded;
    assert forall k :: 0 <= k < |parts| ==> '/' !in parts[k] by {
      forall k | 0 <= k < |parts| ensures '/' !in parts[k] {
        if k > 0 {
          assert parts[k] == " " + lines[k - 1] + "\n";
        }
      }
    }
    SplitTextJoin(parts, "///");
    TrimPaddedAll(lines);
    NonEmptyKeeps(lines);
  }

  lemma TrimPaddedAll(lines: seq<string>)
    requires forall k :: 0 <= k < |lines| ==> PlainDocLine(lines[k])
    ensures TrimAll(["\n"] + seq(|lines|, k requires 0 <= k < |lines| => " " + lines[k] + "\n")) == [""] + lines
  {
    var parts := ["\n"] + seq(|lines|, k requires 0 <= k < |lines| => " " + lines[k] + "\n");
    var r, expected := TrimAll(parts), [""] + lines;
    forall k | 0 <= k < |parts| ensures r[k] == expected[k] {
      TrimPaddedAt(lines, parts, k);
    }
    assert r == expected;
  }

  lemma TrimPaddedAt(lines: seq<string>, parts: seq<string>, k: nat)
    requires forall k :: 0 <= k < |lines| ==> PlainDocLine(lines[k])
    requires parts == ["\n"] + seq(|lines|, k requires 0 <= k < |lines| => " " + lines[k] + "\n")
    requires k < |parts|
    ensures Trim(parts[k]) == ([""] + lines)[k]
  {
    if k == 0 {
      TrimNewline();
    } else {
      TrimPart(lines[k - 1], parts[k]);
    }
  }

  /** A written line trims back to the documentation line. */
  lemma TrimPart(line: string, part: string)
    requires PlainDocLine(line) && part == " " + line + "\n"
    ensures Trim(part) == line
  {
    TrimPadded(line);
  }

  /** A member whose explicit value has no token value keeps the 0 every
      new member starts with, wherever the counter stands. */
  lemma {:induction false} NullValueKeepsZero(ms: seq<EnumMemberDecl>, counter: int, k: nat)
    requires k < |ms| && ms[k].equalsValue == Some(None)
    ensures NumberMembers(ms, counter)[k].value == FreshEnumMember.value == "0"
  {
    NumberingClosedForm(ms, counter, k);
  }

  /** Explicit values do not move the counter: two members without a value
      that have only members with one between them get consecutive numbers
      (`[A, B = 5, C]` numbers `C` with 1). */
  lemma {:induction false} ExplicitValuesSkipped(ms: seq<EnumMemberDecl>, counter: int, i: nat, j: nat)
    requires i < j < |ms| && ms[i].equalsValue.None? && ms[j].equalsValue.None?
    requires Valued(ms[i + 1..j])
    ensures var r, before := NumberMembers(ms, counter), counter + CountAuto(ms[..i]);
      r[i].value == DecimalText(before) && r[j].value == DecimalText(before + 1)
  {
    var before := counter + CountAuto(ms[..i]);
    AutoValue(ms, counter, i, before);
    CountAutoBetween(ms, i, j);
    assert before + 1 == counter + CountAuto(ms[..j]);
    AutoValue(ms, counter, j, before + 1);
  }

  /** The closed form for a member without a value: `n` is the start plus
      the members before it without one. */
  lemma {:induction false} AutoValue(ms: seq<EnumMemberDecl>, counter: int, k: nat, n: int)
    requires k < |ms| && ms[k].equalsValue.None? && n == counter + CountAuto(ms[..k])
    ensures NumberMembers(ms, counter)[k].value == DecimalText(n)
  {
    NumberingClosedForm(ms, counter, k);
  }

  lemma {:induction false} CountAutoBetween(ms: seq<EnumMemberDecl>, i: nat, j: nat)
    requires i < j <= |ms| && ms[i].equalsValue.None? && Valued(ms[i + 1..j])
    ensures CountAuto(ms[..j]) == CountAuto(ms[..i]) + 1
  {
    var between := ms[i + 1..j];
    assert ms[..j] == ms[..i] + ([ms[i]] + between);
    CountAutoConcat(ms[..i], [ms[i]] + between);
    CountAutoConcat([ms[i]], between);
    CountAutoExplicit(between);
    assert CountAuto([ms[i]]) == 1 by {
      assert [ms[i]][1..] == [];
    }
  }

  lemma {:induction false} CountAutoConcat(a: seq<EnumMemberDecl>, b: seq<EnumMemberDecl>)
    ensures CountAuto(a + b) == CountAuto(a) + CountAuto(b)
    decreases |a|
  {
    if |a| == 0 {
      assert a + b == b;
    } else {
      assert (a + b)[1..] == a[1..] + b;
      CountAutoConcat(a[1..], b);
    }
  }

  /** Every member of `a` carries a value. */
  predicate Valued(a: seq<EnumMemberDecl>) {
    forall m :: 0 <= m < |a| ==> a[m].equalsValue.Some?
  }

  lemma {:induction false} CountAutoExplicit(a: seq<EnumMemberDecl>)
    requires Valued(a)
    ensures CountAuto(a) == 0
    decreases |a|
  {
    if |a| > 0 {
      CountAutoExplicit(a[1..]);
    }
  }

  /** A base list written as comma-separated entries gives every entry back,
      trimmed and in order. */
  lemma BaseNamesOfJoin(entries: seq<string>)
    requires |entries| >= 1
    requires forall k :: 0 <= k < |entries| ==> ',' !in entries[k]
    ensures BaseNames(Join(",", entries)) == TrimAll(entries)
  {
    SplitJoin(entries, ',');
  }

  /** `[Range(a,b)]` gives `a` and `b` back. */
  lemma RangeRoundTrip(a: string, b: string)
    requires NoneOf(a, RangeSeparators) && NoneOf(b, RangeSeparators)
    ensures RangeAttribute("[Range(" + a + "," + b + ")]") == Some((a, b))
  {
    var s := "[Range(" + a + "," + b + ")]";
    RangePieces(a, b);
    RangeStart(a, b);
    RangeOf(s, a, b);
  }

  /** A text that starts as a range attribute and splits into at least
      three pieces gives the second and third. */
  lemma RangeOf(s: string, a: string, b: string)
    requires StartsWith(s, "[Range(")
    requires |Split(s, RangeSeparators)| > 2
    requires Split(s, RangeSeparators)[1] == a && Split(s, RangeSeparators)[2] == b
    ensures RangeAttribute(s) == Some((a, b))
  {
  }

  lemma RangeStart(a: string, b: string)
    ensures StartsWith("[Range(" + a + "," + b + ")]", "[Range(")
  {
    var s := "[Range(" + a + "," + b + ")]";
    assert s[..7] == "[Range(";
  }

  /** `[Range(a,b)]` splits at its separators into the name, `a`, `b` and
      the closing bracket. */
  lemma RangePieces(a: string, b: string)
    requires NoneOf(a, RangeSeparators) && NoneOf(b, RangeSeparators)
    ensures var ss := Split("[Range(" + a + "," + b + ")]", RangeSeparators);
      |ss| == 4 && ss[1] == a && ss[2] == b
  {
    var t2 := b + ([')'] + "]");
    var t1 := a + ([','] + t2);
    RangeText(a, b);
    assert NoneOf("[Range", RangeSeparators);
    assert NoneOf("]", RangeSeparators);
    var last := Split("]", RangeSeparators);
    assert last == ["]"];
    SplitFirst(b, ')', "]", RangeSeparators);
    SplitFirst(a, ',', t2, RangeSeparators);
    SplitFirst("[Range", '(', t1, RangeSeparators);
    Pieces(Split("[Range" + (['('] + t1), RangeSeparators), Split(t1, RangeSeparators),
           Split(t2, RangeSeparators), "[Range", a, b, "]");
  }

  /** Four pieces found one after another. */
  lemma Pieces<T>(ss: seq<T>, s1: seq<T>, s2: seq<T>, w: T, x: T, y: T, z: T)
    requires ss == [w] + s1 && s1 == [x] + s2 && s2 == [y] + [z]
    ensures |ss| == 4 && ss[1] == x && ss[2] == y
  {
  }

  /** `[Range(a,b)]` cut at its separators. */
  lemma RangeText(a: string, b: string)
    ensures "[Range(" + a + "," + b + ")]" == "[Range" + (['('] + (a + ([','] + (b + ([')'] + "]")))))
  {
  }

  /** The last range attribute wins; without one the bounds stay as found. */
  lemma {:induction false} ScanRangesIsLast(attributeLists: seq<string>, found: Option<(string, string)>)
    ensures ScanRanges(attributeLists, found) ==
      (if LastRange(attributeLists).Some? then LastRange(attributeLists) else found)
    decreases |attributeLists|
  {
    var n := |attributeLists|;
    if n > 0 {
      var next := match RangeAttribute(attributeLists[0])
        case Some(bounds) => Some(bounds)
        case None => found;
      ScanRangesIsLast(attributeLists[1..], next);
      if n > 1 {
        assert attributeLists[1..][n - 2] == attributeLists[n - 1];
        assert attributeLists[1..][..n - 2] == attributeLists[..n - 1][1..];
        ScanRangesIsLast(attributeLists[..n - 1], found);
        ScanRangesIsLast(attributeLists[..n - 1][1..], next);
        assert attributeLists[..n - 1][0] == attributeLists[0];
      }
    }
  }

  /** `new DateTime(args)` keeps its arguments. */
  lemma DateConstructorRoundTrip(args: string)
    requires |args| > 0 && '(' !in args && ')' !in args
    ensures DateLiteral("new DateTime(" + args + ")") == Some("new Date(" + args + ")")
  {
    DateConstructorOf("new DateTime(" + args + ")", args);
  }

  lemma DateConstructorOf(s: string, args: string)
    requires |args| > 0 && '(' !in args && ')' !in args
    requires s == "new DateTime(" + args + ")"
    ensures DateLiteral(s) == Some("new Date(" + args + ")")
  {
    var n := |s|;
    assert s[n - 1] == ')';
    assert !EndsWith(s, "Now");
    assert s[0..3] == "new";
    assert s[12] == '(';
    assert s[13..] == args + ")";
    assert s[13..n - 1] == args;
    LastIndexOfAt(s, '(', 12);
    LastIndexOfAt(s, ')', n - 1);
    DateArgumentsAt(s, 12, n - 1);
  }

  /** The arguments of a date constructor sit between the last `(` and the
      last `)`. */
  lemma DateArgumentsAt(s: string, asi: nat, aei: nat)
    requires OccursAt(s, "new", 0) && 0 < asi && asi + 1 < aei
    requires LastIndexOf(s, '(') == asi && LastIndexOf(s, ')') == aei
    ensures DateArguments(s) == Some(s[asi + 1..aei])
  {
    assert IndexOfText(s, "new") == 0;
    DateArgumentsOf(s, asi, aei);
  }

  /** When the test holds, the arguments are what stands between the last
      parentheses. */
  lemma {:induction false} DateArgumentsOf(s: string, asi: nat, aei: nat)
    requires asi + 1 < aei <= |s|
    requires LastIndexOf(s, '(') == asi && LastIndexOf(s, ')') == aei
    requires CallArguments(s, asi, aei)
    ensures DateArguments(s) == Some(s[asi + 1..aei])
  {
  }

  /** `new T[d1,...,dn]` states the sizes `d1..dn` for a bracket-free `T`. */
  lemma ArrayDimensionsRoundTrip(elem: string, dims: seq<nat>)
    requires |dims| >= 1
    requires '[' !in elem && ']' !in elem
    requires forall k :: 0 <= k < |dims| ==> dims[k] <= Int32Max
    ensures ArrayDimensions("new " + elem + "[" + Join(",", DimensionTexts(dims)) + "]") == Some(dims)
  {
    var body := Join(",", DimensionTexts(dims));
    var prefix := "new " + elem;
    NewPrefix(elem);
    DimensionBody(dims);
    ArrayDimensionsOf(prefix, body, dims);
  }

  /** `p[b]` with `p` and `b` bracket-free states the sizes `b` parses to. */
  lemma ArrayDimensionsOf(prefix: string, body: string, dims: seq<int>)
    requires '[' !in prefix && ']' !in prefix && '[' !in body && ']' !in body
    requires |body| >= 1 && |dims| >= 1 && ParseAll(Split(body, {','})) == Some(dims)
    ensures ArrayDimensions(prefix + "[" + body + "]") == Some(dims)
  {
    BracketedAt(prefix, body);
    CountChar1(prefix, body);
    ArrayDimensionsBetween(prefix + "[" + body + "]", |prefix|, |prefix| + |body| + 1, dims);
  }

  /** The written sizes are bracket-free and read back as the sizes. */
  lemma DimensionBody(dims: seq<nat>)
    requires |dims| >= 1
    requires forall k :: 0 <= k < |dims| ==> dims[k] <= Int32Max
    ensures var body := Join(",", DimensionTexts(dims));
      '[' !in body && ']' !in body && '{' !in body && |body| >= 1 && ParseAll(Split(body, {','})) == Some(dims)
  {
    var texts := DimensionTexts(dims);
    assert forall k :: 0 <= k < |texts| ==> ',' !in texts[k] && '[' !in texts[k] && ']' !in texts[k] && '{' !in texts[k] by {
      forall k | 0 <= k < |texts| ensures ',' !in texts[k] && '[' !in texts[k] && ']' !in texts[k] && '{' !in texts[k] {
        DecimalTextChars(dims[k]);
      }
    }
    JoinAvoids(texts, ",", '[');
    JoinAvoids(texts, ",", ']');
    JoinAvoids(texts, ",", '{');
    SplitJoin(texts, ',');
    ParseAllOfTexts(dims);
    assert |texts[0]| >= 1;
  }

  /** In `p[b]` with `p` and `b` bracket-free, the brackets are found where
      they were written and `b` lies between them. */
  lemma BracketedAt(prefix: string, body: string)
    requires '[' !in prefix && ']' !in prefix && '[' !in body && ']' !in body
    ensures var s := prefix + "[" + body + "]";
      IndexOf(s, '[') == |prefix| && IndexOf(s, ']') == |prefix| + |body| + 1 &&
      s[|prefix| + 1..|prefix| + |body| + 1] == body
  {
    var s := prefix + "[" + body + "]";
    assert s[..|prefix|] == prefix;
    IndexOfAt(s, '[', |prefix|);
    var front := prefix + "[" + body;
    assert s[..|s| - 1] == front;
    assert forall x :: x in front ==> x in prefix || x == '[' || x in body;
    IndexOfAt(s, ']', |s| - 1);
  }

  /** `p[b]` with `p` and `b` bracket-free holds one `[`. */
  lemma CountChar1(prefix: string, body: string)
    requires '[' !in prefix && '[' !in body
    ensures CountChar(prefix + "[" + body + "]", '[') == 1
  {
    CountCharConcat(prefix + "[" + body, "]", '[');
    CountCharConcat(prefix + "[", body, '[');
    CountCharConcat(prefix, "[", '[');
  }

  /** With the brackets located, the sizes are the parsed pieces between them. */
  lemma ArrayDimensionsBetween(s: string, si: int, se: int, dims: seq<int>)
    requires 0 <= si && si + 1 < se <= |s|
    requires IndexOf(s, '[') == si && IndexOf(s, ']') == se
    requires ParseAll(Split(s[si + 1..se], {','})) == Some(dims)
    ensures ArrayDimensions(s) == Some(if |dims| > 0 && CountChar(s, '[') > |dims| then dims + [0] else dims)
  {
    BracketedBetween(s, si, se);
  }

  lemma BracketedBetween(s: string, si: int, se: int)
    requires 0 <= si && si + 1 < se <= |s|
    requires IndexOf(s, '[') == si && IndexOf(s, ']') == se
    ensures BracketedPart(s) == Some(s[si + 1..se])
  {
  }

  /** Decimal texts hold no separators or brackets. */
  lemma DecimalTextChars(n: int)
    ensures ',' !in DecimalText(n) && '[' !in DecimalText(n) && ']' !in DecimalText(n) && '{' !in DecimalText(n)
  {
    var d := NatText(if n < 0 then -n else n);
    assert AllDigits(d);
    assert forall x :: x in DecimalText(n) ==> x == '-' || x in d;
  }

  /** A join holds a character none of its parts or its separator holds. */
  lemma {:induction false} JoinAvoids(parts: seq<string>, sep: string, c: char)
    requires c !in sep
    requires forall k :: 0 <= k < |parts| ==> c !in parts[k]
    ensures c !in Join(sep, parts)
    decreases |parts|
  {
    if |parts| > 1 {
      JoinAvoids(parts[1..], sep, c);
    }
  }

  /** The written sizes parse back to the sizes. */
  lemma ParseAllOfTexts(dims: seq<nat>)
    requires forall k :: 0 <= k < |dims| ==> dims[k] <= Int32Max
    ensures ParseAll(DimensionTexts(dims)) == Some(dims)
  {
    var texts := DimensionTexts(dims);
    forall k | 0 <= k < |dims| ensures ParseInt32(texts[k]) == Some(dims[k]) {
      ParseDimension(dims[k]);
    }
    var r := ParseAll(texts);
    assert r.Some?;
    assert r.value == dims;
  }

  /** A written size parses back as an `int`. */
  lemma ParseDimension(d: nat)
    requires d <= Int32Max
    ensures ParseInt32(DecimalText(d)) == Some(d)
  {
    DecimalTextRoundTrip(d);
  }

  /** `new List<T> { a, b, c }` becomes `[a,b,c]`. */
  lemma CollectionLiteralRoundTrip(prefix: string, items: seq<string>)
    requires '{' !in prefix && '}' !in prefix
    requires forall k :: 0 <= k < |items| ==> PlainElement(items[k])
    ensures CollectionLiteral(prefix + ("{ " + (Join(", ", items) + " }"))) == "[" + (Join(",", items) + "]")
  {
    var braced := "{ " + (Join(", ", items) + " }");
    assert braced[0] == '{' && braced[|braced| - 1] == '}';
    CollectionLiteralOf(prefix, braced);
    RewriteJoin(items);
  }

  /** The initializer is the text from the first `{`, when it opens the
      text after a brace-free prefix, to a closing `}` at the very end. */
  lemma CollectionLiteralOf(prefix: string, braced: string)
    requires '{' !in prefix && '}' !in prefix
    requires |braced| >= 2 && braced[0] == '{' && braced[|braced| - 1] == '}'
    ensures CollectionLiteral(prefix + braced) == BracesToBrackets(braced)
  {
    FirstAfter(prefix, braced, '{');
    LastIndexOfAt(prefix + braced, '}', |prefix + braced| - 1);
    assert (prefix + braced)[|prefix|..|prefix + braced|] == braced;
    CollectionLiteralBetween(prefix + braced, |prefix|, |prefix + braced| - 1);
  }

  /** A character that opens the text after a prefix free of it is first
      found there. */
  lemma FirstAfter(prefix: string, rest: string, c: char)
    requires c !in prefix && |rest| > 0 && rest[0] == c
    ensures IndexOf(prefix + rest, c) == |prefix|
  {
    assert (prefix + rest)[..|prefix|] == prefix;
    IndexOfAt(prefix + rest, c, |prefix|);
  }

  lemma CollectionLiteralBetween(s: string, si: int, ei: int)
    requires 0 <= si < ei && IndexOf(s, '{') == si && LastIndexOf(s, '}') == ei
    ensures CollectionLiteral(s) == BracesToBrackets(s[si..ei + 1])
  {
    assert BracedPart(s) == Some(s[si..ei + 1]);
  }

  /** The rewrite of `{ a, b }` is `[a,b]`. */
  lemma RewriteJoin(items: seq<string>)
    requires forall k :: 0 <= k < |items| ==> PlainElement(items[k])
    ensures BracesToBrackets("{ " + (Join(", ", items) + " }")) == "[" + (Join(",", items) + "]")
  {
    var body := Join(", ", items);
    RewriteConcat("{ ", body + " }");
    RewriteConcat(body, " }");
    RewriteBody(items);
    RewriteMarks();
  }

  /** The rewrite of the punctuation around and between elements. */
  lemma RewriteMarks()
    ensures BracesToBrackets("{ ") == "[" && BracesToBrackets(" }") == "]"
    ensures BracesToBrackets(", ") == ","
  {
    assert ReplaceChar("{ ", '{', '[') == "[ ";
    assert ReplaceChar("[ ", '}', ']') == "[ ";
    assert ReplaceChar("[ ", '"', '\'') == "[ ";
    assert RemoveChar("[ ", ' ') == "[";
    assert ReplaceChar(" }", '{', '[') == " }";
    assert ReplaceChar(" }", '}', ']') == " ]";
    assert ReplaceChar(" ]", '"', '\'') == " ]";
    assert RemoveChar(" ]", ' ') == "]";
    assert ReplaceChar(", ", '{', '[') == ", ";
    assert ReplaceChar(", ", '}', ']') == ", ";
    assert ReplaceChar(", ", '"', '\'') == ", ";
    assert RemoveChar(", ", ' ') == ",";
  }

  /** The rewrite distributes over concatenation. */
  lemma RewriteConcat(x: string, y: string)
    ensures BracesToBrackets(x + y) == BracesToBrackets(x) + BracesToBrackets(y)
  {
    ReplaceCharConcat(x, y, '{', '[');
    var ax, ay := ReplaceChar(x, '{', '['), ReplaceChar(y, '{', '[');
    ReplaceCharConcat(ax, ay, '}', ']');
    var b1, b2 := ReplaceChar(ax, '}', ']'), ReplaceChar(ay, '}', ']');
    ReplaceCharConcat(b1, b2, '"', '\'');
    RemoveCharConcat(ReplaceChar(b1, '"', '\''), ReplaceChar(b2, '"', '\''), ' ');
  }

  /** A plain element is left as it is by the rewrite. */
  lemma RewritePlain(x: string)
    requires PlainElement(x)
    ensures BracesToBrackets(x) == x
  {
    ReplaceCharAbsent(x, '{', '[');
    ReplaceCharAbsent(x, '}', ']');
    ReplaceCharAbsent(x, '"', '\'');
  }

  lemma ReplaceCharAbsent(x: string, a: char, b: char)
    requires a !in x
    ensures ReplaceChar(x, a, b) == x
  {
    assert forall k :: 0 <= k < |x| ==> x[k] != a;
  }

  /** The rewrite of `a, b, c` is `a,b,c`. */
  lemma {:induction false} RewriteBody(items: seq<string>)
    requires forall k :: 0 <= k < |items| ==> PlainElement(items[k])
    ensures BracesToBrackets(Join(", ", items)) == Join(",", items)
    decreases |items|
  {
    if |items| == 1 {
      RewritePlain(items[0]);
    } else if |items| > 1 {
      RewriteBody(items[1..]);
      RewritePlain(items[0]);
      RewriteConcat(items[0] + ", ", Join(", ", items[1..]));
      RewriteConcat(items[0], ", ");
      RewriteMarks();
    } else {
      assert BracesToBrackets("") == "";
    }
  }

  /** The types the general initializer rules apply to. */
  predicate GeneralType(info: TypeInfo) {
    info.typeName != "bool" && info.typeName != "string" && !IsDateTimeName(info.typeName)
  }

  /** A text that does not end in `e` names no bound. */
  lemma NoBound(info: TypeInfo, s: string)
    requires |s| > 0 && s[|s| - 1] != 'e'
    ensures BoundValue(info, s) == None
  {
    assert !EndsWith(s, ".MinValue") by { assert ".MinValue"[8] == 'e'; }
    assert !EndsWith(s, ".MaxValue") by { assert ".MaxValue"[8] == 'e'; }
  }

  /** A list initialized with `new List<T> { a, b }` starts as the ES
      literal `[a,b]`, with no array sizes. */
  lemma ListInitializer(info: TypeInfo, prefix: string, items: seq<string>, first: string)
    requires info.isList && !info.isArray && GeneralType(info)
    requires '{' !in prefix && '}' !in prefix
    requires forall k :: 0 <= k < |items| ==> PlainElement(items[k])
    ensures InitialValue(info, Expr(OtherExpression, prefix + ("{ " + (Join(", ", items) + " }")), first))
            == ("[" + (Join(",", items) + "]"), [])
  {
    var text := prefix + ("{ " + (Join(", ", items) + " }"));
    NoBound(info, text);
    CollectionLiteralRoundTrip(prefix, items);
  }

  /** An array initialized with `new T[d1,...,dn]` starts as an empty ES
      array and records the sizes `d1..dn`. */
  lemma ArrayInitializer(info: TypeInfo, elem: string, dims: seq<nat>, first: string)
    requires info.isArray && GeneralType(info)
    requires |dims| >= 1 && forall k :: 0 <= k < |dims| ==> dims[k] <= Int32Max
    requires '[' !in elem && ']' !in elem && '{' !in elem
    ensures InitialValue(info, Expr(OtherExpression, "new " + elem + "[" + Join(",", DimensionTexts(dims)) + "]", first))
            == ("[]", dims)
  {
    var text := "new " + elem + "[" + Join(",", DimensionTexts(dims)) + "]";
    NoBound(info, text);
    ArrayDimensionsRoundTrip(elem, dims);
    NoBraceInSizes(elem, dims);
  }

  /** `new T[d1,...,dn]` holds no `{`, so its ES literal is empty. */
  lemma NoBraceInSizes(elem: string, dims: seq<nat>)
    requires '{' !in elem
    ensures CollectionLiteral("new " + elem + "[" + Join(",", DimensionTexts(dims)) + "]") == "[]"
  {
    var body := Join(",", DimensionTexts(dims));
    var text := "new " + elem + "[" + body + "]";
    assert '{' !in body by {
      forall k | 0 <= k < |dims| ensures '{' !in DimensionTexts(dims)[k] {
        DecimalTextChars(dims[k]);
      }
      JoinAvoids(DimensionTexts(dims), ",", '{');
    }
    NewPrefix(elem);
    BraceFree("new " + elem, body, "");
    assert text == "new " + elem + "[" + body + "]" + "";
  }

  /** A date initialized with `new DateTime(args)` starts as
      `new Date(args)`. */
  lemma DateInitializer(info: TypeInfo, args: string, first: string)
    requires IsDateTimeName(info.typeName)
    requires |args| > 0 && '(' !in args && ')' !in args
    ensures InitialValue(info, Expr(OtherExpression, "new DateTime(" + args + ")", first)).0
            == "new Date(" + args + ")"
  {
    var text := "new DateTime(" + args + ")";
    assert BoundValue(info, text) == None by {
      NoBound(info, text);
    }
    assert DateLiteral(text) == Some("new Date(" + args + ")") by {
      DateConstructorRoundTrip(args);
    }
    assert LiteralValue(info, text) == DateLiteral(text) by {
      assert info.typeName != "bool" && info.typeName != "string";
    }
  }

  /** A string literal initializes a `string` property (one with no bound
      texts, as the type table classifies `string`) with its value in single
      quotes. */
  lemma StringInitializer(info: TypeInfo, text: string, value: string)
    requires info.typeName == "string" && info.typeMin == None && info.typeMax == None
    ensures InitialValue(info, Expr(StringLiteral, text, value)) == ("'" + value + "'", [])
  {
    assert BoundValue(info, value) == None;
  }

  /** `T.MinValue` and `T.MaxValue` initialize a property whose type has
      bound texts with those texts. */

  lemma BoundValues(info: TypeInfo, e: Expr)
    requires info.typeMin.Some? && info.typeMax.Some?
    ensures EndsWith(ValueText(e), ".MinValue") ==> InitialValue(info, e).0 == info.typeMin.value
    ensures EndsWith(ValueText(e), ".MaxValue") ==> InitialValue(info, e).0 == info.typeMax.value
  {
    var s := ValueText(e);
    if EndsWith(s, ".MaxValue") {
      assert !EndsWith(s, ".MinValue") by {
        assert s[|s| - 8] == ".MaxValue"[1];
      }
    }
  }
  /** A `bool` (which has no bound texts) keeps its initializer's text. */
  lemma BoolInitializer(info: TypeInfo, e: Expr)
    requires info.typeName == "bool" && info.typeMin == None && info.typeMax == None
    ensures InitialValue(info, e) == (ValueText(e), [])
  {
  }

  /** A date initialized with anything ending in `Now` starts as the
      current date. */
  lemma NowInitializer(info: TypeInfo, e: Expr)
    requires IsDateTimeName(info.typeName) && EndsWith(ValueText(e), "Now")
    ensures InitialValue(info, e) == ("new Date()", [])
  {
    var s := ValueText(e);
    assert s[|s| - 1] == "Now"[2];
    NoBound(info, s);
  }

  /** A date initialized with a `Parse(args)` call (`DateTime.Parse("..")`)
      starts as `new Date(args)`. */
  lemma ParseInitializer(info: TypeInfo, prefix: string, args: string, first: string)
    requires IsDateTimeName(info.typeName)
    requires '(' !in prefix && ')' !in prefix
    requires |args| > 0 && '(' !in args && ')' !in args
    ensures InitialValue(info, Expr(OtherExpression, prefix + "Parse(" + args + ")", first))
            == ("new Date(" + args + ")", [])
  {
    var s := prefix + "Parse(" + args + ")";
    assert BoundValue(info, s) == None by {
      assert s[|s| - 1] == ')';
      NoBound(info, s);
    }
    assert DateLiteral(s) == Some("new Date(" + args + ")") by {
      ParseCallOf(s, prefix, args);
    }
    assert LiteralValue(info, s) == DateLiteral(s) by {
      assert info.typeName != "bool" && info.typeName != "string";
    }
  }

  lemma ParseCallOf(s: string, prefix: string, args: string)
    requires '(' !in prefix && ')' !in prefix
    requires |args| > 0 && '(' !in args && ')' !in args
    requires s == prefix + "Parse(" + args + ")"
    ensures DateLiteral(s) == Some("new Date(" + args + ")")
  {
    ParseCallParens(prefix, args);
    ParseArgumentsAt(s, |prefix|, |prefix| + 5, |s| - 1);
    DateLiteralOfArguments(s, args);
  }

  /** In `p + "Parse(" + a + ")"`, the call's parentheses are the last ones
      and `Parse` stands at the end of `p`. */
  lemma ParseCallParens(prefix: string, args: string)
    requires '(' !in prefix && ')' !in prefix
    requires |args| > 0 && '(' !in args && ')' !in args
    ensures var s := prefix + "Parse(" + args + ")";
      LastIndexOf(s, '(') == |prefix| + 5 && LastIndexOf(s, ')') == |s| - 1
      && s[|prefix| + 6..|s| - 1] == args && OccursAt(s, "Parse", |prefix|)
  {
    var s := prefix + "Parse(" + args + ")";
    var asi, aei := |prefix| + 5, |s| - 1;
    assert s[asi] == '(' && s[asi + 1..] == args + ")";
    LastIndexOfAt(s, '(', asi);
    LastIndexOfAt(s, ')', aei);
    assert s[asi + 1..aei] == args;
    assert s[|prefix|..|prefix| + 5] == "Parse";
  }

  /** With `Parse` before the last `(`, the arguments are what stands
      between the last parentheses. */
  lemma ParseArgumentsAt(s: string, pos: nat, asi: nat, aei: nat)
    requires OccursAt(s, "Parse", pos) && pos < asi && asi + 1 < aei
    requires LastIndexOf(s, '(') == asi && LastIndexOf(s, ')') == aei
    ensures DateArguments(s) == Some(s[asi + 1..aei])
  {
    FirstOccurrence(s, "Parse", pos);
    DateArgumentsBetween(s, asi, aei);
  }

  /** A call found before the last `(` has the arguments between the last
      parentheses. */
  lemma DateArgumentsBetween(s: string, asi: nat, aei: nat)
    requires 0 <= IndexOfText(s, "Parse") < asi && asi + 1 < aei
    requires LastIndexOf(s, '(') == asi && LastIndexOf(s, ')') == aei
    ensures DateArguments(s) == Some(s[asi + 1..aei])
  {
    assert CallArguments(s, asi, aei);
    DateArgumentsOf(s, asi, aei);
  }

  /** Text occurring at `pos` is first found at or before `pos`. */
  lemma FirstOccurrence(s: string, p: string, pos: nat)
    requires |p| > 0 && OccursAt(s, p, pos)
    ensures 0 <= IndexOfText(s, p) <= pos
  {
  }

  /** A text not ending in `Now` whose call has arguments is that call in ES. */
  lemma DateLiteralOfArguments(s: string, args: string)
    requires |s| > 0 && s[|s| - 1] == ')'
    requires DateArguments(s) == Some(args)
    ensures DateLiteral(s) == Some("new Date(" + args + ")")
  {
    assert !EndsWith(s, "Now");
  }

  /** A jagged array initialized with `new T[d1,...,dn]` followed by at least
      n more `[` (`new int[3][]`) records the sizes and a trailing 0. */
  lemma JaggedInitializer(info: TypeInfo, elem: string, dims: seq<nat>, tail: string, first: string)
    requires info.isArray && GeneralType(info)
    requires |dims| >= 1 && forall k :: 0 <= k < |dims| ==> dims[k] <= Int32Max
    requires '[' !in elem && ']' !in elem && '{' !in elem && '{' !in tail
    requires |tail| > 0 && tail[|tail| - 1] == ']' && CountChar(tail, '[') >= |dims|
    ensures InitialValue(info, Expr(OtherExpression, "new " + elem + "[" + Join(",", DimensionTexts(dims)) + "]" + tail, first))
            == ("[]", dims + [0])
  {
    var prefix := "new " + elem;
    var body := Join(",", DimensionTexts(dims));
    NewPrefix(elem);
    DimensionBody(dims);
    JaggedValue(info, prefix, body, tail, dims, first, "new " + elem + "[" + body + "]" + tail);
  }

  /** The initial value of `p[b]t`, where `b` parses to the sizes and `t`
      holds at least as many `[` as there are sizes. */
  lemma JaggedValue(info: TypeInfo, prefix: string, body: string, tail: string, dims: seq<int>, first: string, s: string)
    requires info.isArray && GeneralType(info)
    requires '[' !in prefix && ']' !in prefix && '{' !in prefix && '{' !in tail
    requires '[' !in body && ']' !in body && '{' !in body
    requires |body| >= 1 && |dims| >= 1 && ParseAll(Split(body, {','})) == Some(dims)
    requires |tail| > 0 && tail[|tail| - 1] == ']' && CountChar(tail, '[') >= |dims|
    requires s == prefix + "[" + body + "]" + tail
    ensures InitialValue(info, Expr(OtherExpression, s, first)) == ("[]", dims + [0])
  {
    JaggedDimensions(prefix, body, tail, dims);
    BraceFree(prefix, body, tail);
    LastOfConcat(prefix + "[" + body + "]", tail);
    ArrayValueOf(info, s, dims + [0], first);
  }

  /** A concatenation ends as its back part does. */
  lemma LastOfConcat<T>(a: seq<T>, b: seq<T>)
    requires |b| > 0
    ensures (a + b)[|a + b| - 1] == b[|b| - 1]
  {
  }

  /** An array initializer without braces starts as an empty ES array with
      the sizes it states. */
  lemma ArrayValueOf(info: TypeInfo, s: string, dims: seq<int>, first: string)
    requires info.isArray && GeneralType(info)
    requires ArrayDimensions(s) == Some(dims) && '{' !in s
    requires |s| > 0 && s[|s| - 1] != 'e'
    ensures InitialValue(info, Expr(OtherExpression, s, first)) == ("[]", dims)
  {
    NoBound(info, s);
    assert CollectionLiteral(s) == "[]";
  }

  /** `p[b]t` with at least as many `[` in `t` as sizes in `b` states those
      sizes and a 0. */
  lemma JaggedDimensions(prefix: string, body: string, tail: string, dims: seq<int>)
    requires '[' !in prefix && ']' !in prefix && '[' !in body && ']' !in body
    requires |body| >= 1 && |dims| >= 1 && ParseAll(Split(body, {','})) == Some(dims)
    requires CountChar(tail, '[') >= |dims|
    ensures ArrayDimensions(prefix + "[" + body + "]" + tail) == Some(dims + [0])
  {
    var head := prefix + "[" + body + "]";
    BracketedAt(prefix, body);
    CountChar1(prefix, body);
    DimensionsWithTail(head, tail, |prefix|, |prefix| + |body| + 1, dims);
  }

  /** Sizes located in a front part with a single `[` are found in the whole;
      the back part's `[` make the array jagged. */
  lemma DimensionsWithTail(head: string, tail: string, si: int, se: int, dims: seq<int>)
    requires 0 <= si && si + 1 < se <= |head|
    requires IndexOf(head, '[') == si && IndexOf(head, ']') == se
    requires ParseAll(Split(head[si + 1..se], {','})) == Some(dims)
    requires CountChar(head, '[') == 1 && |dims| >= 1 && CountChar(tail, '[') >= |dims|
    ensures ArrayDimensions(head + tail) == Some(dims + [0])
  {
    IndexOfFront(head, tail, '[');
    IndexOfFront(head, tail, ']');
    SliceOfFront(head, tail, si + 1, se);
    CountCharConcat(head, tail, '[');
    ArrayDimensionsBetween(head + tail, si, se, dims);
  }

  /** `new T` holds a bracket or brace only where `T` does. */
  lemma NewPrefix(elem: string)
    ensures '[' in "new " + elem <==> '[' in elem
    ensures ']' in "new " + elem <==> ']' in elem
    ensures '{' in "new " + elem <==> '{' in elem
  {
    var n := "new ";
    assert '[' !in n && ']' !in n && '{' !in n;
    assert forall x :: x in n + elem <==> x in n || x in elem;
  }

  /** A slice of the front part is the same slice of the whole. */
  lemma SliceOfFront(front: string, back: string, i: int, j: int)
    requires 0 <= i <= j <= |front|
    ensures (front + back)[i..j] == front[i..j]
  {
  }

  /** `p[b]t` holds no `{` when its parts hold none. */
  lemma BraceFree(prefix: string, body: string, tail: string)
    requires '{' !in prefix && '{' !in body && '{' !in tail
    ensures '{' !in prefix + "[" + body + "]" + tail
  {
    var s := prefix + "[" + body + "]" + tail;
    assert forall x :: x in s ==> x in prefix || x == '[' || x in body || x == ']' || x in tail;
  }

  /** A character found in the front part is found there in the whole. */
  lemma IndexOfFront(front: string, back: string, c: char)
    requires c in front
    ensures IndexOf(front + back, c) == IndexOf(front, c)
  {
    var i := IndexOf(front, c);
    assert (front + back)[..i] == front[..i];
    IndexOfAt(front + back, c, i);
  }

  /** An array whose size is written as a name (`new int[Size]`) throws in
      `int.Parse`, and the initial value is then empty. */
  lemma NamedSizeInitializer(info: TypeInfo, elem: string, size: string, first: string)
    requires info.isArray && GeneralType(info)
    requires '[' !in elem && ']' !in elem
    requires |size| > 0 && '[' !in size && ']' !in size && ',' !in size
    requires forall k :: 0 <= k < |size| ==> !IsDigit(size[k])
    ensures InitialValue(info, Expr(OtherExpression, "new " + elem + "[" + size + "]", first)) == ("", [])
  {
    NewPrefix(elem);
    UnparsedSize("new " + elem, size);
    var s := "new " + elem + "[" + size + "]";
    assert s[|s| - 1] == ']';
    UnparsedValue(info, s, first);
  }

  /** `p[n]` with a size `n` that holds no digit states no sizes. */
  lemma UnparsedSize(prefix: string, size: string)
    requires '[' !in prefix && ']' !in prefix
    requires |size| > 0 && '[' !in size && ']' !in size && ',' !in size
    requires forall k :: 0 <= k < |size| ==> !IsDigit(size[k])
    ensures ArrayDimensions(prefix + "[" + size + "]") == None
  {
    var s := prefix + "[" + size + "]";
    BracketedAt(prefix, size);
    assert Split(size, {','}) == [size];
    assert ParseInt32(size) == None;
    assert ParseAll([size]) == None;
    assert BracketSizes(s) == None;
  }

  /** An array initializer whose sizes do not parse gives an empty value. */
  lemma UnparsedValue(info: TypeInfo, s: string, first: string)
    requires info.isArray && GeneralType(info)
    requires ArrayDimensions(s) == None
    requires |s| > 0 && s[|s| - 1] != 'e'
    ensures InitialValue(info, Expr(OtherExpression, s, first)) == ("", [])
  {
    NoBound(info, s);
  }
}

=== FILE: linker.dfy ===
/** The cross-file pass of `StructureFilesParser.Parse`: every non-native
    property is linked to the first class and the first enum of its
    referenced name, every base-list entry to the class of that name in the
    last file declaring one, and each file collects the imports these links
    need, one import per file name and each element once. Lookups run over
    the parsed program, which linking does not reorder or rename. */
module Linker {
  import opened Text
  import opened PropertyTypes
  import opened Models
  import opened Extract

  // ---------------------------------------------------------------------
  // Lookups in discovery order

  predicate DeclaresClass(file: FileModel, name: string) {
    exists i :: 0 <= i < |file.classes| && file.classes[i].name == name
  }

  predicate DeclaresEnum(file: FileModel, name: string) {
    exists i :: 0 <= i < |file.enums| && file.enums[i].name == name
  }

  /** The position of the first enum named `name`, or -1. */
  function FirstEnumNamed(enums: seq<EnumModel>, name: string): (r: int)
    ensures -1 <= r < |enums|
    ensures r >= 0 ==> enums[r].name == name
    ensures forall k :: 0 <= k < |enums| && (r < 0 || k < r) ==> enums[k].name != name
  {
    if |enums| == 0 then -1
    else if enums[0].name == name then 0
    else
      var r := FirstEnumNamed(enums[1..], name);
      if r < 0 then -1 else r + 1
  }

  /** The first class named `name` among all classes of the program, files
      in order and each file's classes in order. */
  function FindClass(files: seq<FileModel>, name: string): (r: Option<Loc>)
    ensures r.Some? ==> ClassAt(files, r.value).Some? && ClassAt(files, r.value).value.name == name
    ensures r.Some? ==> forall f :: 0 <= f < r.value.file ==> !DeclaresClass(files[f], name)
    ensures r.Some? ==> forall i :: 0 <= i < r.value.index ==> files[r.value.file].classes[i].name != name
    ensures r.None? ==> forall f :: 0 <= f < |files| ==> !DeclaresClass(files[f], name)
  {
    FindClassFrom(files, name, 0)
  }

  function FindClassFrom(files: seq<FileModel>, name: string, from: nat): (r: Option<Loc>)
    requires from <= |files|
    ensures r.Some? ==> from <= r.value.file && ClassAt(files, r.value).Some?
    ensures r.Some? ==> ClassAt(files, r.value).value.name == name
    ensures r.Some? ==> forall f :: from <= f < r.value.file ==> !DeclaresClass(files[f], name)
    ensures r.Some? ==> forall i :: 0 <= i < r.value.index ==> files[r.value.file].classes[i].name != name
    ensures r.None? ==> forall f :: from <= f < |files| ==> !DeclaresClass(files[f], name)
    decreases |files| - from
  {
    if from == |files| then None
    else
      var i := FirstClassNamed(files[from].classes, name);
      if i >= 0 then Some(Loc(from, i)) else FindClassFrom(files, name, from + 1)
  }

  /** The first enum named `name` among all enums of the program, files in
      order and each file's enums in order. */
  function FindEnum(files: seq<FileModel>, name: string): (r: Option<Loc>)
    ensures r.Some? ==> EnumAt(files, r.value).Some? && EnumAt(files, r.value).value.name == name
    ensures r.Some? ==> forall f :: 0 <= f < r.value.file ==> !DeclaresEnum(files[f], name)
    ensures r.Some? ==> forall i :: 0 <= i < r.value.index ==> files[r.value.file].enums[i].name != name
    ensures r.None? ==> forall f :: 0 <= f < |files| ==> !DeclaresEnum(files[f], name)
  {
    FindEnumFrom(files, name, 0)
  }

  function FindEnumFrom(files: seq<FileModel>, name: string, from: nat): (r: Option<Loc>)
    requires from <= |files|
    ensures r.Some? ==> from <= r.value.file && EnumAt(files, r.value).Some?
    ensures r.Some? ==> EnumAt(files, r.value).value.name == name
    ensures r.Some? ==> forall f :: from <= f < r.value.file ==> !DeclaresEnum(files[f], name)
    ensures r.Some? ==> forall i :: 0 <= i < r.value.index ==> files[r.value.file].enums[i].name != name
    ensures r.None? ==> forall f :: from <= f < |files| ==> !DeclaresEnum(files[f], name)
    decreases |files| - from
  {
    if from == |files| then None
    else
      var i := FirstEnumNamed(files[from].enums, name);
      if i >= 0 then Some(Loc(from, i)) else FindEnumFrom(files, name, from + 1)
  }

  /** The first file declaring a class named `name`, if any. */
  function FirstClassFile(files: seq<FileModel>, name: string, from: nat): (r: Option<nat>)
    requires from <= |files|
    ensures r.Some? ==> from <= r.value < |files| && DeclaresClass(files[r.value], name)
    ensures forall f :: from <= f < |files| && (r.None? || f < r.value) ==> !DeclaresClass(files[f], name)
    decreases |files| - from
  {
    if from == |files| then None
    else if DeclaresClass(files[from], name) then Some(from)
    else FirstClassFile(files, name, from + 1)
  }

  /** The first file declaring an enum named `name`, if any. */
  function FirstEnumFile(files: seq<FileModel>, name: string, from: nat): (r: Option<nat>)
    requires from <= |files|
    ensures r.Some? ==> from <= r.value < |files| && DeclaresEnum(files[r.value], name)
    ensures forall f :: from <= f < |files| && (r.None? || f < r.value) ==> !DeclaresEnum(files[f], name)
    decreases |files| - from
  {
    if from == |files| then None
    else if DeclaresEnum(files[from], name) then Some(from)
    else FirstEnumFile(files, name, from + 1)
  }

  /** The file an element named `name` is imported from: the first file
      declaring a class of that name, failing that the first declaring an
      enum of that name. */
  function ImportSource(files: seq<FileModel>, name: string): Option<nat> {
    match FirstClassFile(files, name, 0)
    case Some(f) => Some(f)
    case None => FirstEnumFile(files, name, 0)
  }

  /** The import source is the file of the linked class, or of the linked
      enum when there is no class of that name. */
  lemma ImportSourceIsLinkedFile(files: seq<FileModel>, name: string)
    ensures ImportSource(files, name) ==
      match FindClass(files, name)
      case Some(l) => Some(l.file)
      case None => (match FindEnum(files, name) case Some(l) => Some(l.file) case None => None)
  {
    var c, fc := FindClass(files, name), FirstClassFile(files, name, 0);
    if c.Some? {
      assert DeclaresClass(files[c.value.file], name) by {
        assert files[c.value.file].classes[c.value.index].name == name;
      }
    }
    var e, fe := FindEnum(files, name), FirstEnumFile(files, name, 0);
    if e.Some? {
      assert DeclaresEnum(files[e.value.file], name) by {
        assert files[e.value.file].enums[e.value.index].name == name;
      }
    }
    if fc.Some? {
      var i :| 0 <= i < |files[fc.value].classes| && files[fc.value].classes[i].name == name;
      assert ClassAt(files, Loc(fc.value, i)).Some?;
    }
    if fe.Some? {
      var i :| 0 <= i < |files[fe.value].enums| && files[fe.value].enums[i].name == name;
      assert EnumAt(files, Loc(fe.value, i)).Some?;
    }
  }

  // ---------------------------------------------------------------------
  // Imports

  /** The position of the first import from `fileName`, or -1. */
  function FirstImportFor(imports: seq<Import>, fileName: string): (r: int)
    ensures -1 <= r < |imports|
    ensures r >= 0 ==> imports[r].fileName == fileName
    ensures forall k :: 0 <= k < |imports| && (r < 0 || k < r) ==> imports[k].fileName != fileName
  {
    if |imports| == 0 then -1
    else if imports[0].fileName == fileName then 0
    else
      var r := FirstImportFor(imports[1..], fileName);
      if r < 0 then -1 else r + 1
  }

  /** An import of `element` from `fileName`: added to the first import
      from that file unless it is already there, or appended as a new
      import of its own. */
  function AddImport(imports: seq<Import>, fileName: string, element: string): (r: seq<Import>)
    ensures |imports| <= |r| <= |imports| + 1
    ensures forall k :: 0 <= k < |imports| ==>
      r[k].fileName == imports[k].fileName && imports[k].elements <= r[k].elements
    ensures |r| > |imports| ==> r[|imports|] == Import(fileName, [element])
  {
    var i := FirstImportFor(imports, fileName);
    if i < 0 then imports + [Import(fileName, [element])]
    else if element in imports[i].elements then imports
    else imports[i := imports[i].(elements := imports[i].elements + [element])]
  }

  /** Some import from `fileName` names `element`. */
  predicate Imported(imports: seq<Import>, fileName: string, element: string) {
    exists k :: 0 <= k < |imports| && imports[k].fileName == fileName && element in imports[k].elements
  }

  predicate Distinct(xs: seq<string>) {
    forall i, j :: 0 <= i < j < |xs| ==> xs[i] != xs[j]
  }

  /** At most one import per file name, and no element twice in one
      import. */
  predicate WellFormed(imports: seq<Import>) {
    && (forall j, k :: 0 <= j < k < |imports| ==> imports[j].fileName != imports[k].fileName)
    && (forall k :: 0 <= k < |imports| ==> Distinct(imports[k].elements))
  }

  /** After an import is added, exactly the earlier imports and the new one
      are present. */
  lemma AddImportMembership(imports: seq<Import>, fileName: string, element: string, f: string, e: string)
    ensures Imported(AddImport(imports, fileName, element), f, e) <==>
      Imported(imports, f, e) || (f == fileName && e == element)
  {
    var r := AddImport(imports, fileName, element);
    var i := FirstImportFor(imports, fileName);
    if Imported(imports, f, e) {
      var k :| 0 <= k < |imports| && imports[k].fileName == f && e in imports[k].elements;
      assert e in r[k].elements;
    }
    if f == fileName && e == element {
      if i < 0 {
        assert r[|imports|] == Import(fileName, [element]);
      } else {
        assert e in r[i].elements;
      }
    }
    if Imported(r, f, e) {
      var k :| 0 <= k < |r| && r[k].fileName == f && e in r[k].elements;
      if k < |imports| && !(k == i && e !in imports[k].elements) {
        assert e in imports[k].elements;
      }
    }
  }

  /** Adding an import keeps one import per file name and every element
      once. */
  lemma AddImportWellFormed(imports: seq<Import>, fileName: string, element: string)
    requires WellFormed(imports)
    ensures WellFormed(AddImport(imports, fileName, element))
  {
    var r := AddImport(imports, fileName, element);
    var i := FirstImportFor(imports, fileName);
    if i >= 0 && element !in imports[i].elements {
      var es := imports[i].elements + [element];
      assert Distinct(es) by {
        forall a, b | 0 <= a < b < |es| ensures es[a] != es[b] {
          if b == |es| - 1 {
            assert es[a] in imports[i].elements;
          }
        }
      }
    }
  }

  /** Adding an element already imported from that file changes nothing. */
  lemma AddImportPresent(imports: seq<Import>, fileName: string, element: string)
    requires WellFormed(imports) && Imported(imports, fileName, element)
    ensures AddImport(imports, fileName, element) == imports
  {
    var k :| 0 <= k < |imports| && imports[k].fileName == fileName && element in imports[k].elements;
    var i := FirstImportFor(imports, fileName);
    assert i == k;
  }

  /** Adding the same import twice is adding it once. */
  lemma AddImportIdempotent(imports: seq<Import>, fileName: string, element: string)
    ensures var once := AddImport(imports, fileName, element);
      AddImport(once, fileName, element) == once
  {
    var once := AddImport(imports, fileName, element);
    var i := FirstImportFor(imports, fileName);
    var j := FirstImportFor(once, fileName);
    if i < 0 {
      assert once[|imports|].fileName == fileName;
      assert j == |imports|;
    } else {
      assert j == i;
      assert element in once[i].elements;
    }
  }

  // ---------------------------------------------------------------------
  // Properties

  /** The name a property's type refers to: a list's element type, else an
      array's element type, else a dictionary's value type, else the type
      itself. */
  function ResolvedName(info: TypeInfo): string {
    if info.isList && info.listType.Some? then info.listType.value.typeName
    else if info.isArray && info.arrayType.Some? then info.arrayType.value.typeName
    else if info.isDictionary && info.dictionaryValueType.Some? then info.dictionaryValueType.value.typeName
    else info.typeName
  }

  /** The array branch never applies: the classifier leaves the array
      element type unset, so an array refers to its own type text. */
  lemma ArrayRefersToItself(t: string)
    requires Classify(t).Some?
    ensures var info := Classify(t).value;
      ResolvedName(info) ==
        if info.isList && info.listType.Some? then info.listType.value.typeName
        else if info.isDictionary && info.dictionaryValueType.Some? then info.dictionaryValueType.value.typeName
        else t
  {
  }

  /** A non-native property linked to the first class and the first enum of
      its referenced name; both may be found. A native one is left alone. */
  function LinkProperty(files: seq<FileModel>, p: Property): (r: Property)
    ensures r.name == p.name && r.info == p.info && r.trivia == p.trivia
    ensures r.initialValue == p.initialValue && r.isNullable == p.isNullable
    ensures r.hasRange == p.hasRange && r.rangeMin == p.rangeMin && r.rangeMax == p.rangeMax
    ensures r.arrayDimensions == p.arrayDimensions
    ensures p.info.isNative ==> r == p
    ensures !p.info.isNative ==> r.classRef == FindClass(files, ResolvedName(p.info))
    ensures !p.info.isNative ==> r.enumRef == FindEnum(files, ResolvedName(p.info))
  {
    if p.info.isNative then p
    else
      var name := ResolvedName(p.info);
      p.(classRef := FindClass(files, name), enumRef := FindEnum(files, name))
  }

  /** The import a property of file `fi` needs: its referenced class or enum
      from the file declaring it, unless that is `fi` itself. */
  function PropertyImport(files: seq<FileModel>, fi: nat, p: Property, imports: seq<Import>): (r: seq<Import>)
    ensures r == imports || (exists s :: 0 <= s < |files| && s != fi
                                         && r == AddImport(imports, files[s].relativeDestinationFile, ResolvedName(p.info)))
  {
    if p.info.isNative then imports
    else
      var name := ResolvedName(p.info);
      if FindClass(files, name).None? && FindEnum(files, name).None? then imports
      else
        match ImportSource(files, name)
        case Some(s) =>
          if s < |files| && s != fi then AddImport(imports, files[s].relativeDestinationFile, name)
          else imports
        case None => imports
  }

  /** A property whose referenced class or enum is declared in another file
      imports it from that file. */
  lemma PropertyImportFrom(files: seq<FileModel>, fi: nat, p: Property, imports: seq<Import>, s: nat)
    requires !p.info.isNative && ImportSource(files, ResolvedName(p.info)) == Some(s) && s != fi
    ensures Imported(PropertyImport(files, fi, p, imports), files[s].relativeDestinationFile, ResolvedName(p.info))
  {
    var name := ResolvedName(p.info);
    ImportSourceIsLinkedFile(files, name);
    AddImportMembership(imports, files[s].relativeDestinationFile, name,
                        files[s].relativeDestinationFile, name);
  }

  /** The properties of a class of file `fi` in order, each linked and
      adding its import. */
  function LinkProperties(files: seq<FileModel>, fi: nat, ps: seq<Property>, imports: seq<Import>): (r: (seq<Property>, seq<Import>))
    ensures |r.0| == |ps|
    ensures forall k :: 0 <= k < |ps| ==> r.0[k] == LinkProperty(files, ps[k])
    decreases |ps|
  {
    if |ps| == 0 then ([], imports)
    else
      var rest := LinkProperties(files, fi, ps[1..], PropertyImport(files, fi, ps[0], imports));
      ([LinkProperty(files, ps[0])] + rest.0, rest.1)
  }

  // ---------------------------------------------------------------------
  // Parents

  /** One base-list entry checked against every file from `from` on,
      including the file of the class itself: each file declaring a class of
      that name adds an import, and the last one is where the parent ends
      up. */
  function LinkParent(files: seq<FileModel>, from: nat, parent: Parent, imports: seq<Import>): (r: (Parent, seq<Import>))
    requires from <= |files|
    ensures r.0.name == parent.name
    decreases |files| - from
  {
    if from == |files| then (parent, imports)
    else
      var i := FirstClassNamed(files[from].classes, parent.name);
      if i >= 0 then
        var file := files[from].relativeDestinationFile;
        LinkParent(files, from + 1, Parent(parent.name, file, Some(Loc(from, i))),
                   AddImport(imports, file, parent.name))
      else LinkParent(files, from + 1, parent, imports)
  }

  /** The parent as linking leaves it: bound to the first class of its name
      in the last file declaring one, or as it was when no file does. */
  lemma {:induction false} LinkParentIsLast(files: seq<FileModel>, from: nat, parent: Parent, imports: seq<Import>)
    requires from <= |files|
    ensures var last := LastFrom(files, parent.name, from);
      LinkParent(files, from, parent, imports).0 ==
        match last
        case None => parent
        case Some(f) =>
          Parent(parent.name, files[f].relativeDestinationFile,
                 Some(Loc(f, FirstClassNamed(files[f].classes, parent.name))))
    decreases |files| - from
  {
    if from < |files| {
      var i := FirstClassNamed(files[from].classes, parent.name);
      if i >= 0 {
        var file := files[from].relativeDestinationFile;
        LinkParentIsLast(files, from + 1, Parent(parent.name, file, Some(Loc(from, i))),
                         AddImport(imports, file, parent.name));
      } else {
        LinkParentIsLast(files, from + 1, parent, imports);
      }
    }
  }

  /** The last file from `from` on declaring a class named `name`. */
  function LastFrom(files: seq<FileModel>, name: string, from: nat): (r: Option<nat>)
    requires from <= |files|
    ensures r.Some? ==> from <= r.value < |files| && FirstClassNamed(files[r.value].classes, name) >= 0
    decreases |files| - from
  {
    if from == |files| then None
    else
      match LastFrom(files, name, from + 1)
      case Some(f) => Some(f)
      case None => if FirstClassNamed(files[from].classes, name) >= 0 then Some(from) else None
  }

  /** Scanning from the first file finds the last declaring file. */
  lemma {:induction false} LastFromIsLast(files: seq<FileModel>, name: string, from: nat)
    requires from <= |files|
    ensures var r := LastFrom(files, name, from);
      && (r.Some? ==> DeclaresClass(files[r.value], name))
      && forall f :: from <= f < |files| && (r.None? || r.value < f) ==> !DeclaresClass(files[f], name)
    decreases |files| - from
  {
    if from < |files| {
      LastFromIsLast(files, name, from + 1);
      var i := FirstClassNamed(files[from].classes, name);
      if i >= 0 {
        assert files[from].classes[i].name == name;
      }
    }
  }

  /** Every file declaring the parent's class, the class's own file
      included, is imported from. */
  lemma {:induction false} LinkParentImports(files: seq<FileModel>, from: nat, parent: Parent, imports: seq<Import>, f: nat)
    requires from <= f < |files| && DeclaresClass(files[f], parent.name)
    ensures Imported(LinkParent(files, from, parent, imports).1, files[f].relativeDestinationFile, parent.name)
    decreases |files| - from
  {
    var i := FirstClassNamed(files[from].classes, parent.name);
    var file := files[from].relativeDestinationFile;
    var next := if i >= 0 then Parent(parent.name, file, Some(Loc(from, i))) else parent;
    var imps := if i >= 0 then AddImport(imports, file, parent.name) else imports;
    if f == from {
      var j :| 0 <= j < |files[f].classes| && files[f].classes[j].name == parent.name;
      AddImportMembership(imports, file, parent.name, file, parent.name);
      LinkParentKeeps(files, from + 1, next, imps, file, parent.name);
    } else {
      LinkParentImports(files, from + 1, next, imps, f);
    }
  }

  /** Linking a parent never loses an import. */
  lemma {:induction false} LinkParentKeeps(files: seq<FileModel>, from: nat, parent: Parent, imports: seq<Import>, fileName: string, element: string)
    requires from <= |files| && Imported(imports, fileName, element)
    ensures Imported(LinkParent(files, from, parent, imports).1, fileName, element)
    decreases |files| - from
  {
    if from < |files| {
      var i := FirstClassNamed(files[from].classes, parent.name);
      if i >= 0 {
        var file := files[from].relativeDestinationFile;
        AddImportMembership(imports, file, parent.name, fileName, element);
        LinkParentKeeps(files, from + 1, Parent(parent.name, file, Some(Loc(from, i))),
                        AddImport(imports, file, parent.name), fileName, element);
      } else {
        LinkParentKeeps(files, from + 1, parent, imports, fileName, element);
      }
    }
  }

  /** Every base-list entry of a class, in order. */
  function LinkParents(files: seq<FileModel>, parents: seq<Parent>, imports: seq<Import>): (r: (seq<Parent>, seq<Import>))
    ensures |r.0| == |parents|
    ensures forall k :: 0 <= k < |parents| ==> r.0[k].name == parents[k].name
    decreases |parents|
  {
    if |parents| == 0 then ([], imports)
    else
      var (p, imps) := LinkParent(files, 0, parents[0], imports);
      var rest := LinkParents(files, parents[1..], imps);
      ([p] + rest.0, rest.1)
  }

  // ---------------------------------------------------------------------
  // Files and the program

  /** The classes of file `fi` in order: each class's properties, then its
      base-list entries. */
  function LinkClasses(files: seq<FileModel>, fi: nat, cs: seq<ClassModel>, imports: seq<Import>): (r: (seq<ClassModel>, seq<Import>))
    ensures |r.0| == |cs|
    ensures forall k :: 0 <= k < |cs| ==>
      && r.0[k].name == cs[k].name && r.0[k].namespace == cs[k].namespace && r.0[k].trivia == cs[k].trivia
      && |r.0[k].properties| == |cs[k].properties| && |r.0[k].inheritsFrom| == |cs[k].inheritsFrom|
    decreases |cs|
  {
    if |cs| == 0 then ([], imports)
    else
      var (props, imps1) := LinkProperties(files, fi, cs[0].properties, imports);
      var (parents, imps2) := LinkParents(files, cs[0].inheritsFrom, imps1);
      var rest := LinkClasses(files, fi, cs[1..], imps2);
      ([cs[0].(properties := props, inheritsFrom := parents)] + rest.0, rest.1)
  }

  /** File `fi` of the program with its classes linked and its imports
      grown. */
  function LinkFile(files: seq<FileModel>, fi: nat): (r: FileModel)
    requires fi < |files|
    ensures r.sourceFile == files[fi].sourceFile && r.destinationFile == files[fi].destinationFile
    ensures r.relativeDestinationFile == files[fi].relativeDestinationFile
    ensures r.enums == files[fi].enums
    ensures |r.classes| == |files[fi].classes|
    ensures forall k :: 0 <= k < |r.classes| ==> r.classes[k].name == files[fi].classes[k].name
  {
    var (classes, imports) := LinkClasses(files, fi, files[fi].classes, files[fi].imports);
    files[fi].(classes := classes, imports := imports)
  }

  /** The whole cross-file pass: every file linked against the parsed
      program. */
  function LinkProgram(files: seq<FileModel>): (r: seq<FileModel>)
    ensures |r| == |files|
    ensures forall f :: 0 <= f < |files| ==> r[f] == LinkFile(files, f)
  {
    seq(|files|, f requires 0 <= f < |files| => LinkFile(files, f))
  }

  /** Linking keeps every class and enum where it was, under its name, so a
      location found in the parsed program names the same declaration in
      the linked one. */
  lemma LinkKeepsLocations(files: seq<FileModel>, l: Loc)
    ensures ClassAt(LinkProgram(files), l).Some? <==> ClassAt(files, l).Some?
    ensures ClassAt(files, l).Some? ==> ClassAt(LinkProgram(files), l).value.name == ClassAt(files, l).value.name
    ensures EnumAt(LinkProgram(files), l) == EnumAt(files, l)
  {
  }

  // ---------------------------------------------------------------------
  // Import lists stay well formed

  lemma {:induction false} LinkPropertiesWellFormed(files: seq<FileModel>, fi: nat, ps: seq<Property>, imports: seq<Import>)
    requires WellFormed(imports)
    ensures WellFormed(LinkProperties(files, fi, ps, imports).1)
    decreases |ps|
  {
    if |ps| > 0 {
      var next := PropertyImport(files, fi, ps[0], imports);
      if next != imports {
        var s :| 0 <= s < |files| && s != fi &&
          next == AddImport(imports, files[s].relativeDestinationFile, ResolvedName(ps[0].info));
        AddImportWellFormed(imports, files[s].relativeDestinationFile, ResolvedName(ps[0].info));
      }
      LinkPropertiesWellFormed(files, fi, ps[1..], next);
    }
  }

  lemma {:induction false} LinkParentWellFormed(files: seq<FileModel>, from: nat, parent: Parent, imports: seq<Import>)
    requires from <= |files| && WellFormed(imports)
    ensures WellFormed(LinkParent(files, from, parent, imports).1)
    decreases |files| - from
  {
    if from < |files| {
      var i := FirstClassNamed(files[from].classes, parent.name);
      if i >= 0 {
        var file := files[from].relativeDestinationFile;
        AddImportWellFormed(imports, file, parent.name);
        LinkParentWellFormed(files, from + 1, Parent(parent.name, file, Some(Loc(from, i))),
                             AddImport(imports, file, parent.name));
      } else {
        LinkParentWellFormed(files, from + 1, parent, imports);
      }
    }
  }

  lemma {:induction false} LinkParentsWellFormed(files: seq<FileModel>, parents: seq<Parent>, imports: seq<Import>)
    requires WellFormed(imports)
    ensures WellFormed(LinkParents(files, parents, imports).1)
    decreases |parents|
  {
    if |parents| > 0 {
      LinkParentWellFormed(files, 0, parents[0], imports);
      LinkParentsWellFormed(files, parents[1..], LinkParent(files, 0, parents[0], imports).1);
    }
  }

  lemma {:induction false} LinkClassesWellFormed(files: seq<FileModel>, fi: nat, cs: seq<ClassModel>, imports: seq<Import>)
    requires WellFormed(imports)
    ensures WellFormed(LinkClasses(files, fi, cs, imports).1)
    decreases |cs|
  {
    if |cs| > 0 {
      var imps1 := LinkProperties(files, fi, cs[0].properties, imports).1;
      LinkPropertiesWellFormed(files, fi, cs[0].properties, imports);
      var imps2 := LinkParents(files, cs[0].inheritsFrom, imps1).1;
      LinkParentsWellFormed(files, cs[0].inheritsFrom, imps1);
      LinkClassesWellFormed(files, fi, cs[1..], imps2);
    }
  }

  /** Every linked file has at most one import per file name and no
      element twice in an import, starting from the parser's empty lists. */
  lemma LinkProgramWellFormed(files: seq<FileModel>)
    requires forall f :: 0 <= f < |files| ==> files[f].imports == []
    ensures forall f :: 0 <= f < |files| ==> WellFormed(LinkProgram(files)[f].imports)
  {
    forall f | 0 <= f < |files| ensures WellFormed(LinkProgram(files)[f].imports) {
      LinkClassesWellFormed(files, f, files[f].classes, []);
    }
  }
}

=== FILE: models.dfy ===
/** The in-memory models the extractor fills and the linker and emitters
    read: enums with their members, classes (structures) with their
    properties and parents, and per source file the imports, classes and
    enums it contributes. Links between models are positions in the
    program's file list rather than object references, because class
    graphs may be cyclic. */
module Models {
  import opened Text
  import opened PropertyTypes

  /** A class or enum of the program: the index of its file and its index
      in that file's class or enum list. */
  datatype Loc = Loc(file: nat, index: nat)

  /** A public property or field of a class. */
  datatype Property = Property(
    name: string,
    info: TypeInfo,
    trivia: seq<string>,
    initialValue: Option<string>,
    isNullable: bool,
    hasRange: bool,
    rangeMin: string,
    rangeMax: string,
    arrayDimensions: seq<int>,
    classRef: Option<Loc>,
    enumRef: Option<Loc>)

  /** An entry of a class's base list. */
  datatype Parent = Parent(name: string, fileName: string, model: Option<Loc>)

  datatype EnumMember = EnumMember(name: string, trivia: seq<string>, value: string)

  /** A new `EnumMember`: no name, no trivia, value 0. */
  const FreshEnumMember := EnumMember("", [], "0")

  datatype EnumModel = EnumModel(name: string, trivia: seq<string>, members: seq<EnumMember>, values: seq<string>)

  datatype ClassModel = ClassModel(
    name: string,
    inheritsFrom: seq<Parent>,
    namespace: string,
    trivia: seq<string>,
    properties: seq<Property>)

  datatype Import = Import(fileName: string, elements: seq<string>)

  datatype FileModel = FileModel(
    sourceFile: string,
    destinationFile: string,
    relativeDestinationFile: string,
    imports: seq<Import>,
    classes: seq<ClassModel>,
    enums: seq<EnumModel>)

  /** The class a location names, if the program has one there. */
  function ClassAt(files: seq<FileModel>, l: Loc): Option<ClassModel> {
    if l.file < |files| && l.index < |files[l.file].classes|
    then Some(files[l.file].classes[l.index]) else None
  }

  /** The enum a location names, if the program has one there. */
  function EnumAt(files: seq<FileModel>, l: Loc): Option<EnumModel> {
    if l.file < |files| && l.index < |files[l.file].enums|
    then Some(files[l.file].enums[l.index]) else None
  }
}

=== FILE: pass_facts.dfy ===
/** What the three passes of `ModelsParser.Parse` produce, stated member by
    member: one class per type declaration and one enum per enum that is
    not private, both in declaration order; and the properties captured in
    member order up to the first type that throws, each going to the first
    class named as its owner. */
module PassFacts {
  import opened Text
  import opened Syntax
  import opened Models
  import opened Extract

  /** A sequence is its first `n` elements followed by the rest. */
  lemma Halves<T>(s: seq<T>, n: nat)
    requires n <= |s|
    ensures s[..n] + s[n..] == s
  {
  }

  /** The first `k + 1` elements are the first `k` and element `k`. */
  lemma Grow<T>(s: seq<T>, k: nat)
    requires k < |s|
    ensures s[..k + 1] == s[..k] + [s[k]]
  {
  }

  // ---------------------------------------------------------------------
  // The class pass

  /** The class pass works member by member. */
  lemma {:induction false} ClassPassConcat(a: seq<MemberDecl>, b: seq<MemberDecl>)
    ensures ClassPass(a + b) == ClassPass(a) + ClassPass(b)
    decreases |a|
  {
    if |a| == 0 {
      assert a + b == b;
    } else {
      assert (a + b)[0] == a[0];
      assert (a + b)[1..] == a[1..] + b;
      ClassPassConcat(a[1..], b);
      var here := ClassesOf(a[0]);
      assert ClassPass(a + b) == here + (ClassPass(a[1..]) + ClassPass(b));
    }
  }

  /** Member `k` adds its class after those of the members before it when
      it is a class, struct, record or interface, and nothing otherwise;
      together with `ClassPassPrefix` this places the member's class in the
      whole result. */
  lemma ClassPassAt(ms: seq<MemberDecl>, k: nat)
    requires k < |ms|
    ensures ClassPass(ms[..k + 1]) == ClassPass(ms[..k]) + ClassesOf(ms[k])
  {
    Grow(ms, k);
    ClassPassConcat(ms[..k], [ms[k]]);
    ClassPassOne(ms[k]);
  }

  /** A single member gives its own class, if any. */
  lemma ClassPassOne(m: MemberDecl)
    ensures ClassPass([m]) == ClassesOf(m)
  {
    assert [m][1..] == [];
  }

  /** What the first `n` members give is the start of the whole result. */
  lemma ClassPassPrefix(ms: seq<MemberDecl>, n: nat)
    requires n <= |ms|
    ensures ClassPass(ms[..n]) <= ClassPass(ms)
  {
    Halves(ms, n);
    ClassPassConcat(ms[..n], ms[n..]);
  }

  // ---------------------------------------------------------------------
  // The enum pass

  /** The enum pass works member by member. */
  lemma {:induction false} EnumPassConcat(a: seq<MemberDecl>, b: seq<MemberDecl>)
    ensures EnumPass(a + b) == EnumPass(a) + EnumPass(b)
    decreases |a|
  {
    if |a| == 0 {
      assert a + b == b;
    } else {
      assert (a + b)[0] == a[0];
      assert (a + b)[1..] == a[1..] + b;
      EnumPassConcat(a[1..], b);
      var here := EnumsOf(a[0]);
      assert EnumPass(a + b) == here + (EnumPass(a[1..]) + EnumPass(b));
    }
  }

  /** Member `k` adds its enum after those of the members before it when
      it is an enum whose first line does not mention `private`, and
      nothing otherwise; together with `EnumPassPrefix` this places the
      member's enum in the whole result. */
  lemma EnumPassAt(ms: seq<MemberDecl>, k: nat)
    requires k < |ms|
    ensures EnumPass(ms[..k + 1]) == EnumPass(ms[..k]) + EnumsOf(ms[k])
  {
    Grow(ms, k);
    EnumPassConcat(ms[..k], [ms[k]]);
    EnumPassOne(ms[k]);
  }

  /** A single member gives its own enum, if any. */
  lemma EnumPassOne(m: MemberDecl)
    ensures EnumPass([m]) == EnumsOf(m)
  {
    assert [m][1..] == [];
  }

  /** What the first `n` members give is the start of the whole result. */
  lemma EnumPassPrefix(ms: seq<MemberDecl>, n: nat)
    requires n <= |ms|
    ensures EnumPass(ms[..n]) <= EnumPass(ms)
  {
    Halves(ms, n);
    EnumPassConcat(ms[..n], ms[n..]);
  }

  // ---------------------------------------------------------------------
  // The property pass

  /** The properties the third pass captures, with the names of the types
      they sit in, in member order up to the first member whose type
      throws. */
  function Captures(cs: seq<Capture>): seq<(Property, Option<string>)>
    decreases |cs|
  {
    if |cs| == 0 then []
    else match cs[0]
      case Threw => []
      case Skipped => Captures(cs[1..])
      case Captured(p, owner) => [(p, owner)] + Captures(cs[1..])
  }

  /** The captured properties that go to the class at position `k`: those
      whose owner's first class of that name is at `k`, in capture order. */
  function Owned(classes: seq<ClassModel>, cs: seq<(Property, Option<string>)>, k: nat): seq<Property>
    decreases |cs|
  {
    if |cs| == 0 then []
    else
      (if cs[0].1.Some? && FirstClassNamed(classes, cs[0].1.value) == k then [cs[0].0] else [])
        + Owned(classes, cs[1..], k)
  }

  /** Which class is first with a name depends only on the class names. */
  lemma FirstClassNamedByNames(a: seq<ClassModel>, b: seq<ClassModel>, name: string)
    requires |a| == |b| && forall k :: 0 <= k < |a| ==> a[k].name == b[k].name
    ensures FirstClassNamed(a, name) == FirstClassNamed(b, name)
  {
    var ra, rb := FirstClassNamed(a, name), FirstClassNamed(b, name);
    if ra >= 0 {
      assert b[ra].name == name;
    }
    if rb >= 0 {
      assert a[rb].name == name;
    }
  }

  /** So which properties a class owns depends only on the class names. */
  lemma {:induction false} OwnedByNames(a: seq<ClassModel>, b: seq<ClassModel>,
                                        cs: seq<(Property, Option<string>)>, k: nat)
    requires |a| == |b| && forall j :: 0 <= j < |a| ==> a[j].name == b[j].name
    ensures Owned(a, cs, k) == Owned(b, cs, k)
    decreases |cs|
  {
    if |cs| > 0 {
      if cs[0].1.Some? {
        FirstClassNamedByNames(a, b, cs[0].1.value);
      }
      OwnedByNames(a, b, cs[1..], k);
    }
  }

  /** After the property pass, every class holds its own properties
      followed by the captured properties it owns, in member order. */
  lemma {:induction false} CapturePassProperties(classes: seq<ClassModel>, cs: seq<Capture>, k: nat)
    requires k < |classes|
    ensures |CapturePass(classes, cs)| == |classes|
    ensures CapturePass(classes, cs)[k].properties == classes[k].properties + Owned(classes, Captures(cs), k)
    decreases |cs|
  {
    if |cs| > 0 {
      match cs[0]
      case Threw =>
      case Skipped =>
        CapturePassProperties(classes, cs[1..], k);
      case Captured(p, owner) =>
        var next := Attach(classes, owner, p);
        CapturePassProperties(next, cs[1..], k);
        CapturedStep(classes, cs, k);
    }
  }

  /** One captured property: the class at `k` gains it if it is the owner,
      and the rest of the pass sees the same class names. */
  lemma CapturedStep(classes: seq<ClassModel>, cs: seq<Capture>, k: nat)
    requires k < |classes| && |cs| > 0 && cs[0].Captured?
    ensures var next := Attach(classes, cs[0].owner, cs[0].p);
      classes[k].properties + Owned(classes, Captures(cs), k)
        == next[k].properties + Owned(next, Captures(cs[1..]), k)
  {
    var p, owner := cs[0].p, cs[0].owner;
    var next := Attach(classes, owner, p);
    var mine := if owner.Some? && k == FirstClassNamed(classes, owner.value) then [p] else [];
    var rest := Captures(cs[1..]);
    OwnedByNames(next, classes, rest, k);
    CapturesCons(cs);
    OwnedCons(classes, (p, owner), rest, k);
    assert (classes[k].properties + mine) + Owned(classes, rest, k)
      == classes[k].properties + (mine + Owned(classes, rest, k));
  }

  /** A captured property heads the captures. */
  lemma CapturesCons(cs: seq<Capture>)
    requires |cs| > 0 && cs[0].Captured?
    ensures Captures(cs) == [(cs[0].p, cs[0].owner)] + Captures(cs[1..])
  {
  }

  /** The class at `k` owns the first capture when its owner's first class
      of that name is at `k`. */
  lemma OwnedCons(classes: seq<ClassModel>, c: (Property, Option<string>), rest: seq<(Property, Option<string>)>, k: nat)
    ensures Owned(classes, [c] + rest, k) ==
      (if c.1.Some? && k == FirstClassNamed(classes, c.1.value) then [c.0] else []) + Owned(classes, rest, k)
  {
    assert ([c] + rest)[0] == c;
    assert ([c] + rest)[1..] == rest;
  }

  /** The pass stops at the first member whose type throws: nothing after
      it is looked at. */
  lemma {:induction false} CapturePassStops(classes: seq<ClassModel>, a: seq<Capture>, b: seq<Capture>)
    requires forall j :: 0 <= j < |a| ==> !a[j].Threw?
    ensures CapturePass(classes, a + [Threw] + b) == CapturePass(classes, a)
    ensures Captures(a + [Threw] + b) == Captures(a)
    decreases |a|
  {
    var cs := a + [Threw] + b;
    if |a| == 0 {
      assert cs[0] == Threw;
    } else {
      assert cs[0] == a[0];
      assert cs[1..] == a[1..] + [Threw] + b;
      match a[0]
      case Skipped =>
        CapturePassStops(classes, a[1..], b);
      case Captured(p, owner) =>
        CapturePassStops(Attach(classes, owner, p), a[1..], b);
    }
  }

  /** `ModelsParser.Parse`: its classes are those of the class pass, in
      order, each with exactly the captured properties it owns. */
  lemma ParseMembersClasses(ms: seq<MemberDecl>, k: nat)
    requires k < |ClassPass(ms)|
    ensures |ParseMembers(ms).0| == |ClassPass(ms)|
    ensures ParseMembers(ms).0[k] ==
      ClassPass(ms)[k].(properties := Owned(ClassPass(ms), Captures(CaptureAll(ms)), k))
  {
    var classes := ClassPass(ms);
    var r := CapturePass(classes, CaptureAll(ms));
    assert ParseMembers(ms).0 == r;
    CapturePassProperties(classes, CaptureAll(ms), k);
    ExtendsAt(classes, r, k);
  }

  /** A class that only gained properties is the old one with the new
      properties. */
  lemma ExtendsAt(before: seq<ClassModel>, after: seq<ClassModel>, k: nat)
    requires Extends(before, after) && k < |before|
    ensures after[k] == before[k].(properties := after[k].properties)
  {
  }
}

=== FILE: property_type_facts.dfy ===
/** What the classifier of `StructureProperty` promises: the exact bounds of
    every integral keyword, the rows of the primitive table, the composite
    shapes (list, dictionary, array) and where classification throws. */
module PropertyTypeFacts {
  import opened Text
  import opened PropertyTypes

  function Pow2(n: nat): nat {
    if n == 0 then 1 else 2 * Pow2(n - 1)
  }

  /** The C# integral keywords the table recognises, with signedness and
      width in bits: an independent statement of the CLI integer types. */
  function IntegerWidth(t: string): Option<(bool, nat)> {
    if t == "sbyte" then Some((true, 8))
    else if t == "byte" then Some((false, 8))
    else if t == "short" || t == "int16" then Some((true, 16))
    else if t == "ushort" || t == "uint16" then Some((false, 16))
    else if t == "int" || t == "int32" then Some((true, 32))
    else if t == "uint" || t == "uint32" then Some((false, 32))
    else if t == "long" || t == "int64" then Some((true, 64))
    else if t == "ulong" || t == "uint64" then Some((false, 64))
    else None
  }

  /** The smallest value of a two's-complement or unsigned integer. */
  function IntegerMin(signed: bool, bits: nat): int
    requires bits > 0
  {
    if signed then -(Pow2(bits - 1) as int) else 0
  }

  /** The largest value of a two's-complement or unsigned integer. */
  function IntegerMax(signed: bool, bits: nat): int
    requires bits > 0
  {
    if signed then Pow2(bits - 1) - 1 else Pow2(bits) - 1
  }

  /** A type name the table recognises is none of the composite shapes. */
  lemma TableNamesArePlain(t: string)
    requires Scalar(t).Some?
    ensures !StartsWith(t, "List<") && !StartsWith(t, "Dictionary<") && !EndsWith(t, "]")
  {
    CompositeMarkers(t);
    if IntegralName(t) {
      IntegralNamesArePlain(t);
    } else {
      OtherNamesArePlain(t);
    }
  }

  predicate IntegralName(t: string) {
    t == "sbyte" || t == "byte" || t == "short" || t == "int16" || t == "ushort" || t == "uint16"
    || t == "int" || t == "int32" || t == "uint" || t == "uint32" || t == "long" || t == "int64"
    || t == "ulong" || t == "uint64"
  }

  lemma IntegralNamesArePlain(t: string)
    requires IntegralName(t)
    ensures |t| <= 6 && t[|t| - 1] != ']' && (|t| > 4 ==> t[4] != '<')
  {
    if t == "sbyte" {
    } else if t == "byte" {
    } else if t == "short" {
    } else if t == "int16" {
    } else if t == "ushort" {
    } else if t == "uint16" {
    } else if t == "int" {
    } else if t == "int32" {
    } else if t == "uint" {
    } else if t == "uint32" {
    } else if t == "long" {
    } else if t == "int64" {
    } else if t == "ulong" {
    } else {
      assert t == "uint64";
    }
  }

  lemma OtherNamesArePlain(t: string)
    requires Scalar(t).Some? && !IntegralName(t)
    ensures t[|t| - 1] != ']' && (|t| > 4 ==> t[4] != '<') && (|t| > 10 ==> t[10] != '<')
  {
    if t == "bool" {
    } else if t == "float" {
    } else if t == "Single" {
    } else if t == "double" {
    } else if t == "decimal" {
    } else if t == "string" {
    } else if t == "DateTime" {
    } else {
      assert t == "System.DateTime";
    }
  }

  /** Where the composite shapes put their markers. */
  lemma CompositeMarkers(t: string)
    ensures StartsWith(t, "List<") ==> |t| > 4 && t[4] == '<'
    ensures StartsWith(t, "Dictionary<") ==> |t| > 10 && t[10] == '<'
    ensures EndsWith(t, "]") ==> |t| > 0 && t[|t| - 1] == ']'
  {
    if StartsWith(t, "List<") { assert t[4] == "List<"[4]; }
    if StartsWith(t, "Dictionary<") { assert t[10] == "Dictionary<"[10]; }
    if EndsWith(t, "]") { assert t[|t| - 1] == "]"[0]; }
  }

  /** A name of the table is classified by its row alone. */
  lemma TableRow(t: string)
    requires Scalar(t).Some?
    ensures Classify(t).Some?
    ensures var r, row := Classify(t).value, Scalar(t).value;
      && r.isNative && r.jsType == row.jsType && r.isNumeric == row.isNumeric
      && r.isInteger == row.isInteger && r.isString == row.isString
      && r.isDateTime == row.isDateTime && r.typeMin == row.bounds.MinText()
      && r.typeMax == row.bounds.MaxText() && r.baseTypeDefaultValue == row.defaultValue
      && !r.isList && !r.isDictionary && !r.isArray
  {
    TableNamesArePlain(t);
  }

  /** Every integral keyword is native, numeric and integral, defaults to
      "0", maps to "number", and its bound texts parse to exactly the range
      of its width. */
  lemma IntegerBounds(t: string)
    requires IntegerWidth(t).Some?
    ensures Classify(t).Some?
    ensures var r, w := Classify(t).value, IntegerWidth(t).value;
      && w.1 > 0
      && r.isNative && r.isNumeric && r.isInteger && !r.isString && !r.isDateTime
      && r.baseTypeDefaultValue == "0" && r.jsType == "number"
      && r.typeMin.Some? && r.typeMax.Some?
      && ParseInteger(r.typeMin.value) == Some(IntegerMin(w.0, w.1))
      && ParseInteger(r.typeMax.value) == Some(IntegerMax(w.0, w.1))
  {
    var w := IntegerWidth(t).value;
    IntegerFlags(t);
    IntegerBoundTexts(t);
    DecimalTextRoundTrip(IntegerMin(w.0, w.1));
    DecimalTextRoundTrip(IntegerMax(w.0, w.1));
  }

  /** The flags of an integral keyword's row. */
  lemma IntegerFlags(t: string)
    requires IntegerWidth(t).Some?
    ensures Classify(t).Some?
    ensures var r := Classify(t).value;
      && r.isNative && r.isNumeric && r.isInteger && !r.isString && !r.isDateTime
      && r.baseTypeDefaultValue == "0" && r.jsType == "number"
  {
    IntegerRowOf(t);
    TableRow(t);
  }

  /** The bound texts of an integral keyword's row: the decimal texts of
      its width's range. */
  lemma IntegerBoundTexts(t: string)
    requires IntegerWidth(t).Some?
    ensures IntegerWidth(t).value.1 > 0
    ensures Classify(t).Some?
    ensures var w := IntegerWidth(t).value;
      && Classify(t).value.typeMin == Some(DecimalText(IntegerMin(w.0, w.1)))
      && Classify(t).value.typeMax == Some(DecimalText(IntegerMax(w.0, w.1)))
  {
    IntegerRowOf(t);
    TableRow(t);
  }

  predicate FloatingName(t: string) {
    t == "float" || t == "Single" || t == "double" || t == "decimal"
  }

  /** float, Single, double and decimal are native numbers that are not
      integral, default to "0" and carry both bounds. */
  lemma FloatingTypes(t: string)
    requires FloatingName(t)
    ensures Classify(t).Some?
    ensures var r := Classify(t).value;
      && r.isNative && r.isNumeric && !r.isInteger && !r.isString && !r.isDateTime
      && r.jsType == "number" && r.baseTypeDefaultValue == "0"
      && r.typeMin.Some? && r.typeMax.Some?
  {
    FloatingRowOf(t);
    TableRow(t);
  }

  lemma FloatingRowOf(t: string)
    requires FloatingName(t)
    ensures Scalar(t).Some?
    ensures var row := Scalar(t).value;
      && row.isNumeric && !row.isInteger && !row.isString && !row.isDateTime
      && row.jsType == "number" && row.defaultValue == "0" && !row.bounds.NoBounds?
  {
    if t == "float" || t == "Single" {
      assert Scalar(t) == Some(FloatingRow(Literal("-3.4028235E+38", "3.4028235E+38")));
    } else if t == "double" {
      assert Scalar(t) == Some(FloatingRow(Literal("-1.7976931348623157E+308", "1.7976931348623157E+308")));
    } else {
      assert Scalar(t) == Some(FloatingRow(Integral(-79228162514264337593543950335, 79228162514264337593543950335)));
    }
  }

  /** bool and string are native, not numeric, and have no bounds. */
  lemma UnboundedTypes(t: string)
    requires t == "bool" || t == "string"
    ensures Classify(t).Some?
    ensures var r := Classify(t).value;
      && r.isNative && !r.isNumeric && !r.isInteger && !r.isDateTime
      && r.typeMin == None && r.typeMax == None
      && r.isString == (t == "string")
      && r.jsType == (if t == "bool" then "boolean" else "string")
      && r.baseTypeDefaultValue == (if t == "bool" then "false" else "''")
  {
    UnboundedRowOf(t);
    TableRow(t);
  }

  lemma UnboundedRowOf(t: string)
    requires t == "bool" || t == "string"
    ensures Scalar(t).Some?
    ensures var row := Scalar(t).value;
      && !row.isNumeric && !row.isInteger && !row.isDateTime && row.bounds.NoBounds?
      && row.isString == (t == "string")
      && row.jsType == (if t == "bool" then "boolean" else "string")
      && row.defaultValue == (if t == "bool" then "false" else "''")
  {
  }

  /** DateTime maps to Date, defaults to the current time and is bounded by
      the earliest and latest ES dates. */
  lemma DateTimeBounds(t: string)
    requires t == "DateTime" || t == "System.DateTime"
    ensures Classify(t).Some?
    ensures var r := Classify(t).value;
      && r.isNative && r.isDateTime && !r.isNumeric && !r.isString
      && r.jsType == "Date" && r.baseTypeDefaultValue == "new Date()"
      && r.typeMin == Some("new Date(-8640000000000000)")
      && r.typeMax == Some("new Date(8640000000000000)")
  {
    DateTimeRowOf(t);
    TableRow(t);
  }

  lemma DateTimeRowOf(t: string)
    requires t == "DateTime" || t == "System.DateTime"
    ensures Scalar(t) == Some(ScalarRow("Date", false, false, false, true,
                                        Literal("new Date(-8640000000000000)", "new Date(8640000000000000)"),
                                        "new Date()"))
  {
  }

  lemma Pow2Values()
    ensures Pow2(7) == 128 && Pow2(8) == 256
    ensures Pow2(15) == 32768 && Pow2(16) == 65536
    ensures Pow2(31) == 2147483648 && Pow2(32) == 4294967296
    ensures Pow2(63) == 9223372036854775808 && Pow2(64) == 18446744073709551616
  {
    assert Pow2(8) == 256;
    Pow2Add(8, 8);
    Pow2Add(16, 16);
    Pow2Add(32, 32);
  }

  lemma {:induction false} Pow2Add(a: nat, b: nat)
    ensures Pow2(a + b) == Pow2(a) * Pow2(b)
    decreases a
  {
    if a > 0 {
      Pow2Add(a - 1, b);
    }
  }

  /** The table's integral rows hold exactly the ranges of their widths. */
  lemma IntegerRowOf(t: string)
    requires IntegerWidth(t).Some?
    ensures IntegerWidth(t).value.1 > 0
    ensures Scalar(t) == Some(IntegerRow(IntegerMin(IntegerWidth(t).value.0, IntegerWidth(t).value.1),
                                         IntegerMax(IntegerWidth(t).value.0, IntegerWidth(t).value.1)))
  {
    Pow2Values();
    if t == "sbyte" {
    } else if t == "byte" {
    } else if t == "short" || t == "int16" {
    } else if t == "ushort" || t == "uint16" {
    } else if t == "int" || t == "int32" {
    } else if t == "uint" || t == "uint32" {
    } else if t == "long" || t == "int64" {
    } else {
      assert t == "ulong" || t == "uint64";
    }
  }

  /** The composite shapes are never rows of the table. */
  lemma CompositeNotInTable(t: string)
    requires StartsWith(t, "List<") || StartsWith(t, "Dictionary<") || EndsWith(t, "]")
    ensures Scalar(t) == None
  {
    if Scalar(t).Some? {
      TableNamesArePlain(t);
    }
  }

  /** How `Split` on the angle brackets cuts `List<e>`. */
  lemma ListSplit(e: string)
    requires NoneOf(e, AngleBrackets)
    ensures Split("List<" + e + ">", AngleBrackets) == ["List", e, ""]
  {
    assert "List<" + e + ">" == "List" + (['<'] + (e + (['>'] + "")));
    AngleSplit("List", e, "");
  }

  /** `Split` on the angle brackets cuts `h<e>t` into its three parts when
      none of them holds a bracket. */
  lemma AngleSplit(head: string, e: string, tail: string)
    requires NoneOf(head, AngleBrackets) && NoneOf(e, AngleBrackets) && NoneOf(tail, AngleBrackets)
    ensures Split(head + (['<'] + (e + (['>'] + tail))), AngleBrackets) == [head, e, tail]
  {
    var inner := e + (['>'] + tail);
    SplitFirst(e, '>', tail, AngleBrackets);
    assert Split(inner, AngleBrackets) == [e] + [tail];
    SplitFirst(head, '<', inner, AngleBrackets);
    ThreePieces(head, e, tail);
  }

  /** How `Split` on the angle brackets cuts `Dictionary<a>`. */
  lemma DictionarySplit(a: string)
    requires NoneOf(a, AngleBrackets)
    ensures Split("Dictionary<" + a + ">", AngleBrackets) == ["Dictionary", a, ""]
  {
    assert "Dictionary<" + a + ">" == "Dictionary" + (['<'] + (a + (['>'] + "")));
    AngleSplit("Dictionary", a, "");
  }

  /** How `Split` on the comma cuts `k,v`. */
  lemma CommaSplit(k: string, v: string)
    requires NoneOf(k, {','}) && NoneOf(v, {','})
    ensures Split(k + "," + v, {','}) == [k, v]
  {
    assert k + "," + v == k + ([','] + v);
    SplitFirst(k, ',', v, {','});
  }

  /** A text that does not start with `L` skips the list check. */
  lemma NotAList(t: string)
    requires |t| > 0 && t[0] != 'L'
    ensures ListPart(t) == Some(None)
  {
    assert !StartsWith(t, "List<") by { assert "List<"[0] == 'L'; }
  }

  /** A text that does not start with `D` skips the dictionary check. */
  lemma NotADictionary(t: string)
    requires |t| > 0 && t[0] != 'D'
    ensures DictionaryPart(t) == Some(None)
  {
    assert !StartsWith(t, "Dictionary<") by { assert "Dictionary<"[0] == 'D'; }
  }

  /** A text that does not end with `]` skips the array check. */
  lemma NotAnArray(t: string)
    requires |t| > 0 && t[|t| - 1] != ']'
    ensures ArrayPart(t) == Some(None)
  {
    assert !EndsWith(t, "]") by { assert "]"[0] == ']'; }
  }

  lemma ListPartOf(e: string)
    requires NoneOf(e, AngleBrackets)
    ensures var elem := Classify(Trim(e));
      ListPart("List<" + e + ">") == (if elem.Some? then Some(elem) else None)
  {
    ListSplit(e);
    assert StartsWith("List<" + e + ">", "List<");
  }

  /** A list is neither a dictionary, nor an array, nor a row of the table. */
  lemma ListIsOnlyList(e: string)
    ensures var t := "List<" + e + ">";
      DictionaryPart(t) == Some(None) && ArrayPart(t) == Some(None) && Scalar(t) == None
  {
    var t := "List<" + e + ">";
    NotADictionary(t);
    NotAnArray(t);
    assert StartsWith(t, "List<");
    CompositeNotInTable(t);
  }

  lemma DictionaryPartOf(k: string, v: string)
    requires NoneOf(k, AngleBrackets + {','}) && NoneOf(v, AngleBrackets + {','})
    ensures var key, value := Classify(Trim(k)), Classify(Trim(v));
      DictionaryPart("Dictionary<" + (k + "," + v) + ">") ==
        (if key.Some? && value.Some? then Some(Some((key.value, value.value))) else None)
  {
    var args := k + "," + v;
    assert NoneOf(k, AngleBrackets) && NoneOf(v, AngleBrackets);
    assert NoneOf(k, {','}) && NoneOf(v, {','});
    assert NoneOf(args, AngleBrackets);
    DictionarySplit(args);
    CommaSplit(k, v);
    assert StartsWith("Dictionary<" + args + ">", "Dictionary<");
  }

  lemma DictionaryPartWithoutComma(a: string)
    requires NoneOf(a, AngleBrackets + {','})
    ensures DictionaryPart("Dictionary<" + a + ">") == None
  {
    assert NoneOf(a, AngleBrackets) && NoneOf(a, {','});
    DictionarySplit(a);
    assert StartsWith("Dictionary<" + a + ">", "Dictionary<");
  }

  /** A dictionary is neither a list, nor an array, nor a row of the table. */
  lemma DictionaryIsOnlyDictionary(a: string)
    ensures var t := "Dictionary<" + a + ">";
      ListPart(t) == Some(None) && ArrayPart(t) == Some(None) && Scalar(t) == None
  {
    var t := "Dictionary<" + a + ">";
    NotAList(t);
    NotAnArray(t);
    assert StartsWith(t, "Dictionary<");
    CompositeNotInTable(t);
  }

  /** `List<e>` with a bracket-free element type: a list whose element is
      `e` trimmed, whose ES type is the element's followed by `[]`, and
      which throws exactly when the element does. */
  lemma ListOf(e: string)
    requires NoneOf(e, AngleBrackets)
    ensures var t := "List<" + e + ">";
      && (Classify(t).Some? <==> Classify(Trim(e)).Some?)
      && (Classify(t).Some? ==>
            var r := Classify(t).value;
            && r.isList && r.listType == Classify(Trim(e))
            && r.jsType == Classify(Trim(e)).value.jsType + "[]"
            && !r.isNative && !r.isDictionary && !r.isArray
            && r.typeMin == None && r.typeMax == None)
  {
    ListPartOf(e);
    ListIsOnlyList(e);
  }

  /** `Dictionary<k,v>` with bracket- and comma-free argument types: a
      dictionary of the trimmed key and value types, whose ES type is
      `Map<key,value>`, and which throws exactly when either argument does. */
  lemma DictionaryOf(k: string, v: string)
    requires NoneOf(k, AngleBrackets + {','}) && NoneOf(v, AngleBrackets + {','})
    ensures var t := "Dictionary<" + (k + "," + v) + ">";
      && (Classify(t).Some? <==> Classify(Trim(k)).Some? && Classify(Trim(v)).Some?)
      && (Classify(t).Some? ==>
            var r := Classify(t).value;
            && r.isDictionary && r.dictionaryKeyType == Classify(Trim(k))
            && r.dictionaryValueType == Classify(Trim(v))
            && r.jsType == "Map<" + Classify(Trim(k)).value.jsType + ","
                           + Classify(Trim(v)).value.jsType + ">"
            && !r.isNative && !r.isList && !r.isArray)
  {
    DictionaryPartOf(k, v);
    DictionaryIsOnlyDictionary(k + "," + v);
  }

  /** `Dictionary<a>` whose arguments hold no comma throws: the value type
      is read from a second argument that does not exist. */
  lemma DictionaryWithoutComma(a: string)
    requires NoneOf(a, AngleBrackets + {','})
    ensures Classify("Dictionary<" + a + ">") == None
  {
    DictionaryPartWithoutComma(a);
    DictionaryIsOnlyDictionary(a);
  }

  const ArrayMarkers: set<char> := {'<', '>', '[', ']'}

  /** An array `e[...]`: the element type is `e` trimmed, the array is
      multi-dimensional exactly when the bracket part is longer than `[]`
      (so `e[,]` and the jagged `e[][]` both count), and the ES type is the
      element's followed by `[]` or `[][]`. */
  lemma ArrayOf(e: string, dims: string)
    requires NoneOf(e, ArrayMarkers) && NoneOf(dims, AngleBrackets)
    requires EndsWith(dims, "]")
    ensures var t := e + "[" + dims;
      && (Classify(t).Some? <==> Classify(Trim(e)).Some?)
      && (Classify(t).Some? ==>
            var r := Classify(t).value;
            && r.isArray && !r.isList && !r.isDictionary && !r.isNative
            && (r.isMultiDimensionalArray <==> |dims| > 1)
            && r.jsType == Classify(Trim(e)).value.jsType + (if |dims| > 1 then "[][]" else "[]"))
  {
    ArrayShape(e, dims);
    CompositeNotInTable(e + "[" + dims);
  }

  /** An array of lists `List<e>[]`: both the list and the array checks
      apply, so the property is a list of `e` trimmed and a
      one-dimensional array at once, and the ES type is the list's
      followed by `[]`. */
  lemma ListArrayOf(e: string)
    requires NoneOf(e, ArrayMarkers)
    ensures var t := "List<" + e + ">[]";
      && (Classify(t).Some? <==> Classify(Trim(e)).Some?)
      && (Classify(t).Some? ==>
            var r := Classify(t).value;
            && r.isList && r.isArray && !r.isMultiDimensionalArray
            && !r.isDictionary && !r.isNative
            && r.listType == Classify(Trim(e))
            && r.jsType == Classify(Trim(e)).value.jsType + "[][]")
  {
    var l := "List<" + e + ">";
    var t := "List<" + e + ">[]";
    var elem := Classify(Trim(e));
    assert NoneOf(e, AngleBrackets);
    ListOf(e);
    ListArrayClassify(e);
    if elem.Some? {
      CompositeListArray(t, elem.value, Classify(l).value);
      Suffixes(elem.value.jsType);
    }
  }

  /** The classifier on `List<e>[]`: the list check reads `e`, the array
      check reads `List<e>`, the brackets are a single pair. */
  lemma ListArrayClassify(e: string)
    requires NoneOf(e, ArrayMarkers)
    ensures var t, elem := "List<" + e + ">[]", Classify(Trim(e));
      && EndsWith(t, "]") && !IsMultiDimensional(t)
      && Classify(t) == (if elem.Some? then Some(Composite(t, elem, None, Classify("List<" + e + ">"))) else None)
  {
    var l := "List<" + e + ">";
    var t := "List<" + e + ">[]";
    var elem := Classify(Trim(e));
    assert NoneOf(e, AngleBrackets) && NoneOf(e, {'['});
    ListPartOfArray(e);
    ListShape(e);
    ArrayPartOfElement(l);
    NotADictionary(t);
    assert StartsWith(t, "List<");
    CompositeNotInTable(t);
    if elem.Some? {
      ListOf(e);
      ClassifyOfParts(t, elem, Classify(l));
    }
  }

  /** The record of a one-dimensional array of lists. */
  lemma CompositeListArray(t: string, elem: TypeInfo, list: TypeInfo)
    requires EndsWith(t, "]") && !IsMultiDimensional(t)
    ensures var r := Composite(t, Some(elem), None, Some(list));
      && r.isList && r.isArray && !r.isMultiDimensionalArray && !r.isDictionary && !r.isNative
      && r.listType == Some(elem) && r.jsType == list.jsType + "[]"
  {
  }

  /** A text none of whose checks throws and which is not in the table is
      the record the composite checks leave behind. */
  lemma ClassifyOfParts(t: string, listType: Option<TypeInfo>, arrayElement: Option<TypeInfo>)
    requires ListPart(t) == Some(listType) && DictionaryPart(t) == Some(None)
    requires ArrayPart(t) == Some(arrayElement) && Scalar(t) == None
    ensures Classify(t) == Some(Composite(t, listType, None, arrayElement))
  {
  }

  lemma Suffixes(s: string)
    ensures (s + "[]") + "[]" == s + "[][]"
  {
  }

  /** The list check on `List<e>[]` reads the element `e`. */
  lemma ListPartOfArray(e: string)
    requires NoneOf(e, AngleBrackets)
    ensures var elem := Classify(Trim(e));
      ListPart("List<" + e + ">[]") == (if elem.Some? then Some(elem) else None)
  {
    ListArraySplit(e);
    assert StartsWith("List<" + e + ">[]", "List<");
  }

  /** The array check on `l[]` reads the element `l`, and the brackets
      are a single `[]`. */
  lemma ArrayPartOfElement(l: string)
    requires NoneOf(l, {'['}) && Trim(l) == l
    ensures ArrayPart(l + "[]") == (if Classify(l).Some? then Some(Classify(l)) else None)
    ensures !IsMultiDimensional(l + "[]")
  {
    assert l + "[" + "]" == l + "[]";
    ArraySplit(l, "]");
    ArrayIndices(l, "]");
    assert EndsWith(l + "[]", "]");
  }

  /** `List<e>` has no white space at either end, and no `[` when `e`
      has none. */
  lemma ListShape(e: string)
    requires NoneOf(e, {'['})
    ensures Trim("List<" + e + ">") == "List<" + e + ">"
    ensures NoneOf("List<" + e + ">", {'['})
    ensures "List<" + e + ">" + "[]" == "List<" + e + ">[]"
  {
    var l := "List<" + e + ">";
    assert forall j :: 0 <= j < |e| ==> l[j + 5] == e[j];
    assert l[0] == 'L' && l[|l| - 1] == '>' by {
      assert l == ("List<" + e) + ">";
    }
    TrimmedIsFixed(l);
  }

  /** How `Split` on the angle brackets cuts `List<e>[]`. */
  lemma ListArraySplit(e: string)
    requires NoneOf(e, AngleBrackets)
    ensures Split("List<" + e + ">[]", AngleBrackets) == ["List", e, "[]"]
  {
    assert NoneOf("[]", AngleBrackets);
    assert "List<" + e + ">[]" == "List" + (['<'] + (e + (['>'] + "[]")));
    AngleSplit("List", e, "[]");
  }

  lemma ThreePieces<T>(a: T, b: T, c: T)
    ensures [a] + ([b] + [c]) == [a, b, c]
  {
  }

  /** Where the array checks find their markers in `e[...]`. */
  lemma ArrayShape(e: string, dims: string)
    requires NoneOf(e, ArrayMarkers) && NoneOf(dims, AngleBrackets)
    requires EndsWith(dims, "]")
    ensures var t := e + "[" + dims;
      && Split(t, {'['})[0] == e && |Split(t, {'['})| > 1
      && EndsWith(t, "]") && !StartsWith(t, "List<") && !StartsWith(t, "Dictionary<")
      && IndexOf(t, '[') == |e| && LastIndexOf(t, ']') == |t| - 1
  {
    ArraySplit(e, dims);
    ArrayEnds(e, dims);
    ArrayIndices(e, dims);
  }

  lemma ArraySplit(e: string, dims: string)
    requires NoneOf(e, {'['})
    ensures Split(e + "[" + dims, {'['})[0] == e && |Split(e + "[" + dims, {'['})| > 1
  {
    assert e + "[" + dims == e + (['['] + dims);
    SplitFirst(e, '[', dims, {'['});
  }

  lemma ArrayEnds(e: string, dims: string)
    requires NoneOf(e, AngleBrackets) && NoneOf(dims, AngleBrackets)
    requires EndsWith(dims, "]")
    ensures var t := e + "[" + dims;
      EndsWith(t, "]") && !StartsWith(t, "List<") && !StartsWith(t, "Dictionary<")
  {
    var t := e + "[" + dims;
    assert t[|t| - 1] == dims[|dims| - 1] == "]"[0];
    assert NoneOf(t, AngleBrackets);
    CompositeMarkers(t);
  }

  lemma ArrayIndices(e: string, dims: string)
    requires NoneOf(e, {'['}) && EndsWith(dims, "]")
    ensures var t := e + "[" + dims;
      IndexOf(t, '[') == |e| && LastIndexOf(t, ']') == |t| - 1
  {
    var t := e + "[" + dims;
    assert t[|e|] == '[';
    assert t[..|e|] == e;
    IndexOfAt(t, '[', |e|);
    assert t[|t| - 1] == dims[|dims| - 1] == ']';
    LastIndexOfAt(t, ']', |t| - 1);
  }

  /** A name outside the table and of none of the composite shapes (a
      class or enum of the model) is not native, keeps its own text as ES
      type, and has no bounds and no default literal. */
  lemma UnknownName(t: string)
    requires Scalar(t) == None
    requires !StartsWith(t, "List<") && !StartsWith(t, "Dictionary<") && !EndsWith(t, "]")
    ensures Classify(t).Some?
    ensures var r := Classify(t).value;
      && !r.isNative && r.jsType == t && !r.isNumeric && !r.isString && !r.isDateTime
      && !r.isList && !r.isDictionary && !r.isArray
      && r.typeMin == None && r.typeMax == None && r.baseTypeDefaultValue == ""
  {
  }

  /** Only a dictionary can make the classifier throw: a type text without
      `<` is always classified, whatever array brackets it carries. */
  lemma {:induction false} NoAngleTotal(t: string)
    requires '<' !in t
    ensures Classify(t).Some?
    decreases |t|
  {
    CompositeMarkers(t);
    if EndsWith(t, "]") {
      var ss := Split(t, {'['});
      if |ss| > 1 {
        var e := Trim(ss[0]);
        assert '<' !in e by {
          SplitHead(t, {'['});
          assert forall j :: 0 <= j < |ss[0]| ==> ss[0][j] == t[j];
          TrimWithin(ss[0]);
        }
        NoAngleTotal(e);
      }
    }
  }
}

=== FILE: property_types.dfy ===
/** The type classifier of `StructureProperty`: setting `Type` runs
    `_SetTypeInformation`, which turns the declared type text into flags, the
    ES type tag, the default literal and the bound texts, recursing into list
    element, dictionary key/value and array element types. */
module PropertyTypes {
  import opened Text

  /** What `_SetTypeInformation` records on a fresh `StructureProperty`. */
  datatype TypeInfo = TypeInfo(
    typeName: string,
    jsType: string,
    isNative: bool,
    isNumeric: bool,
    isInteger: bool,
    isString: bool,
    isDateTime: bool,
    isList: bool,
    listType: Option<TypeInfo>,
    isDictionary: bool,
    dictionaryKeyType: Option<TypeInfo>,
    dictionaryValueType: Option<TypeInfo>,
    isArray: bool,
    isMultiDimensionalArray: bool,
    arrayType: Option<TypeInfo>,
    typeMin: Option<string>,
    typeMax: Option<string>,
    baseTypeDefaultValue: string)

  /** The bound texts a row of the table assigns to `TypeMin`/`TypeMax`. */
  datatype Bounds =
    | NoBounds
      /** The .NET `MinValue`/`MaxValue` constants, formatted as decimal text. */
    | Integral(min: int, max: int)
      /** Bound texts kept as opaque text. */
    | Literal(minText: string, maxText: string)
  {
    function MinText(): Option<string> {
      match this
      case NoBounds => None
      case Integral(min, _) => Some(DecimalText(min))
      case Literal(minText, _) => Some(minText)
    }

    function MaxText(): Option<string> {
      match this
      case NoBounds => None
      case Integral(_, max) => Some(DecimalText(max))
      case Literal(_, maxText) => Some(maxText)
    }
  }

  /** One row of the `switch` over the type text. */
  datatype ScalarRow = ScalarRow(
    jsType: string,
    isNumeric: bool,
    isInteger: bool,
    isString: bool,
    isDateTime: bool,
    bounds: Bounds,
    defaultValue: string)

  /** An integral row. */
  function IntegerRow(min: int, max: int): ScalarRow {
    ScalarRow("number", true, true, false, false, Integral(min, max), "0")
  }

  /** A floating row: float and double bounds are the round-trip formatted
      .NET constants, kept as opaque text. */
  function FloatingRow(bounds: Bounds): ScalarRow {
    ScalarRow("number", true, false, false, false, bounds, "0")
  }

  /** The `switch (typeString)` table; `None` is the `default:` branch. */
  function Scalar(t: string): Option<ScalarRow> {
    if t == "bool" then Some(ScalarRow("boolean", false, false, false, false, NoBounds, "false"))
    else if t == "sbyte" then Some(IntegerRow(-128, 127))
    else if t == "byte" then Some(IntegerRow(0, 255))
    else if t == "short" || t == "int16" then Some(IntegerRow(-32768, 32767))
    else if t == "ushort" || t == "uint16" then Some(IntegerRow(0, 65535))
    else if t == "int" || t == "int32" then Some(IntegerRow(-2147483648, 2147483647))
    else if t == "uint" || t == "uint32" then Some(IntegerRow(0, 4294967295))
    else if t == "long" || t == "int64" then
      Some(IntegerRow(-9223372036854775808, 9223372036854775807))
    else if t == "ulong" || t == "uint64" then Some(IntegerRow(0, 18446744073709551615))
    else if t == "float" || t == "Single" then
      Some(FloatingRow(Literal("-3.4028235E+38", "3.4028235E+38")))
    else if t == "double" then
      Some(FloatingRow(Literal("-1.7976931348623157E+308", "1.7976931348623157E+308")))
    else if t == "decimal" then
      Some(FloatingRow(Integral(-79228162514264337593543950335, 79228162514264337593543950335)))
    else if t == "string" then Some(ScalarRow("string", false, false, true, false, NoBounds, "''"))
    else if t == "DateTime" || t == "System.DateTime" then
      Some(ScalarRow("Date", false, false, false, true,
                     Literal("new Date(-8640000000000000)", "new Date(8640000000000000)"),
                     "new Date()"))
    else None
  }

  const AngleBrackets: set<char> := {'<', '>'}

  /** The list check: `Some(None)` when `t` is not a list, `Some(Some(e))`
      with the classified element type when it is, `None` when the element
      type throws. */
  function ListPart(t: string): Option<Option<TypeInfo>>
    decreases |t|, 0
  {
    if StartsWith(t, "List<") then
      var ss := Split(t, AngleBrackets);
      if |ss| > 1 then
        var lp :- Classify(Trim(ss[1]));
        Some(Some(lp))
      else Some(None)
    else Some(None)
  }

  /** The dictionary check: the classified key and value types, or `None`
      when either throws, including the missing second argument. */
  function DictionaryPart(t: string): Option<Option<(TypeInfo, TypeInfo)>>
    decreases |t|, 0
  {
    if StartsWith(t, "Dictionary<") then
      var ss := Split(t, AngleBrackets);
      if |ss| > 1 then
        var args := Split(ss[1], {','});
        var k :- Classify(Trim(args[0]));
        if |args| < 2 then None
        else
          var v :- Classify(Trim(args[1]));
          Some(Some((k, v)))
      else Some(None)
    else Some(None)
  }

  /** The array check's element type: the text before the first `[`. */
  function ArrayPart(t: string): Option<Option<TypeInfo>>
    decreases |t|, 0
  {
    if EndsWith(t, "]") then
      var ss := Split(t, {'['});
      if |ss| > 1 then
        var at :- Classify(Trim(ss[0]));
        Some(Some(at))
      else Some(None)
    else Some(None)
  }

  /** The array check's dimension test: more than one character between the
      first `[` and the last `]`. */
  predicate IsMultiDimensional(t: string) {
    EndsWith(t, "]") && LastIndexOf(t, ']') - IndexOf(t, '[') > 1
  }

  /** The record the composite checks leave behind, before the table. */
  function Composite(t: string, listType: Option<TypeInfo>,
                     dictionaryTypes: Option<(TypeInfo, TypeInfo)>,
                     arrayElement: Option<TypeInfo>): TypeInfo
  {
    var isMulti := IsMultiDimensional(t);
    var jsList := if listType.Some? then listType.value.jsType + "[]" else t;
    var jsDictionary :=
      if dictionaryTypes.Some?
      then "Map<" + dictionaryTypes.value.0.jsType + "," + dictionaryTypes.value.1.jsType + ">"
      else jsList;
    var jsComposite :=
      if arrayElement.Some?
      then arrayElement.value.jsType + (if isMulti then "[][]" else "[]")
      else jsDictionary;
    TypeInfo(
      t, jsComposite, false, false, false, false, false,
      listType.Some?, listType,
      dictionaryTypes.Some?,
      if dictionaryTypes.Some? then Some(dictionaryTypes.value.0) else None,
      if dictionaryTypes.Some? then Some(dictionaryTypes.value.1) else None,
      EndsWith(t, "]"), isMulti, None,
      None, None, "")
  }

  /** A row of the table written over the composite record. */
  function ApplyRow(c: TypeInfo, row: ScalarRow): TypeInfo {
    c.(jsType := row.jsType, isNative := true, isNumeric := row.isNumeric,
       isInteger := row.isInteger, isString := row.isString,
       isDateTime := row.isDateTime, typeMin := row.bounds.MinText(),
       typeMax := row.bounds.MaxText(), baseTypeDefaultValue := row.defaultValue)
  }

  /** `_SetTypeInformation` on a fresh property whose `Type` is set to `t`;
      `None` when the setter throws (a `Dictionary<..>` whose arguments hold
      no comma, at any depth). */
  function Classify(t: string): (r: Option<TypeInfo>)
    ensures r.Some? ==> r.value.typeName == t
    ensures r.Some? ==> (r.value.isArray <==> EndsWith(t, "]"))
    ensures r.Some? ==> r.value.arrayType == None
    decreases |t|, 1
  {
    var listType :- ListPart(t);
    var dictionaryTypes :- DictionaryPart(t);
    var arrayElement :- ArrayPart(t);
    var composite := Composite(t, listType, dictionaryTypes, arrayElement);
    match Scalar(t)
    case None => Some(composite)
    case Some(row) => Some(ApplyRow(composite, row))
  }
}

=== FILE: structure_files.dfy ===
/** `StructureFilesParser.Parse`: decide from the saved write times whether
    anything changed, map every source file to its destination paths, parse
    and link the files, write one ES module per source file (its imports, a
    blank line, its enums, its classes) and save the write times for the
    next run. The directory scan, the file system and the parsed syntax
    trees are inputs; the files written are the result. */
module StructureFiles {
  import opened Text
  import opened Syntax
  import opened Models
  import opened EsFileWriter
  import opened EnumEmitter
  import opened ClassEmitter
  import Extract
  import Linker

  // ---------------------------------------------------------------------
  // Change detection

  /** A source file as the directory scan reports it: the path as found
      under the source directory, its `FileInfo.FullName`, its last write
      time, and the member declarations of its syntax tree. */
  datatype SourceFile = SourceFile(path: string, fullName: string, lastWriteTime: int, members: seq<MemberDecl>)

  /** The saved write times, by full name; `None` when the cache file is
      missing or empty. */
  type Times = map<string, int>

  /** The write time the cache holds for a file, if any. */
  function LastWriteTime(cache: Option<Times>, f: SourceFile): Option<int> {
    if cache.Some? && f.fullName in cache.value then Some(cache.value[f.fullName]) else None
  }

  /** A file needs converting when the cache does not know it or knows
      another write time. */
  predicate Changed(cache: Option<Times>, f: SourceFile) {
    cache.None? || f.fullName !in cache.value || cache.value[f.fullName] != f.lastWriteTime
  }

  /** The change loop from file `i` on, with `make` the flag so far: the
      flag is set by a file the cache does not know or whose time
      differs. */
  function ScanChanges(files: seq<SourceFile>, cache: Option<Times>, i: nat, make: bool): (r: bool)
    requires i <= |files|
    ensures r <==> make || exists k :: i <= k < |files| && Changed(cache, files[k])
    decreases |files| - i
  {
    if i == |files| then make
    else
      var last := LastWriteTime(cache, files[i]);
      ScanChanges(files, cache, i + 1, make || last.None? || files[i].lastWriteTime != last.value)
  }

  /** Whether the run converts: some file changed, or a debugger is
      attached. With no source files at all nothing is converted. */
  function NeedsConversion(files: seq<SourceFile>, cache: Option<Times>, debugging: bool): (r: bool)
    ensures r <==> debugging || exists k :: 0 <= k < |files| && Changed(cache, files[k])
    ensures |files| == 0 ==> r == debugging
  {
    ScanChanges(files, cache, 0, false) || debugging
  }

  /** The write times saved after a conversion, one entry per file in scan
      order; adding a full name twice throws, which ends the run. */
  function SaveTimes(files: seq<SourceFile>): Option<Times>
    decreases |files|
  {
    if |files| == 0 then Some(map[])
    else
      var last := files[|files| - 1];
      var rest := SaveTimes(files[..|files| - 1]);
      if rest.None? || last.fullName in rest.value then None
      else Some(rest.value[last.fullName := last.lastWriteTime])
  }

  /** The full names of some files. */
  function FullNames(files: seq<SourceFile>): set<string> {
    set k | 0 <= k < |files| :: files[k].fullName
  }

  /** No two files share a full name. */
  predicate UniqueNames(files: seq<SourceFile>) {
    forall j, k :: 0 <= j < k < |files| ==> files[j].fullName != files[k].fullName
  }

  /** Saving succeeds exactly when the full names are distinct, and then
      records every file's write time under its full name and nothing
      else. */
  lemma {:induction false} SaveTimesSpec(files: seq<SourceFile>)
    ensures SaveTimes(files).Some? <==> UniqueNames(files)
    ensures SaveTimes(files).Some? ==> SaveTimes(files).value.Keys == FullNames(files)
    ensures SaveTimes(files).Some? ==>
      forall k :: 0 <= k < |files| ==> SaveTimes(files).value[files[k].fullName] == files[k].lastWriteTime
    decreases |files|
  {
    if |files| > 0 {
      var init := files[..|files| - 1];
      var last := files[|files| - 1];
      SaveTimesSpec(init);
      UniqueStep(files);
      assert forall k :: 0 <= k < |init| ==> init[k] == files[k];
    }
  }

  /** The names of some files are distinct when those of all but the last
      are and the last one's name is new. */
  lemma UniqueStep(files: seq<SourceFile>)
    requires |files| > 0
    ensures var init, last := files[..|files| - 1], files[|files| - 1];
      && FullNames(files) == FullNames(init) + {last.fullName}
      && (UniqueNames(files) <==> UniqueNames(init) && last.fullName !in FullNames(init))
  {
    var init, last := files[..|files| - 1], files[|files| - 1];
    assert forall k :: 0 <= k < |init| ==> init[k] == files[k];
    assert FullNames(files) == FullNames(init) + {last.fullName};
    if last.fullName in FullNames(init) {
      var k :| 0 <= k < |init| && init[k].fullName == last.fullName;
      assert files[k].fullName == files[|files| - 1].fullName;
    }
  }

  /** A run right after a conversion, with no file touched since, finds
      nothing changed. */
  lemma SavedTimesAreCurrent(files: seq<SourceFile>)
    requires SaveTimes(files).Some?
    ensures !NeedsConversion(files, SaveTimes(files), false)
  {
    SaveTimesSpec(files);
    var m := SaveTimes(files).value;
    forall k | 0 <= k < |files| ensures !Changed(Some(m), files[k]) {
      assert files[k].fullName in FullNames(files);
    }
  }

  // ---------------------------------------------------------------------
  // Paths

  /** The directory separators of Windows paths. */
  const Separators: set<char> := {'\\', '/'}

  /** Where `Path.ChangeExtension` cuts the path: at the last `.` after the
      last separator, or at the end when there is none. */
  function StemLength(p: string): (r: nat)
    ensures r <= |p|
    ensures r < |p| ==> p[r] == '.' && forall k :: r < k < |p| ==> p[k] != '.' && p[k] !in Separators
    ensures r == |p| ==> forall k :: 0 <= k < |p| && p[k] == '.' ==> exists j :: k < j < |p| && p[j] in Separators
    decreases |p|
  {
    if |p| == 0 then 0
    else if p[|p| - 1] == '.' then |p| - 1
    else if p[|p| - 1] in Separators then |p|
    else
      var k := StemLength(p[..|p| - 1]);
      assert forall j :: 0 <= j < |p| - 1 ==> p[..|p| - 1][j] == p[j];
      if k == |p| - 1 then |p| else k
  }

  /** `Path.ChangeExtension(p, "js")`: the extension after the last `.` of
      the file name replaced by `.js`, or `.js` appended when the name has
      none; an empty path stays empty. */
  function ChangeExtension(p: string): (r: string)
    ensures |p| == 0 ==> r == ""
    ensures |p| > 0 ==> EndsWith(r, ".js") && r[..|r| - 3] == p[..StemLength(p)]
  {
    if |p| == 0 then ""
    else
      var r := p[..StemLength(p)] + ".js";
      assert r[|r| - 3..] == ".js";
      r
  }

  /** Changing the extension twice is changing it once. */
  lemma ChangeExtensionIdempotent(p: string)
    ensures ChangeExtension(ChangeExtension(p)) == ChangeExtension(p)
  {
    if |p| > 0 {
      var r := ChangeExtension(p);
      var stem := p[..StemLength(p)];
      assert r == stem + ".js";
      assert r[..|r| - 1] == stem + ".j";
      assert r[..|r| - 1][..|r| - 2] == stem + ".";
      assert StemLength(r[..|r| - 1][..|r| - 2]) == |stem|;
      assert StemLength(r[..|r| - 1]) == |stem|;
      assert StemLength(r) == |stem|;
    }
  }

  /** The cut falls in the last part when the last part has a `.` or a
      separator of its own. */
  lemma {:induction false} StemLengthAppend(a: string, b: string)
    requires exists k :: 0 <= k < |b| && (b[k] == '.' || b[k] in Separators)
    ensures StemLength(a + b) == |a| + StemLength(b)
    decreases |b|
  {
    var p := a + b;
    assert p[..|p| - 1] == a + b[..|b| - 1];
    var last := b[|b| - 1];
    assert p[|p| - 1] == last;
    if last != '.' && last !in Separators {
      var k :| 0 <= k < |b| && (b[k] == '.' || b[k] in Separators);
      assert k < |b| - 1 && b[..|b| - 1][k] == b[k];
      StemLengthAppend(a, b[..|b| - 1]);
    }
  }

  /** `s.Replace(pattern, replacement)` with a non-empty `pattern`: every
      occurrence, found from left to right without overlapping, replaced. */
  function Replace(s: string, pattern: string, replacement: string): string
    requires |pattern| > 0
    decreases |s|
  {
    if |s| < |pattern| then s
    else if s[..|pattern|] == pattern then replacement + Replace(s[|pattern|..], pattern, replacement)
    else [s[0]] + Replace(s[1..], pattern, replacement)
  }

  /** Replacing a character by a string without it removes the character
      everywhere. */
  lemma {:induction false} ReplaceRemoves(s: string, c: char, replacement: string)
    requires c !in replacement
    ensures c !in Replace(s, [c], replacement)
    decreases |s|
  {
    if |s| >= 1 {
      ReplaceRemoves(s[1..], c, replacement);
      if s[..1] != [c] {
        assert s[0] != c by { assert s[..1] == [s[0]]; }
      }
    }
  }

  /** `pattern` occurs nowhere in `s`. */
  predicate Absent(s: string, pattern: string) {
    forall k :: 0 <= k <= |s| ==> !OccursAt(s, pattern, k)
  }

  /** A string in which `pattern` never occurs is left as it is. */
  lemma {:induction false} ReplaceAbsent(s: string, pattern: string, replacement: string)
    requires |pattern| > 0 && Absent(s, pattern)
    ensures Replace(s, pattern, replacement) == s
    decreases |s|
  {
    if |s| >= |pattern| {
      assert !OccursAt(s, pattern, 0);
      assert s[..|pattern|] == s[0..0 + |pattern|];
      forall k | 0 <= k <= |s[1..]| ensures !OccursAt(s[1..], pattern, k) {
        if OccursAt(s[1..], pattern, k) {
          assert s[1..][k..k + |pattern|] == s[k + 1..k + 1 + |pattern|];
          assert OccursAt(s, pattern, k + 1);
        }
      }
      ReplaceAbsent(s[1..], pattern, replacement);
      assert [s[0]] + s[1..] == s;
    }
  }

  /** A path under the source directory loses exactly that prefix, when
      the directory's name does not occur again in the rest. */
  lemma ReplacePrefix(dir: string, rest: string)
    requires |dir| > 0 && Absent(rest, dir)
    ensures Replace(dir + rest, dir, "") == rest
  {
    var s := dir + rest;
    assert s[..|dir|] == dir && s[|dir|..] == rest;
    ReplaceAbsent(rest, dir, "");
  }

  /** The destination file: the source path with the source directory
      replaced by the destination directory and the extension changed. */
  function DestinationFile(srcDir: string, destDir: string, path: string): string
    requires |srcDir| > 0
  {
    ChangeExtension(destDir + Replace(path, srcDir, ""))
  }

  /** The module specifier other files import this one by: `.` and the
      path below the source directory with forward slashes; it never holds
      a backslash. */
  function RelativeDestinationFile(srcDir: string, path: string): (r: string)
    requires |srcDir| > 0
    ensures |r| > 0 && r[0] == '.' && '\\' !in r
  {
    var slashed := Replace(Replace(ChangeExtension(path), srcDir, ""), "\\", "/");
    ReplaceRemoves(Replace(ChangeExtension(path), srcDir, ""), '\\', "/");
    "." + slashed
  }

  /** For a file in the source directory, `dir\name.cs`, the destination
      is `name.js` below the destination directory, and the module
      specifier `./name.js` with forward slashes. */
  lemma PathsOfSourceFile(srcDir: string, destDir: string, rest: string)
    requires |srcDir| > 0 && |rest| > 0 && rest[0] in Separators
    requires Absent(rest, srcDir) && Absent(ChangeExtension(rest), srcDir)
    ensures DestinationFile(srcDir, destDir, srcDir + rest) == destDir + ChangeExtension(rest)
    ensures RelativeDestinationFile(srcDir, srcDir + rest) == "." + Replace(ChangeExtension(rest), "\\", "/")
  {
    ReplacePrefix(srcDir, rest);
    ChangeExtensionAppend(destDir, rest);
    ChangeExtensionAppend(srcDir, rest);
    ReplacePrefix(srcDir, ChangeExtension(rest));
  }

  /** The extension of a path whose last part starts with a separator is
      changed within that part. */
  lemma ChangeExtensionAppend(a: string, b: string)
    requires |b| > 0 && b[0] in Separators
    ensures ChangeExtension(a + b) == a + ChangeExtension(b)
  {
    StemLengthAppend(a, b);
    var n := StemLength(b);
    assert (a + b)[..|a| + n] == a + b[..n];
  }

  // ---------------------------------------------------------------------
  // One output file

  /** `import { A, B } from './file.js';` */
  function ImportLine(i: Import): string {
    "import { " + Join(", ", i.elements) + " } from '" + i.fileName + "';"
  }

  function ImportBlocks(imports: seq<Import>): (r: seq<Block>)
    ensures |r| == |imports|
    ensures forall k :: 0 <= k < |imports| ==> r[k] == Text(ImportLine(imports[k]))
  {
    seq(|imports|, k requires 0 <= k < |imports| => Text(ImportLine(imports[k])))
  }

  function EnumsBlocks(enums: seq<EnumModel>): seq<Block>
    decreases |enums|
  {
    if |enums| == 0 then [] else EnumBlocks(enums[0]) + EnumsBlocks(enums[1..])
  }

  function ClassesBlocks(files: seq<FileModel>, classes: seq<ClassModel>): seq<Block>
    decreases |classes|
  {
    if |classes| == 0 then [] else ClassBlocks(files, classes[0]) + ClassesBlocks(files, classes[1..])
  }

  /** Everything written for one file of the linked program: its imports,
      a blank line, its enums, then its classes. */
  function FileBlocks(files: seq<FileModel>, f: FileModel): seq<Block> {
    ImportBlocks(f.imports) + [Gap] + EnumsBlocks(f.enums) + ClassesBlocks(files, f.classes)
  }

  /** The lines written for one file by a fresh writer. */
  function FileLines(files: seq<FileModel>, f: FileModel): seq<string> {
    Run(Empty, Calls(FileBlocks(files, f))).lines
  }

  /** Lines rendered at level zero are the lines themselves. */
  lemma {:induction false} TopLevelTexts(ls: seq<string>)
    ensures Render(0, seq(|ls|, k requires 0 <= k < |ls| => Text(ls[k]))) == ls
    decreases |ls|
  {
    if |ls| > 0 {
      var bs := seq(|ls|, k requires 0 <= k < |ls| => Text(ls[k]));
      assert bs[1..] == seq(|ls| - 1, k requires 0 <= k < |ls| - 1 => Text(ls[1..][k]));
      TopLevelTexts(ls[1..]);
      assert IndentedString(0, ls[0]) == ls[0];
      assert [ls[0]] + ls[1..] == ls;
    }
  }

  /** The import lines of a file, in import order. */
  function ImportLines(imports: seq<Import>): (r: seq<string>)
    ensures |r| == |imports|
    ensures forall k :: 0 <= k < |imports| ==> r[k] == ImportLine(imports[k])
  {
    seq(|imports|, k requires 0 <= k < |imports| => ImportLine(imports[k]))
  }

  /** Import lines are written at the left margin. */
  lemma ImportRender(imports: seq<Import>)
    ensures Render(0, ImportBlocks(imports)) == ImportLines(imports)
  {
    var texts := ImportLines(imports);
    assert ImportBlocks(imports) == seq(|texts|, k requires 0 <= k < |texts| => Text(texts[k]));
    TopLevelTexts(texts);
  }

  /** Rendering lines, a blank line and two more runs of blocks. */
  lemma SectionsRender(a: seq<Block>, b: seq<Block>, c: seq<Block>)
    ensures Render(0, a + [Gap] + b + c) == Render(0, a) + [""] + Render(0, b) + Render(0, c)
  {
    RenderConcat(0, a + [Gap] + b, c);
    RenderConcat(0, a + [Gap], b);
    RenderConcat(0, a, [Gap]);
    RenderOne(0, Gap);
  }

  /** A file starts with one import line per import in import order and a
      blank line, followed by its enums and then its classes, each at the
      left margin; the writer ends where it started. */
  lemma FileLayout(files: seq<FileModel>, f: FileModel)
    ensures var lines, n := FileLines(files, f), |f.imports|;
      && |lines| > n
      && lines[..n] == ImportLines(f.imports)
      && lines[n] == ""
      && lines[n + 1..] == Render(0, EnumsBlocks(f.enums)) + Render(0, ClassesBlocks(files, f.classes))
    ensures Run(Empty, Calls(FileBlocks(files, f))).indentation == 0
  {
    var imports, enums, classes := ImportBlocks(f.imports), EnumsBlocks(f.enums), ClassesBlocks(files, f.classes);
    SectionsLayout(imports, enums, classes);
    ImportRender(f.imports);
    SplitAfter(FileLines(files, f), ImportLines(f.imports), Render(0, enums) + Render(0, classes));
  }

  /** A fresh writer running lines, a blank line and two more runs of
      blocks. */
  lemma SectionsLayout(a: seq<Block>, b: seq<Block>, c: seq<Block>)
    ensures Run(Empty, Calls(a + [Gap] + b + c)) == Writer(Render(0, a) + [""] + (Render(0, b) + Render(0, c)), 0)
  {
    var bs := a + [Gap] + b + c;
    RunCalls(Empty, bs);
    var r := Render(0, bs);
    assert Run(Empty, Calls(bs)) == Writer([] + r, 0);
    assert [] + r == r;
    SectionsRender(a, b, c);
    Regroup(Render(0, a) + [""], Render(0, b), Render(0, c));
  }

  /** The parts of lines made of a prefix, a blank line and the rest. */
  lemma SplitAfter(lines: seq<string>, head: seq<string>, tail: seq<string>)
    requires lines == head + [""] + tail
    ensures |lines| > |head| && lines[..|head|] == head && lines[|head|] == "" && lines[|head| + 1..] == tail
  {
  }

  // ---------------------------------------------------------------------
  // The whole run

  /** A source file parsed: its paths, no imports yet, its classes and
      enums. */
  function ParsedFile(srcDir: string, destDir: string, f: SourceFile): (r: FileModel)
    requires |srcDir| > 0
    ensures r.imports == []
  {
    var parsed := Extract.ParseMembers(f.members);
    FileModel(f.path, DestinationFile(srcDir, destDir, f.path), RelativeDestinationFile(srcDir, f.path),
              [], parsed.0, parsed.1)
  }

  /** A file written: its destination and its lines. */
  datatype Output = Output(destinationFile: string, lines: seq<string>)

  /** How a run ends: an exception (exit code 0), nothing to do, or the
      written files with the saved write times, which are missing when
      saving them threw. */
  datatype Outcome =
    | Failed
    | Unchanged
    | Converted(outputs: seq<Output>, saved: Option<Times>)
  {
    /** What `Parse` returns. */
    function ExitCode(): int {
      match this
      case Failed => 0
      case Unchanged => 1
      case Converted(_, saved) => if saved.Some? then 1 else 0
    }
  }

  /** The linked program of a run. */
  function Program(srcDir: string, destDir: string, files: seq<SourceFile>): (r: seq<FileModel>)
    requires |srcDir| > 0
    ensures |r| == |files|
  {
    Linker.LinkProgram(seq(|files|, k requires 0 <= k < |files| => ParsedFile(srcDir, destDir, files[k])))
  }

  /** `StructureFilesParser.Parse` on the files the directory scan found.
      An empty source directory makes the scan throw. */
  function Convert(srcDir: string, destDir: string, files: seq<SourceFile>, cache: Option<Times>, debugging: bool): (r: Outcome)
    ensures r.Failed? <==> srcDir == ""
    ensures r.Unchanged? <==> srcDir != "" && !NeedsConversion(files, cache, debugging)
    ensures r.Converted? ==> |r.outputs| == |files| && r.saved == SaveTimes(files)
  {
    if srcDir == "" then Failed
    else if !NeedsConversion(files, cache, debugging) then Unchanged
    else
      var program := Program(srcDir, destDir, files);
      Converted(seq(|files|, k requires 0 <= k < |files| =>
                      Output(program[k].destinationFile, FileLines(program, program[k]))),
                SaveTimes(files))
  }

  /** Every written file goes to its source file's destination, starts
      with its imports, at most one per imported file and no element
      twice, and then a blank line. */
  lemma ConvertedFiles(srcDir: string, destDir: string, files: seq<SourceFile>, cache: Option<Times>,
                       debugging: bool, k: nat)
    requires Convert(srcDir, destDir, files, cache, debugging).Converted? && k < |files|
    ensures var out, program := Convert(srcDir, destDir, files, cache, debugging).outputs[k],
                                Program(srcDir, destDir, files);
      && out.destinationFile == DestinationFile(srcDir, destDir, files[k].path)
      && Linker.WellFormed(program[k].imports)
      && |out.lines| > |program[k].imports|
      && out.lines[..|program[k].imports|] == ImportLines(program[k].imports)
      && out.lines[|program[k].imports|] == ""
  {
    var parsed := seq(|files|, j requires 0 <= j < |files| => ParsedFile(srcDir, destDir, files[j]));
    var program := Program(srcDir, destDir, files);
    Linker.LinkProgramWellFormed(parsed);
    FileLayout(program, program[k]);
  }

  /** Running again on the same files after a conversion that saved its
      times converts nothing. */
  lemma SecondRunUnchanged(srcDir: string, destDir: string, files: seq<SourceFile>, cache: Option<Times>,
                           debugging: bool)
    requires Convert(srcDir, destDir, files, cache, debugging).Converted?
    requires Convert(srcDir, destDir, files, cache, debugging).saved.Some?
    ensures Convert(srcDir, destDir, files, Convert(srcDir, destDir, files, cache, debugging).saved, false) == Unchanged
  {
    SavedTimesAreCurrent(files);
  }
}

=== FILE: syntax.dfy ===
/** The part of a Roslyn syntax tree the extractor reads, as plain data:
    the member declarations of one source file in document order (what
    `DescendantNodes().OfType<MemberDeclarationSyntax>()` yields), each with
    only the texts and kinds the extraction rules look at. */
module Syntax {
  import opened Text

  /** One XML element of a documentation comment: its start tag as written
      (`<summary>`) and the text of its content. */
  datatype DocElement = DocElement(startTag: string, content: string)

  /** The documentation comment in a declaration's leading trivia, as the
      sequence of its top-level XML elements; `None` when there is none. */
  type Doc = Option<seq<DocElement>>

  /** The syntax kinds `_GetInitialValue` distinguishes. */
  datatype ExprKind = NumericLiteral | StringLiteral | OtherExpression

  /** An initializer expression: its kind, its source text (`ToString()`)
      and the `ValueText` of its first token (the unescaped value of a
      literal). */
  datatype Expr = Expr(kind: ExprKind, text: string, firstTokenValueText: string)

  /** An enum member. `equalsValue` is `None` without `= value`; otherwise
      it carries the rendered `Value` of the value's first token, `None`
      where that value is null. */
  datatype EnumMemberDecl = EnumMemberDecl(name: string, equalsValue: Option<Option<string>>, doc: Doc)

  /** One variable of a field declaration. */
  datatype Declarator = Declarator(name: string, initializer: Option<Expr>)

  datatype MemberDecl =
      /** An enum; `text` is the declaration's text without its leading trivia. */
    | EnumDecl(name: string, text: string, doc: Doc, members: seq<EnumMemberDecl>)
      /** A class, struct, record or interface; `baseList` is the text of
          the base types, `namespace` the name of an enclosing block
          namespace declaration. */
    | TypeDecl(name: string, baseList: Option<string>, namespace: Option<string>, doc: Doc)
      /** A property; `typeKind` is the name of the type syntax's kind
          (`NullableType` for `int?`), `enclosingType` the name of the type
          declaration it sits in directly, if any. */
    | PropertyDecl(modifiers: string, name: string, typeText: string, typeKind: string, doc: Doc,
                   attributeLists: seq<string>, initializer: Option<Expr>, enclosingType: Option<string>)
      /** A field declaration with its variables. */
    | FieldDecl(modifiers: string, typeText: string, typeKind: string, doc: Doc,
                declarators: seq<Declarator>, enclosingType: Option<string>)
      /** Any other member (methods, constructors, namespaces, ...). */
    | OtherMember
}

=== FILE: text.dfy ===
/** The .NET string operations the converter is built from, over `string`
    (a `seq<char>`), with ordinal comparison throughout.  Every other module
    of the model is written in terms of these. */
module Text {

  /** A value that may be missing; `None` also stands for "this call threw". */
  datatype Option<+T> = None | Some(value: T) {

    predicate IsFailure() {
      None?
    }

    function PropagateFailure<U>(): Option<U>
      requires None?
    {
      None
    }

    function Extract(): T
      requires Some?
    {
      value
    }

    function GetOr(default: T): T {
      if Some? then value else default
    }
  }

  // ---------------------------------------------------------------------
  // Prefixes, suffixes and occurrences

  predicate StartsWith(s: string, prefix: string) {
    |prefix| <= |s| && s[..|prefix|] == prefix
  }

  predicate EndsWith(s: string, suffix: string) {
    |suffix| <= |s| && s[|s| - |suffix|..] == suffix
  }

  /** `p` occurs in `s` starting at position `k`. */
  predicate OccursAt(s: string, p: string, k: int) {
    0 <= k && k + |p| <= |s| && s[k..k + |p|] == p
  }

  /** `String.IndexOf(char)`: the first position of `c`, or -1. */
  function IndexOf(s: string, c: char): (r: int)
    ensures -1 <= r < |s|
    ensures r == -1 <==> c !in s
    ensures r >= 0 ==> s[r] == c && c !in s[..r]
  {
    if |s| == 0 then -1
    else if s[0] == c then 0
    else
      var k := IndexOf(s[1..], c);
      IndexOfStep(s, c, k);
      if k < 0 then -1 else k + 1
  }

  /** The step of `IndexOf` past a first character that is not `c`. */
  lemma IndexOfStep(s: string, c: char, k: int)
    requires |s| > 0 && s[0] != c && -1 <= k < |s| - 1
    requires k == -1 <==> c !in s[1..]
    requires k >= 0 ==> s[1..][k] == c && c !in s[1..][..k]
    ensures k == -1 <==> c !in s
    ensures k >= 0 ==> s[k + 1] == c && c !in s[..k + 1]
  {
    var t := s[1..];
    assert forall j :: 0 <= j < |t| ==> t[j] == s[j + 1];
    if c in s {
      var j :| 0 <= j < |s| && s[j] == c;
      assert t[j - 1] == c;
    }
    if k >= 0 {
      var u, v := s[..k + 1], t[..k];
      forall j | 0 < j < k + 1 ensures u[j] == v[j - 1] {}
    }
  }

  /** The first occurrence is the one with no earlier occurrence. */
  lemma IndexOfAt(s: string, c: char, i: nat)
    requires i < |s| && s[i] == c && c !in s[..i]
    ensures IndexOf(s, c) == i
  {
    var r := IndexOf(s, c);
    assert forall k :: 0 <= k < i ==> s[..i][k] == s[k];
    assert forall k :: 0 <= k < r ==> s[..r][k] == s[k];
  }

  /** `String.LastIndexOf(char)`: the last position of `c`, or -1. */
  function LastIndexOf(s: string, c: char): (r: int)
    ensures -1 <= r < |s|
    ensures r == -1 <==> c !in s
    ensures r >= 0 ==> s[r] == c && c !in s[r + 1..]
  {
    if |s| == 0 then -1
    else if s[|s| - 1] == c then |s| - 1
    else
      var k := LastIndexOf(s[..|s| - 1], c);
      LastIndexOfStep(s, c, k);
      k
  }

  /** The step of `LastIndexOf` past a last character that is not `c`. */
  lemma LastIndexOfStep(s: string, c: char, k: int)
    requires |s| > 0 && s[|s| - 1] != c && -1 <= k < |s| - 1
    requires k == -1 <==> c !in s[..|s| - 1]
    requires k >= 0 ==> s[..|s| - 1][k] == c && c !in s[..|s| - 1][k + 1..]
    ensures k == -1 <==> c !in s
    ensures k >= 0 ==> s[k] == c && c !in s[k + 1..]
  {
    var t := s[..|s| - 1];
    assert forall j :: 0 <= j < |t| ==> t[j] == s[j];
    if c in s {
      var j :| 0 <= j < |s| && s[j] == c;
      assert t[j] == c;
    }
    if k >= 0 {
      var u, v := s[k + 1..], t[k + 1..];
      SuffixStep(s, k + 1);
      assert u == v + [s[|s| - 1]];
      assert c !in v;
    }
  }

  /** A suffix of `s` is the same suffix of `s` without its last element,
      followed by that element. */
  lemma SuffixStep<T>(s: seq<T>, i: nat)
    requires i < |s|
    ensures s[i..] == s[..|s| - 1][i..] + [s[|s| - 1]]
  {
  }

  /** The last occurrence is the one with no later occurrence. */
  lemma LastIndexOfAt(s: string, c: char, i: nat)
    requires i < |s| && s[i] == c && c !in s[i + 1..]
    ensures LastIndexOf(s, c) == i
  {
    var r := LastIndexOf(s, c);
    assert forall k :: i < k < |s| ==> s[i + 1..][k - i - 1] == s[k];
    assert forall k :: r < k < |s| ==> s[r + 1..][k - r - 1] == s[k];
  }

  /** The first position holding any character of `cs`, or -1. */
  function IndexOfAny(s: string, cs: set<char>): (r: int)
    ensures -1 <= r < |s|
    ensures r >= 0 ==> s[r] in cs && NoneOf(s[..r], cs)
    ensures r < 0 ==> NoneOf(s, cs)
  {
    if |s| == 0 then -1
    else if s[0] in cs then 0
    else
      var k := IndexOfAny(s[1..], cs);
      IndexOfAnyStep(s, cs, k);
      if k < 0 then -1 else k + 1
  }

  /** The step of `IndexOfAny` past a first character outside `cs`. */
  lemma IndexOfAnyStep(s: string, cs: set<char>, k: int)
    requires |s| > 0 && s[0] !in cs && -1 <= k < |s| - 1
    requires k >= 0 ==> NoneOf(s[1..][..k], cs)
    requires k < 0 ==> NoneOf(s[1..], cs)
    ensures k >= 0 ==> NoneOf(s[..k + 1], cs)
    ensures k < 0 ==> NoneOf(s, cs)
  {
    assert forall j :: 0 < j < |s| ==> s[1..][j - 1] == s[j];
    if k >= 0 {
      assert forall j :: 0 <= j < k ==> s[..k + 1][j + 1] == s[1..][..k][j];
    }
  }

  /** The first position holding a character of `cs` is the one with none
      before it. */
  lemma IndexOfAnyAt(s: string, cs: set<char>, i: nat)
    requires i < |s| && s[i] in cs && NoneOf(s[..i], cs)
    ensures IndexOfAny(s, cs) == i
  {
    var r := IndexOfAny(s, cs);
    assert forall k :: 0 <= k < i ==> s[..i][k] == s[k];
    assert forall k :: 0 <= k < r ==> s[..r][k] == s[k];
  }

  /** A character missing from a suffix is missing from every slice of it. */
  lemma SliceAvoids(s: string, c: char, i: nat, j: nat)
    requires i <= j <= |s| && c !in s[i..]
    ensures c !in s[i..j]
  {
    var u, v := s[i..], s[i..j];
    forall k | 0 <= k < |v| ensures v[k] == u[k] {}
  }

  /** `String.IndexOf(string)` for a non-empty needle: the first position
      where `p` occurs, or -1. */
  function IndexOfText(s: string, p: string): (r: int)
    requires |p| > 0
    ensures -1 <= r <= |s| - |p| || r == -1
    ensures r >= 0 ==> OccursAt(s, p, r)
    ensures forall k :: 0 <= k && (r < 0 || k < r) ==> !OccursAt(s, p, k)
    decreases |s|
  {
    if |s| < |p| then -1
    else if s[..|p|] == p then 0
    else
      var k := IndexOfText(s[1..], p);
      assert forall j :: 0 < j ==> (OccursAt(s, p, j) <==> OccursAt(s[1..], p, j - 1)) by {
        forall j | 0 < j
          ensures OccursAt(s, p, j) <==> OccursAt(s[1..], p, j - 1)
        {
          OccursShift(s, p, j);
        }
      }
      if k < 0 then -1 else k + 1
  }

  /** An occurrence after the first character is an occurrence in the tail. */
  lemma OccursShift(s: string, p: string, j: int)
    requires 0 < j && |s| > 0
    ensures OccursAt(s, p, j) <==> OccursAt(s[1..], p, j - 1)
  {
    if j + |p| <= |s| {
      assert s[j..j + |p|] == s[1..][j - 1..j - 1 + |p|];
    }
  }

  /** `String.Contains(string)`, ordinal. */
  predicate Contains(s: string, p: string)
    requires |p| > 0
  {
    IndexOfText(s, p) >= 0
  }

  // ---------------------------------------------------------------------
  // Splitting and joining

  /** No character of `s` is in `cs`. */
  predicate NoneOf(s: string, cs: set<char>) {
    forall j :: 0 <= j < |s| ==> s[j] !in cs
  }

  /** Every character of `a` occurs in `s`. */
  predicate Within(a: string, s: string) {
    forall j :: 0 <= j < |a| ==> a[j] in s
  }

  /** `String.Split(params char[])`: the pieces between separators, empty
      pieces kept. */
  function Split(s: string, seps: set<char>): (r: seq<string>)
    ensures |r| >= 1
    ensures forall k :: 0 <= k < |r| ==> |r[k]| <= |s|
    ensures |r| > 1 ==> forall k :: 0 <= k < |r| ==> |r[k]| < |s|
    ensures forall k :: 0 <= k < |r| ==> NoneOf(r[k], seps)
    ensures NoneOf(s, seps) ==> r == [s]
    decreases |s|
  {
    var i := IndexOfAny(s, seps);
    if i < 0 then [s]
    else
      var rest := Split(s[i + 1..], seps);
      var r := [s[..i]] + rest;
      SplitPieces(s, i, seps, rest, r);
      r
  }

  /** The pieces `Split` assembles from the text before the first separator
      and the pieces after it. */
  lemma SplitPieces(s: string, i: nat, seps: set<char>, rest: seq<string>, r: seq<string>)
    requires i < |s| && s[i] in seps && NoneOf(s[..i], seps)
    requires forall k :: 0 <= k < |rest| ==> |rest[k]| <= |s| - i - 1
    requires forall k :: 0 <= k < |rest| ==> NoneOf(rest[k], seps)
    requires r == [s[..i]] + rest
    ensures |r| >= 1
    ensures forall k :: 0 <= k < |r| ==> |r[k]| <= |s|
    ensures |r| > 1 ==> forall k :: 0 <= k < |r| ==> |r[k]| < |s|
    ensures forall k :: 0 <= k < |r| ==> NoneOf(r[k], seps)
    ensures NoneOf(s, seps) ==> r == [s]
  {
    forall k | 0 < k < |r| ensures r[k] == rest[k - 1] {}
  }

  /** The first piece of a split is a prefix of the whole. */
  lemma SplitHead(s: string, seps: set<char>)
    ensures Split(s, seps)[0] <= s
  {
    var i := IndexOfAny(s, seps);
    if i >= 0 {
      assert Split(s, seps)[0] == s[..i];
    }
  }

  /** `String.Split(string)` for a non-empty separator. */
  function SplitText(s: string, sep: string): (r: seq<string>)
    requires |sep| > 0
    ensures |r| >= 1
    ensures forall k :: 0 <= k < |r| ==> !Contains(r[k], sep)
    decreases |s|
  {
    var i := IndexOfText(s, sep);
    if i < 0 then [s]
    else
      assert !Contains(s[..i], sep) by {
        forall k | 0 <= k
          ensures !OccursAt(s[..i], sep, k)
        {
          if OccursAt(s[..i], sep, k) {
            assert s[..i][k..k + |sep|] == s[k..k + |sep|];
            assert OccursAt(s, sep, k);
          }
        }
      }
      [s[..i]] + SplitText(s[i + |sep|..], sep)
  }

  /** A text without the separator's first character holds no occurrence
      of it. */
  lemma NoOccurrence(s: string, sep: string)
    requires |sep| > 0 && sep[0] !in s
    ensures IndexOfText(s, sep) < 0
  {
    forall k | 0 <= k && k + |sep| <= |s| ensures !OccursAt(s, sep, k) {
      assert s[k..k + |sep|][0] == s[k];
    }
  }

  /** The first piece of `head + sep + tail` is `head` when `head` does not
      hold the separator's first character. */
  lemma SplitTextFirst(head: string, sep: string, tail: string)
    requires |sep| > 0 && sep[0] !in head
    ensures SplitText(head + sep + tail, sep) == [head] + SplitText(tail, sep)
  {
    var s := head + sep + tail;
    var n := |head|;
    assert s[n..n + |sep|] == sep;
    assert OccursAt(s, sep, n);
    forall k | 0 <= k < n ensures !OccursAt(s, sep, k) {
      assert s[k] == head[k];
      if k + |sep| <= |s| {
        assert s[k..k + |sep|][0] == s[k];
      }
    }
    assert IndexOfText(s, sep) == n;
    assert s[..n] == head;
    assert s[n + |sep|..] == tail;
  }

  /** Splitting on a text undoes joining with it, as long as no part holds
      the separator's first character. */
  lemma {:induction false} SplitTextJoin(parts: seq<string>, sep: string)
    requires |parts| >= 1 && |sep| > 0
    requires forall k :: 0 <= k < |parts| ==> sep[0] !in parts[k]
    ensures SplitText(Join(sep, parts), sep) == parts
    decreases |parts|
  {
    if |parts| == 1 {
      NoOccurrence(parts[0], sep);
    } else {
      SplitTextFirst(parts[0], sep, Join(sep, parts[1..]));
      SplitTextJoin(parts[1..], sep);
    }
  }

  /** `String.Join(sep, parts)`. */
  function Join(sep: string, parts: seq<string>): string {
    if |parts| == 0 then ""
    else if |parts| == 1 then parts[0]
    else parts[0] + sep + Join(sep, parts[1..])
  }

  /** Splitting on one character undoes joining with it, as long as no part
      contains that character. */
  lemma {:induction false} SplitJoin(parts: seq<string>, c: char)
    requires |parts| >= 1
    requires forall k :: 0 <= k < |parts| ==> c !in parts[k]
    ensures Split(Join([c], parts), {c}) == parts
    decreases |parts|
  {
    if |parts| == 1 {
      assert Join([c], parts) == parts[0];
      assert NoneOf(parts[0], {c});
    } else {
      var rest := Join([c], parts[1..]);
      assert Join([c], parts) == parts[0] + ([c] + rest) by {
        assert Join([c], parts) == parts[0] + [c] + rest;
      }
      assert Split(parts[0] + ([c] + rest), {c}) == [parts[0]] + Split(rest, {c}) by {
        assert NoneOf(parts[0], {c});
        SplitFirst(parts[0], c, rest, {c});
      }
      assert Split(rest, {c}) == parts[1..] by {
        SplitJoin(parts[1..], c);
      }
      assert [parts[0]] + parts[1..] == parts;
    }
  }

  /** The first piece of `head + [c] + tail` is `head` when `c` is a
      separator and `head` holds none. */
  lemma SplitFirst(head: string, c: char, tail: string, seps: set<char>)
    requires NoneOf(head, seps) && c in seps
    ensures Split(head + ([c] + tail), seps) == [head] + Split(tail, seps)
  {
    var s := head + ([c] + tail);
    var n := |head|;
    assert s[..n] == head;
    assert s[n + 1..] == tail;
    IndexOfAnyAt(s, seps, n);
    SplitAt(s, seps, n);
  }

  /** Joining the pieces of a split with the (single) separator restores the
      original text. */
  lemma {:induction false} JoinSplit(s: string, c: char)
    ensures Join([c], Split(s, {c})) == s
    decreases |s|
  {
    var i := IndexOfAny(s, {c});
    if i >= 0 {
      JoinSplit(s[i + 1..], c);
      JoinSplitStep(s, c, i, Split(s[i + 1..], {c}));
    }
  }

  /** `Split` cuts at the first separator. */
  lemma SplitAt(s: string, seps: set<char>, i: nat)
    requires i < |s| && IndexOfAny(s, seps) == i
    ensures Split(s, seps) == [s[..i]] + Split(s[i + 1..], seps)
  {
  }

  /** One step of `JoinSplit`: the text before the first `c`, then `c`,
      then the rejoined rest. */
  lemma JoinSplitStep(s: string, c: char, i: nat, tail: seq<string>)
    requires i < |s| && s[i] == c && IndexOfAny(s, {c}) == i
    requires tail == Split(s[i + 1..], {c}) && Join([c], tail) == s[i + 1..]
    ensures Join([c], Split(s, {c})) == s
  {
    var head := s[..i];
    SplitAt(s, {c}, i);
    JoinCons([c], head, tail);
    Reassemble(s, i, head, s[i + 1..]);
  }

  /** A text is the part before position `i`, the character there, and the
      part after it. */
  lemma Reassemble(s: string, i: nat, head: string, tail: string)
    requires i < |s| && head == s[..i] && tail == s[i + 1..]
    ensures head + [s[i]] + tail == s
  {
    var t := head + [s[i]] + tail;
    forall j | 0 <= j < |s| ensures t[j] == s[j] {
      if j < i {
        assert t[j] == head[j];
      } else if i < j {
        assert t[j] == tail[j - i - 1];
      }
    }
  }

  lemma JoinCons(sep: string, head: string, tail: seq<string>)
    requires |tail| >= 1
    ensures Join(sep, [head] + tail) == head + sep + Join(sep, tail)
  {
    assert ([head] + tail)[1..] == tail;
  }

  /** The non-empty elements of `xs`, in order. */
  function NonEmpty(xs: seq<string>): (r: seq<string>)
    ensures |r| <= |xs|
    ensures forall k :: 0 <= k < |r| ==> r[k] != "" && r[k] in xs
    ensures forall k :: 0 <= k < |xs| && xs[k] != "" ==> xs[k] in r
  {
    if |xs| == 0 then []
    else if xs[0] == "" then NonEmpty(xs[1..])
    else [xs[0]] + NonEmpty(xs[1..])
  }

  /** `NonEmpty` keeps a sequence without empty elements as it is, and
      drops a leading empty element. */
  lemma {:induction false} NonEmptyKeeps(xs: seq<string>)
    requires forall k :: 0 <= k < |xs| ==> xs[k] != ""
    ensures NonEmpty(xs) == xs
    ensures NonEmpty([""] + xs) == xs
    decreases |xs|
  {
    assert ([""] + xs)[1..] == xs;
    if |xs| > 0 {
      NonEmptyKeeps(xs[1..]);
      assert xs == [xs[0]] + xs[1..];
    }
  }

  // ---------------------------------------------------------------------
  // Trimming

  /** The characters `Char.IsWhiteSpace` accepts (Unicode White_Space). */
  const WhiteSpace: set<char> := {
    '\t', '\n', '\U{000B}', '\U{000C}', '\r', ' ', '\U{0085}', '\U{00A0}',
    '\U{1680}', '\U{2000}', '\U{2001}', '\U{2002}', '\U{2003}', '\U{2004}',
    '\U{2005}', '\U{2006}', '\U{2007}', '\U{2008}', '\U{2009}', '\U{200A}',
    '\U{2028}', '\U{2029}', '\U{202F}', '\U{205F}', '\U{3000}'
  }

  /** Removes leading characters of `ws`. */
  function TrimStartOf(s: string, ws: set<char>): (r: string)
    ensures |r| <= |s| && r == s[|s| - |r|..]
    ensures |r| == 0 || r[0] !in ws
    ensures forall k :: 0 <= k < |s| - |r| ==> s[k] in ws
  {
    if |s| > 0 && s[0] in ws then TrimStartOf(s[1..], ws) else s
  }

  /** Removes trailing characters of `ws`. */
  function TrimEndOf(s: string, ws: set<char>): (r: string)
    ensures |r| <= |s| && r == s[..|r|]
    ensures |r| == 0 || r[|r| - 1] !in ws
    ensures forall k :: |r| <= k < |s| ==> s[k] in ws
  {
    if |s| > 0 && s[|s| - 1] in ws then TrimEndOf(s[..|s| - 1], ws) else s
  }

  /** `s` is `r` with characters of `ws` added in front and behind. */
  predicate Padded(r: string, s: string, ws: set<char>) {
    exists i, j :: 0 <= i <= j <= |s| && PaddedAt(r, s, ws, i, j)
  }

  /** `r` is `s[i..j]`, and only characters of `ws` stand around it. */
  predicate PaddedAt(r: string, s: string, ws: set<char>, i: int, j: int) {
    && 0 <= i <= j <= |s| && r == s[i..j]
    && (forall k :: 0 <= k < i ==> s[k] in ws)
    && (forall k :: j <= k < |s| ==> s[k] in ws)
  }

  /** Removes leading and trailing characters of `ws`: what remains is a
      slice of `s` with only `ws` around it, and neither of its ends is in
      `ws`. */
  function TrimOf(s: string, ws: set<char>): (r: string)
    ensures |r| <= |s|
    ensures |r| == 0 || (r[0] !in ws && r[|r| - 1] !in ws)
    ensures Padded(r, s, ws)
  {
    var t := TrimStartOf(s, ws);
    var r := TrimEndOf(t, ws);
    assert |r| > 0 ==> r[0] == t[0];
    PaddedSlice(s, t, r, ws);
    r
  }

  /** The two trimming steps leave a slice of `s` with only `ws` around it. */
  lemma PaddedSlice(s: string, t: string, r: string, ws: set<char>)
    requires t == TrimStartOf(s, ws) && r == TrimEndOf(t, ws)
    ensures Padded(r, s, ws)
  {
    var i := |s| - |t|;
    var j := i + |r|;
    SliceOfSuffix(s, i, |r|);
    forall k | j <= k < |s| ensures s[k] in ws {
      assert s[k] == t[k - i];
    }
    assert PaddedAt(r, s, ws, i, j);
  }

  /** The first `n` elements of the suffix from `i` are the slice `i..i + n`. */
  lemma SliceOfSuffix<T>(s: seq<T>, i: nat, n: nat)
    requires i + n <= |s|
    ensures s[i..][..n] == s[i..i + n]
  {
  }

  /** `String.Trim()`: the input without its leading and trailing white
      space. */
  function Trim(s: string): (r: string)
    ensures |r| <= |s|
    ensures |r| == 0 || (r[0] !in WhiteSpace && r[|r| - 1] !in WhiteSpace)
    ensures Padded(r, s, WhiteSpace)
  {
    TrimOf(s, WhiteSpace)
  }

  /** A line break alone trims to nothing. */
  lemma TrimNewline()
    ensures Trim("\n") == ""
  {
    assert "\n"[0] in WhiteSpace;
    assert TrimStartOf("\n"[1..], WhiteSpace) == "";
  }

  /** Trimming only removes characters. */
  lemma TrimWithin(s: string)
    ensures Within(Trim(s), s)
  {
    TrimOfWithin(s, WhiteSpace);
  }

  lemma TrimOfWithin(s: string, ws: set<char>)
    ensures Within(TrimOf(s, ws), s)
  {
    var t := TrimStartOf(s, ws);
    var r := TrimEndOf(t, ws);
    assert TrimOf(s, ws) == r;
    forall j | 0 <= j < |r| ensures r[j] in s {
      assert r[j] == t[j] == s[|s| - |t| + j];
    }
  }

  /** Trimming twice trims once. */
  lemma TrimIdempotent(s: string)
    ensures Trim(Trim(s)) == Trim(s)
  {
    TrimmedIsFixed(Trim(s));
  }

  /** Trimming removes one space in front and one line break behind. */
  lemma TrimPadded(s: string)
    requires |s| > 0 && s[0] !in WhiteSpace && s[|s| - 1] !in WhiteSpace
    ensures Trim(" " + s + "\n") == s
  {
    var t := " " + s + "\n";
    assert t[1..] == s + "\n";
    assert TrimStartOf(t, WhiteSpace) == TrimStartOf(s + "\n", WhiteSpace);
    assert TrimStartOf(s + "\n", WhiteSpace) == s + "\n";
    assert (s + "\n")[..|s|] == s;
    assert TrimEndOf(s + "\n", WhiteSpace) == TrimEndOf(s, WhiteSpace) == s;
  }

  /** A string with no white space at either end is its own trim. */
  lemma TrimmedIsFixed(s: string)
    requires |s| == 0 || (s[0] !in WhiteSpace && s[|s| - 1] !in WhiteSpace)
    ensures Trim(s) == s
  {
  }

  // ---------------------------------------------------------------------
  // Replacing and counting

  /** `String.Replace(char, char)`. */
  function ReplaceChar(s: string, a: char, b: char): (r: string)
    ensures |r| == |s|
    ensures forall k :: 0 <= k < |s| ==> r[k] == (if s[k] == a then b else s[k])
  {
    if |s| == 0 then ""
    else [if s[0] == a then b else s[0]] + ReplaceChar(s[1..], a, b)
  }

  /** `String.Replace(c.ToString(), "")`: every `c` removed, nothing else
      changed. */
  function RemoveChar(s: string, c: char): (r: string)
    ensures |r| <= |s|
    ensures c !in r
    ensures forall x :: x in r <==> x in s && x != c
    ensures c !in s ==> r == s
  {
    if |s| == 0 then ""
    else if s[0] == c then RemoveChar(s[1..], c)
    else [s[0]] + RemoveChar(s[1..], c)
  }

  /** The length that remains is the length less the occurrences of `c`. */
  lemma {:induction false} RemoveCharLength(s: string, c: char)
    ensures |RemoveChar(s, c)| == |s| - CountChar(s, c)
    decreases |s|
  {
    if |s| > 0 {
      RemoveCharLength(s[1..], c);
    }
  }

  /** `String.Replace(p, "")` for a non-empty `p`: occurrences removed left
      to right, without overlap. */
  function RemoveText(s: string, p: string): (r: string)
    requires |p| > 0
    ensures |r| <= |s|
    ensures !Contains(s, p) ==> r == s
    decreases |s|
  {
    var i := IndexOfText(s, p);
    if i < 0 then s
    else s[..i] + RemoveText(s[i + |p|..], p)
  }

  /** The number of occurrences of `c` (`s.Count(x => x == c)`). */
  function CountChar(s: string, c: char): (r: nat)
    ensures r <= |s|
    ensures r == 0 <==> c !in s
  {
    if |s| == 0 then 0
    else (if s[0] == c then 1 else 0) + CountChar(s[1..], c)
  }

  /** Counting distributes over concatenation. */
  lemma {:induction false} CountCharConcat(a: string, b: string, c: char)
    ensures CountChar(a + b, c) == CountChar(a, c) + CountChar(b, c)
    decreases |a|
  {
    if |a| > 0 {
      assert (a + b)[1..] == a[1..] + b;
      assert (a + b)[0] == a[0];
      CountCharConcat(a[1..], b, c);
    } else {
      assert a + b == b;
    }
  }

  /** Replacing distributes over concatenation. */
  lemma ReplaceCharConcat(x: string, y: string, a: char, b: char)
    ensures ReplaceChar(x + y, a, b) == ReplaceChar(x, a, b) + ReplaceChar(y, a, b)
  {
    var l, r := ReplaceChar(x + y, a, b), ReplaceChar(x, a, b) + ReplaceChar(y, a, b);
    assert |l| == |r|;
    forall k | 0 <= k < |l| ensures l[k] == r[k] {
      if k < |x| {
        assert (x + y)[k] == x[k];
      } else {
        assert (x + y)[k] == y[k - |x|];
      }
    }
  }

  /** Removing distributes over concatenation. */
  lemma {:induction false} RemoveCharConcat(x: string, y: string, c: char)
    ensures RemoveChar(x + y, c) == RemoveChar(x, c) + RemoveChar(y, c)
    decreases |x|
  {
    if |x| > 0 {
      assert (x + y)[1..] == x[1..] + y;
      RemoveCharConcat(x[1..], y, c);
    } else {
      assert x + y == y;
    }
  }

  /** `n` space characters. */
  function Spaces(n: nat): (r: string)
    ensures |r| == n
    ensures forall k :: 0 <= k < n ==> r[k] == ' '
  {
    if n == 0 then "" else " " + Spaces(n - 1)
  }

  // ---------------------------------------------------------------------
  // Integers as decimal text

  predicate IsDigit(c: char) {
    '0' <= c <= '9'
  }

  predicate AllDigits(s: string) {
    forall k :: 0 <= k < |s| ==> IsDigit(s[k])
  }

  function DigitChar(d: nat): (c: char)
    requires d < 10
    ensures IsDigit(c)
  {
    (('0' as int) + d) as char
  }

  function DigitValue(c: char): (d: nat)
    requires IsDigit(c)
    ensures d < 10
  {
    (c as int) - ('0' as int)
  }

  /** The decimal digits of `n`, most significant first, no leading zero. */
  function NatText(n: nat): (r: string)
    ensures |r| >= 1 && AllDigits(r)
    decreases n
  {
    if n < 10 then [DigitChar(n)] else NatText(n / 10) + [DigitChar(n % 10)]
  }

  /** `Int64.ToString()` in an invariant culture: an optional minus sign, then
      the digits. */
  function DecimalText(n: int): (r: string)
    ensures |r| >= 1
  {
    if n < 0 then "-" + NatText(-n) else NatText(n)
  }

  /** The value of a run of decimal digits. */
  function DigitsValue(s: string): nat
    requires AllDigits(s)
  {
    if |s| == 0 then 0 else DigitsValue(s[..|s| - 1]) * 10 + DigitValue(s[|s| - 1])
  }

  /** The white space `NumberStyles.Integer` lets surround a number. */
  const NumberWhiteSpace: set<char> := {'\t', '\n', '\U{000B}', '\U{000C}', '\r', ' '}

  /** The value of decimal text under `NumberStyles.Integer` (surrounding
      white space, one optional leading sign, at least one digit), with no
      width limit; `None` where `Int*.Parse` would throw a FormatException. */
  function ParseInteger(s: string): (r: Option<int>)
    ensures r.Some? ==> exists k :: 0 <= k < |s| && IsDigit(s[k])
  {
    var t := TrimOf(s, NumberWhiteSpace);
    var r := SignedDigits(t);
    assert r.Some? ==> exists k :: 0 <= k < |s| && IsDigit(s[k]) by {
      if r.Some? {
        var k :| 0 <= k < |t| && IsDigit(t[k]);
        TrimOfWithin(s, NumberWhiteSpace);
        assert t[k] in s;
      }
    }
    r
  }

  /** An optional leading sign and at least one digit, nothing else. */
  function SignedDigits(t: string): (r: Option<int>)
    ensures r.Some? ==> exists k :: 0 <= k < |t| && IsDigit(t[k])
  {
    if |t| == 0 then None
    else
      var neg := t[0] == '-';
      var body := if t[0] == '-' || t[0] == '+' then t[1..] else t;
      if |body| == 0 || !AllDigits(body) then None
      else
        assert IsDigit(body[0]);
        assert body[0] == t[|t| - |body|];
        var v: int := DigitsValue(body);
        Some(if neg then -v else v)
  }

  const Int32Min: int := -0x8000_0000
  const Int32Max: int := 0x7FFF_FFFF

  /** `int.Parse`: `ParseInteger` restricted to the 32-bit range (an
      OverflowException beyond it, here `None`). */
  function ParseInt32(s: string): (r: Option<int>)
    ensures r.Some? ==> Int32Min <= r.value <= Int32Max
    ensures r.Some? <==> ParseInteger(s).Some? && Int32Min <= ParseInteger(s).value <= Int32Max
  {
    match ParseInteger(s)
    case Some(v) => if Int32Min <= v <= Int32Max then Some(v) else None
    case None => None
  }

  lemma {:induction false} DigitsOfNat(n: nat)
    ensures DigitsValue(NatText(n)) == n
    decreases n
  {
    if n >= 10 {
      var s := NatText(n);
      assert s[..|s| - 1] == NatText(n / 10);
      DigitsOfNat(n / 10);
    }
  }

  /** A string that neither starts nor ends with a character of `ws` is
      left as it is by `TrimOf`. */
  lemma TrimOfFixed(s: string, ws: set<char>)
    requires |s| > 0 && s[0] !in ws && s[|s| - 1] !in ws
    ensures TrimOf(s, ws) == s
  {
    assert TrimStartOf(s, ws) == s;
    assert TrimEndOf(s, ws) == s;
  }

  /** Parsing the decimal text of any integer gives that integer back. */
  lemma DecimalTextRoundTrip(n: int)
    ensures ParseInteger(DecimalText(n)) == Some(n)
  {
    if n < 0 {
      DigitsOfNat(-n);
      NegativeRoundTrip(n, NatText(-n));
    } else {
      DigitsOfNat(n);
      NaturalRoundTrip(n, NatText(n));
    }
  }

  lemma NegativeRoundTrip(n: int, d: string)
    requires n < 0 && |d| >= 1 && AllDigits(d) && DigitsValue(d) == -n
    ensures ParseInteger("-" + d) == Some(n)
  {
    ParseNegativeDigits(d);
  }

  lemma NaturalRoundTrip(n: nat, d: string)
    requires |d| >= 1 && AllDigits(d) && DigitsValue(d) == n
    ensures ParseInteger(d) == Some(n)
  {
    ParseDigits(d);
  }

  /** A run of digits parses to its value. */
  lemma ParseDigits(d: string)
    requires |d| >= 1 && AllDigits(d)
    ensures ParseInteger(d) == Some(DigitsValue(d))
  {
    assert IsDigit(d[0]) && IsDigit(d[|d| - 1]);
    TrimOfFixed(d, NumberWhiteSpace);
    ParseOfTrimmed(d);
    PositiveDigits(d);
  }

  /** A run of digits after a minus sign parses to minus its value. */
  lemma ParseNegativeDigits(d: string)
    requires |d| >= 1 && AllDigits(d)
    ensures ParseInteger("-" + d) == Some(-(DigitsValue(d) as int))
  {
    ParseSigned("-" + d, d);
  }

  lemma ParseSigned(s: string, d: string)
    requires |d| >= 1 && AllDigits(d) && s == "-" + d
    ensures ParseInteger(s) == Some(-(DigitsValue(d) as int))
  {
    assert s[0] == '-' && s[|s| - 1] == d[|d| - 1] && IsDigit(d[|d| - 1]);
    TrimOfFixed(s, NumberWhiteSpace);
    ParseOfTrimmed(s);
    NegativeDigits(d);
  }

  lemma ParseOfTrimmed(s: string)
    requires TrimOf(s, NumberWhiteSpace) == s
    ensures ParseInteger(s) == SignedDigits(s)
  {
  }

  lemma PositiveDigits(d: string)
    requires |d| >= 1 && AllDigits(d)
    ensures SignedDigits(d) == Some(DigitsValue(d))
  {
    assert IsDigit(d[0]);
  }

  lemma NegativeDigits(d: string)
    requires |d| >= 1 && AllDigits(d)
    ensures SignedDigits("-" + d) == Some(-(DigitsValue(d) as int))
  {
    var s := "-" + d;
    assert s[0] == '-' && s[1..] == d;
  }
}

=== FILE: writer.dfy ===
/** The indenting line writer `EsFileWriter`: a buffer of lines and an
    indentation level that never drops below zero, four spaces per level,
    with documentation comments written as JSDoc blocks. The emitters drive
    it through a sequence of calls, which `Run` performs in order. */
module EsFileWriter {
  import opened Text

  /** The lines written so far (every `AppendLine` of the string builder is
      one line) and the indentation level. */
  datatype Writer = Writer(lines: seq<string>, indentation: nat)

  /** A new writer: no lines, no indentation. */
  const Empty := Writer([], 0)

  /** Spaces per indentation level. */
  const IndentWidth: nat := 4

  /** One level deeper; the lines are untouched. */
  function Indent(w: Writer): (r: Writer)
    ensures r.lines == w.lines && r.indentation >= 1
  {
    w.(indentation := w.indentation + 1)
  }

  /** One level less, but never below zero: undoes an `Indent`, and does
      nothing at level zero. */
  function Outdent(w: Writer): (r: Writer)
    ensures r.lines == w.lines
    ensures w.indentation > 0 ==> Indent(r) == w
    ensures w.indentation == 0 ==> r == w
  {
    if w.indentation > 0 then w.(indentation := w.indentation - 1) else w
  }

  /** `s.PadLeft(|s| + 4 * level)`: `s` pushed right by four spaces per
      level. */
  function IndentedString(level: nat, s: string): (r: string)
    ensures |r| == |s| + IndentWidth * level
    ensures r[IndentWidth * level..] == s
    ensures forall k :: 0 <= k < IndentWidth * level ==> r[k] == ' '
  {
    Spaces(IndentWidth * level) + s
  }

  /** Every line of `ss` at the given level. */
  function Indented(level: nat, ss: seq<string>): (r: seq<string>)
    ensures |r| == |ss|
    ensures forall k :: 0 <= k < |ss| ==> r[k] == IndentedString(level, ss[k])
  {
    seq(|ss|, k requires 0 <= k < |ss| => IndentedString(level, ss[k]))
  }

  /** `AppendLine(s)`: one more line, `s` at the current level. */
  function AppendLine(w: Writer, s: string): (r: Writer)
    ensures r.indentation == w.indentation
    ensures r.lines == w.lines + [IndentedString(w.indentation, s)]
  {
    Writer(w.lines + [IndentedString(w.indentation, s)], w.indentation)
  }

  /** `AppendLine()`: an empty line, whatever the level. */
  function AppendBlank(w: Writer): (r: Writer)
    ensures r.indentation == w.indentation
    ensures |r.lines| == |w.lines| + 1 && r.lines[..|w.lines|] == w.lines && r.lines[|w.lines|] == ""
  {
    Writer(w.lines + [""], w.indentation)
  }

  /** Documentation lines as the starred lines of a JSDoc block. */
  function Starred(doc: seq<string>): (r: seq<string>)
    ensures |r| == |doc|
    ensures forall k :: 0 <= k < |doc| ==> r[k] == "* " + doc[k]
  {
    seq(|doc|, k requires 0 <= k < |doc| => "* " + doc[k])
  }

  /** The JSDoc block of some documentation lines: nothing for none, one
      `/** x */` line for one, otherwise an opening line, one starred line
      per documentation line and a closing line. */
  function TriviaBlock(doc: seq<string>): (r: seq<string>)
    ensures |doc| == 0 ==> r == []
    ensures |doc| == 1 ==> r == ["/** " + doc[0] + " */"]
    ensures |doc| >= 2 ==> |r| == |doc| + 2 && r[0] == "/**" && r[|r| - 1] == "*/"
    ensures |doc| >= 2 ==> forall k :: 0 <= k < |doc| ==> r[k + 1] == "* " + doc[k]
  {
    if |doc| == 0 then []
    else if |doc| == 1 then ["/** " + doc[0] + " */"]
    else ["/**"] + Starred(doc) + ["*/"]
  }

  lemma IndentedConcat(level: nat, a: seq<string>, b: seq<string>)
    ensures Indented(level, a + b) == Indented(level, a) + Indented(level, b)
  {
  }

  /** The loop of `AppendTrivia`: one starred line per documentation line,
      in order. */
  function AppendStars(w: Writer, doc: seq<string>): (r: Writer)
    ensures r.indentation == w.indentation
    ensures r.lines == w.lines + Indented(w.indentation, Starred(doc))
    decreases |doc|
  {
    if |doc| == 0 then w
    else
      var next := AppendLine(w, "* " + doc[0]);
      var r := AppendStars(next, doc[1..]);
      StarsStep(w.lines, w.indentation, doc, next.lines, r.lines);
      r
  }

  lemma StarsStep(before: seq<string>, level: nat, doc: seq<string>, next: seq<string>, after: seq<string>)
    requires |doc| > 0 && next == before + [IndentedString(level, "* " + doc[0])]
    requires after == next + Indented(level, Starred(doc[1..]))
    ensures after == before + Indented(level, Starred(doc))
  {
    var want := before + Indented(level, Starred(doc));
    assert |after| == |want|;
    forall k | |before| < k < |after| ensures after[k] == want[k] {
      assert doc[1..][k - |before| - 1] == doc[k - |before|];
    }
  }

  /** `AppendTrivia`: the JSDoc block of the lines at the current level. */
  function AppendTrivia(w: Writer, doc: seq<string>): (r: Writer)
    ensures r.indentation == w.indentation
    ensures r.lines == w.lines + Indented(w.indentation, TriviaBlock(doc))
  {
    if |doc| == 0 then w
    else if |doc| == 1 then AppendLine(w, "/** " + doc[0] + " */")
    else
      var r := AppendLine(AppendStars(AppendLine(w, "/**"), doc), "*/");
      IndentedConcat(w.indentation, ["/**"], Starred(doc));
      IndentedConcat(w.indentation, ["/**"] + Starred(doc), ["*/"]);
      r
  }

  /** The number of lines `AppendTrivia` adds: none, one, or two more than
      the documentation lines. */
  lemma TriviaSize(w: Writer, doc: seq<string>)
    ensures var added := |AppendTrivia(w, doc).lines| - |w.lines|;
      added == (if |doc| == 0 then 0 else if |doc| == 1 then 1 else |doc| + 2)
  {
  }

  // ---------------------------------------------------------------------
  // Calls

  /** One call the emitters make on the writer. */
  datatype Call =
    | Line(text: string)
    | Blank
    | Trivia(doc: seq<string>)
    | In
    | Out

  function Apply(w: Writer, c: Call): Writer {
    match c
    case Line(text) => AppendLine(w, text)
    case Blank => AppendBlank(w)
    case Trivia(doc) => AppendTrivia(w, doc)
    case In => Indent(w)
    case Out => Outdent(w)
  }

  /** The calls performed in order: the writer only ever appends. */
  function Run(w: Writer, calls: seq<Call>): (r: Writer)
    ensures |r.lines| >= |w.lines| && r.lines[..|w.lines|] == w.lines
    decreases |calls|
  {
    if |calls| == 0 then w
    else
      var next := Apply(w, calls[0]);
      var r := Run(next, calls[1..]);
      assert r.lines[..|w.lines|] == r.lines[..|next.lines|][..|w.lines|];
      r
  }

  lemma {:induction false} RunConcat(w: Writer, a: seq<Call>, b: seq<Call>)
    ensures Run(w, a + b) == Run(Run(w, a), b)
    decreases |a|
  {
    if |a| == 0 {
      assert a + b == b;
    } else {
      assert (a + b)[1..] == a[1..] + b;
      RunConcat(Apply(w, a[0]), a[1..], b);
    }
  }

  /** Calls that do not change the level. */
  predicate Flat(c: Call) {
    !c.In? && !c.Out?
  }

  /** How much deeper the calls leave the writer when no `Out` meets level
      zero: one per `In`, minus one per `Out`. */
  function Net(calls: seq<Call>): int
    decreases |calls|
  {
    if |calls| == 0 then 0
    else (if calls[0].In? then 1 else if calls[0].Out? then -1 else 0) + Net(calls[1..])
  }

  /** Performed from `level`, no `Out` of the calls finds the writer at
      level zero. */
  predicate Fits(calls: seq<Call>, level: nat)
    decreases |calls|
  {
    if |calls| == 0 then true
    else if calls[0].Out? then level > 0 && Fits(calls[1..], level - 1)
    else if calls[0].In? then Fits(calls[1..], level + 1)
    else Fits(calls[1..], level)
  }

  /** Calls that fit end `Net` levels deeper. */
  lemma {:induction false} RunLevel(w: Writer, calls: seq<Call>)
    requires Fits(calls, w.indentation)
    ensures w.indentation + Net(calls) >= 0
    ensures Run(w, calls).indentation == w.indentation + Net(calls)
    decreases |calls|
  {
    if |calls| > 0 {
      RunLevel(Apply(w, calls[0]), calls[1..]);
    }
  }

  /** Calls that fit at one level fit at every deeper one. */
  lemma {:induction false} FitsDeeper(calls: seq<Call>, level: nat, deeper: nat)
    requires Fits(calls, level) && level <= deeper
    ensures Fits(calls, deeper)
    decreases |calls|
  {
    if |calls| > 0 {
      if calls[0].Out? {
        FitsDeeper(calls[1..], level - 1, deeper - 1);
      } else if calls[0].In? {
        FitsDeeper(calls[1..], level + 1, deeper + 1);
      } else {
        FitsDeeper(calls[1..], level, deeper);
      }
    }
  }

  lemma {:induction false} NetConcat(a: seq<Call>, b: seq<Call>)
    ensures Net(a + b) == Net(a) + Net(b)
    decreases |a|
  {
    if |a| == 0 {
      assert a + b == b;
    } else {
      assert (a + b)[1..] == a[1..] + b;
      NetConcat(a[1..], b);
    }
  }

  /** Two fitting runs in a row fit. */
  lemma {:induction false} FitsConcat(a: seq<Call>, b: seq<Call>, level: nat)
    requires Fits(a, level) && level + Net(a) >= 0 && Fits(b, level + Net(a))
    ensures Fits(a + b, level)
    decreases |a|
  {
    if |a| == 0 {
      assert a + b == b;
    } else {
      assert (a + b)[1..] == a[1..] + b;
      var next := if a[0].Out? then level - 1 else if a[0].In? then level + 1 else level;
      FitsConcat(a[1..], b, next);
    }
  }

  /** A block of calls that leaves the level as it found it, from any
      level. */
  predicate Balanced(calls: seq<Call>) {
    Fits(calls, 0) && Net(calls) == 0
  }

  /** A balanced block restores the level it started at. */
  lemma BalancedRestores(w: Writer, calls: seq<Call>)
    requires Balanced(calls)
    ensures Run(w, calls).indentation == w.indentation
  {
    FitsDeeper(calls, 0, w.indentation);
    RunLevel(w, calls);
  }

  lemma BalancedConcat(a: seq<Call>, b: seq<Call>)
    requires Balanced(a) && Balanced(b)
    ensures Balanced(a + b)
  {
    NetConcat(a, b);
    FitsConcat(a, b, 0);
  }

  /** Appending four runs of lines one after another. */
  lemma Append4(lines: seq<string>, a: seq<string>, b: seq<string>, c: seq<string>, z: seq<string>)
    ensures lines + (a + b + c + z) == lines + a + b + c + z
  {
  }

  /** Regrouping appended lines. */
  lemma Regroup(a: seq<string>, b: seq<string>, c: seq<string>)
    ensures a + b + c == a + (b + c)
  {
  }

  // ---------------------------------------------------------------------
  // Blocks

  /** What an emitter writes, with the nesting its `Indent()`/`Outdent()`
      pairs give it: a line, an empty line, a doc block, or a body one
      level deeper. */
  datatype Block =
    | Text(line: string)
    | Gap
    | Doc(doc: seq<string>)
    | Deeper(body: seq<Block>)

  /** The writer calls that produce the blocks, in order: `Deeper` is an
      `Indent()`, its body, and an `Outdent()`. */
  function Calls(bs: seq<Block>): seq<Call>
    decreases bs
  {
    if |bs| == 0 then [] else BlockCalls(bs[0]) + Calls(bs[1..])
  }

  function BlockCalls(b: Block): seq<Call>
    decreases b
  {
    match b
    case Text(line) => [Line(line)]
    case Gap => [Blank]
    case Doc(doc) => [Trivia(doc)]
    case Deeper(body) => [In] + Calls(body) + [Out]
  }

  /** The blocks as they appear on the page when they start at `level`. */
  function Render(level: nat, bs: seq<Block>): seq<string>
    decreases bs
  {
    if |bs| == 0 then [] else RenderBlock(level, bs[0]) + Render(level, bs[1..])
  }

  function RenderBlock(level: nat, b: Block): seq<string>
    decreases b
  {
    match b
    case Text(line) => [IndentedString(level, line)]
    case Gap => [""]
    case Doc(doc) => Indented(level, TriviaBlock(doc))
    case Deeper(body) => Render(level + 1, body)
  }

  /** Every `Outdent()` an emitter makes meets one of its own `Indent()`s:
      from any level its calls never go below that level, and end there. */
  lemma {:induction false} CallsBalanced(bs: seq<Block>)
    ensures Balanced(Calls(bs))
    decreases bs
  {
    if |bs| == 0 {
      assert Calls(bs) == [];
    } else {
      BlockBalanced(bs[0]);
      CallsBalanced(bs[1..]);
      BalancedConcat(BlockCalls(bs[0]), Calls(bs[1..]));
    }
  }

  lemma {:induction false} BlockBalanced(b: Block)
    ensures Balanced(BlockCalls(b))
    decreases b
  {
    match b
    case Deeper(body) =>
      CallsBalanced(body);
      DeeperBalanced(Calls(body));
    case Text(line) =>
      PlainBalanced(Line(line));
    case Gap =>
      PlainBalanced(Blank);
    case Doc(doc) =>
      PlainBalanced(Trivia(doc));
  }

  /** A call that does not change the level is balanced on its own. */
  lemma PlainBalanced(c: Call)
    requires !c.In? && !c.Out?
    ensures Balanced([c])
  {
    assert [c][1..] == [];
  }

  /** Balanced calls between an `Indent()` and an `Outdent()` are
      balanced. */
  lemma DeeperBalanced(inner: seq<Call>)
    requires Balanced(inner)
    ensures Balanced([In] + inner + [Out])
  {
    FitsDeeper(inner, 0, 1);
    assert Fits([In], 0) && Net([In]) == 1;
    FitsConcat([In], inner, 0);
    NetConcat([In], inner);
    assert Fits([Out], 1) && Net([Out]) == -1;
    FitsConcat([In] + inner, [Out], 0);
    NetConcat([In] + inner, [Out]);
  }

  /** Performing an emitter's calls appends its rendered blocks at the
      writer's level and leaves the level as it was. */
  lemma {:induction false} RunCalls(w: Writer, bs: seq<Block>)
    ensures Run(w, Calls(bs)) == Writer(w.lines + Render(w.indentation, bs), w.indentation)
    decreases bs
  {
    if |bs| == 0 {
      assert w.lines + [] == w.lines;
    } else {
      RunConcat(w, BlockCalls(bs[0]), Calls(bs[1..]));
      RunBlock(w, bs[0]);
      var next := Run(w, BlockCalls(bs[0]));
      RunCalls(next, bs[1..]);
      Regroup(w.lines, RenderBlock(w.indentation, bs[0]), Render(w.indentation, bs[1..]));
    }
  }

  lemma {:induction false} RunBlock(w: Writer, b: Block)
    ensures Run(w, BlockCalls(b)) == Writer(w.lines + RenderBlock(w.indentation, b), w.indentation)
    decreases b
  {
    match b
    case Deeper(body) =>
      var inner := Writer(w.lines, w.indentation + 1);
      RunCalls(inner, body);
      RunDeeper(w, Calls(body), Render(w.indentation + 1, body));
    case Text(line) =>
      RunOne(w, Line(line));
    case Gap =>
      RunOne(w, Blank);
      assert AppendBlank(w).lines == w.lines + [""];
    case Doc(doc) =>
      RunOne(w, Trivia(doc));
  }

  /** `Indent()` goes one level deeper. */
  lemma ApplyIn(w: Writer)
    ensures Apply(w, In) == Writer(w.lines, w.indentation + 1)
  {
  }

  /** `Outdent()` from a level above zero comes back one level. */
  lemma ApplyOut(lines: seq<string>, level: nat)
    ensures Apply(Writer(lines, level + 1), Out) == Writer(lines, level)
  {
  }

  /** A call and then the rest. */
  lemma RunCons(w: Writer, c: Call, rest: seq<Call>)
    ensures Run(w, [c] + rest) == Run(Apply(w, c), rest)
  {
    assert ([c] + rest)[0] == c;
    assert ([c] + rest)[1..] == rest;
  }

  /** The calls and then one more. */
  lemma RunSnoc(w: Writer, calls: seq<Call>, c: Call)
    ensures Run(w, calls + [c]) == Apply(Run(w, calls), c)
  {
    RunConcat(w, calls, [c]);
    RunOne(Run(w, calls), c);
  }

  /** A single call. */
  lemma RunOne(w: Writer, c: Call)
    ensures Run(w, [c]) == Apply(w, c)
  {
    assert [c][1..] == [];
  }

  /** Calls between an `Indent()` and an `Outdent()` that write `rendered`
      one level deeper leave `rendered` appended and the level as it was. */
  lemma RunDeeper(w: Writer, inner: seq<Call>, rendered: seq<string>)
    requires Run(Writer(w.lines, w.indentation + 1), inner) == Writer(w.lines + rendered, w.indentation + 1)
    ensures Run(w, [In] + inner + [Out]) == Writer(w.lines + rendered, w.indentation)
  {
    var front := [In] + inner;
    var after := Writer(w.lines + rendered, w.indentation + 1);
    ApplyIn(w);
    RunCons(w, In, inner);
    assert Run(w, front) == after;
    RunSnoc(w, front, Out);
    ApplyOut(w.lines + rendered, w.indentation);
  }

  /** Rendering block by block. */
  lemma RenderCons(level: nat, b: Block, rest: seq<Block>)
    ensures Render(level, [b] + rest) == RenderBlock(level, b) + Render(level, rest)
  {
    assert ([b] + rest)[0] == b;
    assert ([b] + rest)[1..] == rest;
  }

  /** Rendering a single block. */
  lemma RenderOne(level: nat, b: Block)
    ensures Render(level, [b]) == RenderBlock(level, b)
  {
    assert [b][1..] == [];
  }

  /** Rendering two blocks. */
  lemma RenderTwo(level: nat, a: Block, b: Block)
    ensures Render(level, [a, b]) == RenderBlock(level, a) + RenderBlock(level, b)
  {
    RenderOne(level, b);
    RenderCons(level, a, [b]);
    assert [a] + [b] == [a, b];
  }

  /** Rendering three blocks. */
  lemma RenderThree(level: nat, a: Block, b: Block, c: Block)
    ensures Render(level, [a, b, c]) == RenderBlock(level, a) + RenderBlock(level, b) + RenderBlock(level, c)
  {
    RenderTwo(level, b, c);
    RenderCons(level, a, [b, c]);
    assert [a] + [b, c] == [a, b, c];
  }

  /** Rendering a run of blocks after another. */
  lemma {:induction false} RenderConcat(level: nat, a: seq<Block>, b: seq<Block>)
    ensures Render(level, a + b) == Render(level, a) + Render(level, b)
    decreases a
  {
    if |a| == 0 {
      assert a + b == b;
    } else {
      assert (a + b)[0] == a[0];
      assert (a + b)[1..] == a[1..] + b;
      RenderConcat(level, a[1..], b);
      Regroup(RenderBlock(level, a[0]), Render(level, a[1..]), Render(level, b));
    }
  }
}
